=== FILE: README.md ===
# A Dafny model of a sphere path tracer

This project models the core of a small C++ path tracer that follows the
"Ray Tracing in One Weekend" tutorial. The tracer has:

- three-component vectors;
- rays and a scene of spheres, searched for the closest hit;
- three materials: Lambertian diffuse, fuzzy metal and dielectric glass;
- a camera, either fixed or look-at with a thin lens;
- PPM colour encoding;
- the per-step `ray_color` integrators of the tutorial applications.

Every operation is a pure Dafny function, or a method where the source
loops. Numbers (`number_t`) are reals. Some operations call `<cmath>`
functions: `sqrt`, `pow`, `sin`, `tan`, `acos` or `atan2`. Those take a
`Libm` value that stands for one implementation of them. Only the laws an
operation needs are assumed of it: a square root that squares back, and a
positive `pi`. `rand()` is replaced by explicit draws in `[0, RAND_MAX]`. A
random operation takes its draws, or one sample per bounce, as a parameter.

The modules follow the source files:

| module | models |
|---|---|
| `MathLib` | `fabs`, `fmin`, `pi` and the laws of the square root |
| `Vectors` | `Vector3` and its free operators |
| `Utils` | `random_number_t` and `degrees_to_radians` |
| `Rays` | `Ray` |
| `Sampling` | the rejection samplers of the unit sphere and the unit disk |
| `Colors` | `Color`, `clamp`, `write_color` |
| `Textures` | `SolidColor`, and the checker texture of the last application |
| `Materials` | the material constructors |
| `Hitables` | `HitRecord::set_face_normal` |
| `Quadratics` | the ray-sphere quadratic and its two roots |
| `Spheres` | `Sphere::hit` and `get_sphere_uv` |
| `Scatter` | `reflect`, `refract`, `reflectance` and the three `scatter` methods |
| `HitableLists` | `HitableList` and its closest-hit loop |
| `Cameras` | `Camera` and `get_ray` |
| `Integrator` | `ray_color` of steps 6 to next_1, the sky, and the pixel loop |
| `EarlySteps` | `hit_sphere` and `ray_color` of steps 2 to 5 |

## Model

| member | source | states |
|---|---|---|
| MathLib.Abs | src/material.cpp:14 | `fabs` is non-negative and equals its argument or its negation |
| MathLib.Min | src/material.cpp:12 | `fmin` is at most each argument and equals one of them |
| Vectors.Zero | include/raytracing/vector3.h:14 | the default vector has three zero components |
| Vectors.Splat | include/raytracing/vector3.h:15 | the one-number constructor repeats that number in every component |
| Vectors.ConstructorValues | include/raytracing/vector3.h:14-17 | the zero vector is the splat of 0; sum and squared length of a splat are 3v and 3v² |
| Vectors.DotLaws | include/raytracing/vector3.h:19-22 | `dot` is symmetric and the dot of a vector with itself is `length_squared` |
| Vectors.LengthSquaredZero | include/raytracing/vector3.h:31 | the squared length is non-negative and is zero exactly for the zero vector |
| Vectors.LengthPositive | include/raytracing/vector3.h:30 | a non-zero vector has a positive length |
| Vectors.NormalizeUnit | include/raytracing/vector3.h:33-36 | normalising a non-zero vector gives squared length 1 |
| Vectors.UnitComponents | include/raytracing/vector3.h:40-42 | every component of a unit vector lies in [-1, 1] |
| Vectors.NearZeroLaws | include/raytracing/vector3.h:24-28 | `is_near_zero` holds iff every component has magnitude below 1e-8; the zero vector is near zero; a vector that is not near zero is not zero |
| Vectors.SumAdditive | include/raytracing/vector3.h:38 | `sum` of a vector sum is the sum of the two `sum`s |
| Vectors.AddSubRoundTrip | src/vector3.cpp:3-19 | subtracting what was added gives back the vector, and the reverse |
| Vectors.ScaleDivRoundTrip | src/vector3.cpp:26-55 | dividing by a non-zero scale undoes multiplying by it, and the reverse |
| Vectors.NegationLaws | src/vector3.cpp:9-19 | subtraction is addition of the negation; negation is an involution; v + (-v) is zero |
| Vectors.MulDivComponentsRoundTrip | src/vector3.cpp:37-41 | component-wise division undoes component-wise multiplication by a vector with no zero component |
| Vectors.RecipLaws | src/vector3.cpp:43-61 | for a vector with no zero component, `t / v` times `v` is `t` in every component, and `t / v` is `t` times `1 / v` |
| Vectors.CrossLaws | src/vector3.cpp:69-75 | the cross product is orthogonal to both factors, anti-commutative, and zero for parallel factors |
| Vectors.Lagrange | src/vector3.cpp:69-75 | the squared length of a cross product is \|a\|²\|b\|² − (a·b)² |
| Vectors.CauchySchwarz | include/raytracing/vector3.h:19-22 | (a·b)² is at most \|a\|²\|b\|² |
| Utils.RandomUnit | include/raytracing/utils.h:12-16 | a draw divided by RAND_MAX + 1 lies in [0, 1) |
| Utils.RandomIn | include/raytracing/utils.h:18-22 | the result lies in [min, max) when min < max, in (max, min] when max < min, and is min when they are equal |
| Utils.RandomInEnds | include/raytracing/utils.h:18-22 | draw 0 gives min; draw RAND_MAX gives min + (max − min) · RAND_MAX / (RAND_MAX + 1), just short of max |
| Utils.DegreesToRadiansLaws | include/raytracing/utils.h:24-27 | 0° is 0, 180° is pi, 90° is pi/2; the conversion is additive and homogeneous |
| Rays.DefaultRay | include/raytracing/ray.h:13 | the default ray has zero origin and direction |
| Rays.At | include/raytracing/ray.h:19 | the point at t is reached from the origin by t times the direction; at t = 0 it is the origin |
| Rays.AtLaws | include/raytracing/ray.h:19 | `at(0)` is the origin; `at(t) − origin` is t·d; moving the origin to `at(t1)` shifts the parameter by t1 |
| Rays.DistanceQuadratic | include/raytracing/ray.h:19 | the squared distance from `at(t)` to a point is a quadratic in t with coefficients d·d, 2(oc·d), oc·oc |
| Sampling.RandomVector | src/vector3.cpp:83-86 | every component lies in [0, 1) |
| Sampling.RandomVectorIn | src/vector3.cpp:88-91 | every component lies in [min, max) |
| Sampling.SphereCandidate | src/vector3.cpp:108 | every component of a candidate lies in [-1, 1) |
| Sampling.DiskCandidate | src/vector3.cpp:97 | a disk candidate has x and y in [-1, 1) and z = 0 |
| Sampling.RandomInUnitSphere | src/vector3.cpp:104-113 | returns the first candidate inside the unit ball, having rejected every earlier one; returns nothing iff no candidate is inside |
| Sampling.RandomInUnitDisk | src/vector3.cpp:93-102 | the same for pairs of draws; the result lies in the plane z = 0 |
| Sampling.NormRandomInUnitSphere | src/vector3.cpp:115-118 | the result is the first accepted candidate, every earlier one rejected, scaled to unit length; None exactly when no candidate is inside; only the accepted candidate must be non-zero |
| Sampling.ZeroCandidate | src/vector3.cpp:104-118 | the draws (2^30, 2^30, 2^30) make the candidate the zero vector, which the sampler accepts |
| Colors.Rgb | include/raytracing/color.h:25 | the three-number constructor stores r, g, b in x, y, z |
| Colors.ColorConstructors | include/raytracing/color.h:21-28 | `r()`, `g()` and `b()` read back what the constructors stored; `Color()` is black; `Color(c)` is grey c |
| Colors.Clamp | src/color.cpp:3-10 | the result lies in [min, max], is x itself inside that range, and is always x, min or max |
| Colors.ClampIdempotent | src/color.cpp:3-10 | clamping twice is clamping once |
| Colors.ClampMonotone | src/color.cpp:3-10 | clamping keeps order |
| Colors.Trunc | src/color.cpp:23 | `static_cast<int>` rounds toward zero: floor for non-negative values, ceiling for negative ones |
| Colors.EncodeChannel | src/color.cpp:23-25 | `256 * clamp(c, 0, 0.999)` truncated lies in 0..255 |
| Colors.EncodeChannelLaws | src/color.cpp:23-25 | the encoding is monotone; c ≤ 0 gives 0; c ≥ 0.999 gives 255; 0.5 gives 128 |
| Colors.WriteColor | src/color.cpp:12-26 | every written channel lies in 0..255 |
| Colors.WriteColorChannelsIndependent | src/color.cpp:18-25 | each output channel depends only on the matching input channel |
| Colors.GammaOneIsAverage | src/color.cpp:16-20 | with gamma 1, the channel `GammaChannel` computes is the plain average over the samples, and so is what gets encoded |
| Colors.WhiteIsFullIntensity | include/raytracing/color.h:36-37 | with the default arguments (1 sample, gamma 2), white is written as 255 255 255 |
| Textures.DefaultSolidColor | include/raytracing/texture.h:17 | the default solid colour is black |
| Textures.CheckerOf | apps/step_next_1/main.cpp:79-80 | the two-colour checker holds a solid even and a solid odd texture |
| Textures.Value | include/raytracing/texture.h:20-23 | a texture's value is always one of the colours it holds |
| Textures.SolidValue | include/raytracing/texture.h:20-23 | a solid texture returns its colour everywhere |
| Textures.CheckerChoice | apps/step_next_1/main.cpp:82-89 | the checker returns the odd colour iff the product of sines `CheckerSines` is negative; a product of exactly 0 gives the even colour |
| Textures.ValueIgnoresUv | include/raytracing/texture.h:20-23 | no texture of the source reads the surface coordinates u, v |
| Textures.ValueInUnitCube | include/raytracing/texture.h:20-23 | a texture whose colours are in the unit cube yields values in the unit cube |
| Materials.LambertianOf | include/raytracing/material.h:25 | a Lambertian built from a colour holds a solid texture of that colour |
| Materials.MakeMetal | include/raytracing/material.h:38 | the metal keeps its tint; its fuzz is at most 1 and a fuzz below 1 is kept |
| Materials.MetalFuzzClamp | include/raytracing/material.h:38 | the stored fuzz is `min(fuzz, 1)`; building twice changes nothing; a negative fuzz is kept |
| Hitables.SetFaceNormal | include/raytracing/hitable.h:19-23 | the front face flag holds iff the ray meets the outward normal head-on; the stored normal is the outward normal on the front face and its negation otherwise, faces against the ray and has the same length; nothing else changes |
| Hitables.SetFaceNormalTwice | include/raytracing/hitable.h:19-23 | orienting again with the stored normal keeps that normal; after a front-face hit the record is unchanged, after a back-face hit only the front face flag turns true |
| Quadratics.RootsOf | include/raytracing/sphere.h:32-41 | with a non-negative discriminant, t solves a t² + 2 half_b t + c = 0 iff it is `(-half_b ± sqrtd) / a`, and the minus root comes first |
| Quadratics.NoRoots | include/raytracing/sphere.h:32-34 | with a negative discriminant the quadratic has no root |
| Quadratics.RootsSolve | include/raytracing/sphere.h:35-41 | the same for the computed near and far roots |
| Spheres.PlainSphere | include/raytracing/sphere.h:17-18 | the two-argument constructor stores the centre and radius and no material |
| Spheres.SphereUv | include/raytracing/sphere.h:57-71 | u lies in [0, 1] when `atan2` returns an angle in [−π, π], and v lies in [0, 1] when `acos` returns one in [0, π] |
| Spheres.CoefficientsMeaning | include/raytracing/sphere.h:27-30 | the quadratic evaluated at t is the squared distance from `at(t)` to the centre minus r²; it is zero iff `at(t)` lies on the sphere |
| Spheres.RecordAt | include/raytracing/sphere.h:46-52 | the record holds t, `at(t)` and the sphere's material; front_face holds iff the ray meets the outward normal (p − centre)/radius head-on; the stored normal is that outward normal on a front face and its negation on a back face, so it faces against the ray; u and v are the sphere coordinates of the outward normal |
| Spheres.NegativeRadiusFlipsNormal | include/raytracing/sphere.h:49 | a negative radius turns the outward normal inward, which is how the hollow glass sphere of step 9 works |
| Spheres.Hit | include/raytracing/sphere.h:25-55 | a negative discriminant misses; otherwise the near root is taken if it is in [t_min, t_max], else the far root if it is, else a miss; a hit lies in range on the ray, carries the sphere's material and the sphere coordinates of the outward normal (p − centre)/radius; the stored normal is that outward normal on a front face and its negation on a back face, with front_face set accordingly |
| Spheres.HitIsNearestIntersection | include/raytracing/sphere.h:37-44 | a hit lies on the sphere and no point of the sphere in range is nearer; a miss means no point of the sphere lies in range |
| Spheres.HitNormalIsUnit | include/raytracing/sphere.h:49 | the stored normal of a hit has unit length |
| Spheres.RecordAtUnitNormal | include/raytracing/sphere.h:49-50 | a point on the sphere gets a unit normal |
| Spheres.HitShrink | include/raytracing/sphere.h:39-43 | lowering t_max to a bound keeps a hit at or below the bound and drops one above it |
| Scatter.Reflect | src/material.cpp:4-8 | the reflection differs from v only along n, by twice the component of v on n; a vector along the surface is unchanged; about a unit normal the normal component changes sign |
| Scatter.ReflectLaws | src/material.cpp:4-8 | reflection keeps a vector parallel to the surface, negates the normal component, keeps the length, and reflecting twice gives the vector back |
| Scatter.ReflectInvolution | src/material.cpp:4-8 | reflecting twice about a unit normal gives the vector back |
| Scatter.RefractCos | src/material.cpp:12 | the cosine is capped at 1 |
| Scatter.RefractPerpOrthogonal | src/material.cpp:12-13 | for unit vectors the perpendicular part of the refracted ray is orthogonal to the normal |
| Scatter.Refract | src/material.cpp:10-16 | the refracted vector is the perpendicular part plus −sqrt(\|1 − \|perp\|²\|) times the normal; for unit vectors that is its whole normal component, so under the square-root law it points through the surface |
| Scatter.RefractNonZero | src/material.cpp:10-16 | refraction of a unit vector about a unit normal is never zero |
| Scatter.RefractHeadOn | src/material.cpp:10-16 | a ray that meets the surface head-on passes straight through |
| Scatter.SchlickR0 | src/material.cpp:21-22 | r0 is non-negative, and at most 1 for a non-negative index ratio |
| Scatter.Reflectance | src/material.cpp:18-24 | for a non-negative index and a `pow` that maps into [0, 1], the reflectance lies in [r0, 1] |
| Scatter.ReflectanceLaws | src/material.cpp:18-24 | Schlick's approximation gives r0 at cosine 1 and 1 at cosine 0, and lies in [r0, 1] |
| Scatter.SchlickR0Reciprocal | src/material.cpp:21-22 | r0 is the same for an index ratio and its reciprocal |
| Scatter.RefractionRatio | src/material.cpp:54 | entering the front face the ratio is the reciprocal of the index (ratio · ir = 1); leaving, it is the index |
| Scatter.LambertianScatter | src/material.cpp:26-38 | the ray always scatters, from the hit point, with the texture's colour; its direction is normal + sample, or the normal when that sum is near zero, and is non-zero for a non-zero normal |
| Scatter.MetalScatter | src/material.cpp:40-48 | the ray leaves the hit point with the tint as attenuation, along the reflection of the unit incoming direction plus fuzz times the unit-ball sample; it scatters iff that direction points out of the surface, and then the direction is non-zero |
| Scatter.MetalWithoutFuzz | src/material.cpp:40-48 | a metal without fuzz scatters iff the incoming ray meets the surface head-on |
| Scatter.DielectricScatter | src/material.cpp:50-70 | glass always scatters from the hit point with white attenuation; it reflects the unit direction when Snell's law has no solution (`CannotRefract`, line 60), and otherwise reflects or refracts it |
| Scatter.ScatterOff | apps/step_final/main.cpp:37 | every material scatters from the hit point; a Lambertian always scatters with its texture colour, glass always scatters unattenuated, and a metal keeps its tint and scatters iff the new direction leaves the surface |
| Scatter.ScatteredDirectionNonZero | src/material.cpp:26-70 | every scattered ray of a unit-normal hit that scatters has a non-zero direction |
| HitableLists.AddObject | include/raytracing/hitable_list.h:19 | `add` appends the object and keeps the earlier ones in order |
| HitableLists.Clear | include/raytracing/hitable_list.h:18 | `clear` empties the list |
| HitableLists.Scan | include/raytracing/hitable_list.h:24-41 | the closest-so-far scan only reports hits in [t_min, t_max] |
| HitableLists.ScanMissesAll | include/raytracing/hitable_list.h:24-41 | the scan misses iff every object misses |
| HitableLists.ScanIsClosest | include/raytracing/hitable_list.h:30-38 | a hit of the scan is the hit of one object, and no object hits nearer |
| HitableLists.ScanNonIncreasing | include/raytracing/hitable_list.h:35 | `closest_so_far` never grows |
| HitableLists.ListHit | include/raytracing/hitable_list.h:24-41 | the loop reports a hit iff some object hits; then the record is the closest hit; otherwise the caller's record is untouched |
| HitableLists.SphereLawful | include/raytracing/sphere.h:39-43 | a sphere respects t_min and shrinking t_max, as the list's scan relies on |
| HitableLists.WorldHit | include/raytracing/hitable_list.h:24-41 | a list of spheres misses iff every sphere misses; a hit is in range and is the hit of one of the spheres |
| Cameras.FixedCamera | apps/step_2/main.cpp:41-49 | the hand-built camera of steps 2 to 4 has origin 0, a viewport 2·aspect wide and 2 high, and lower-left corner (−aspect, −1, −1) |
| Cameras.DefaultCamera | include/raytracing/camera.h:19-30 | the default camera is that camera with aspect 16/9, and it sets no lens radius |
| Cameras.ViewportCentre | include/raytracing/camera.h:29 | the lower-left corner plus half of each edge is the origin minus the depth vector |
| Cameras.CornerOfViewport | include/raytracing/camera.h:29 | with a 2·aspect by 2 viewport at depth 1 the corner is (−aspect, −1, −1) |
| Cameras.GetRay | include/raytracing/camera.h:57-64 | origin plus direction is the viewport point at (s, t); with a zero lens radius the ray starts at the camera origin |
| Cameras.ViewportPointLaws | include/raytracing/camera.h:64 | the viewport point at (s, t) lies s·horizontal + t·vertical from the lower-left corner; (0, 0) is that corner and (1, 1) the opposite one |
| Cameras.LookAtCamera | include/raytracing/camera.h:31-55 | the camera sits at lookfrom, the lens radius is half the aperture, and the viewport edges are focus_dist times the viewport along u and v |
| Cameras.LookAtViewport | include/raytracing/camera.h:49-54 | the eye is the origin, the lens radius is half the aperture, the edges are focus_dist times the viewport width along u and height along v, and the viewport is centred focus_dist along −w from the eye |
| Cameras.ViewportHeight | include/raytracing/camera.h:40-42 | a 90° field of view gives a viewport 2 high at unit distance, given tan(π/4) = 1 |
| Cameras.LookAtCentre | include/raytracing/camera.h:42-52 | the centre of the viewport lies focus_dist along −w from lookfrom |
| Cameras.LookAtBasis | include/raytracing/camera.h:45-47 | u, v and w are unit vectors, pairwise orthogonal, and w points from lookat back to lookfrom |
| Cameras.PinholeLookAt | include/raytracing/camera.h:54-64 | a zero aperture makes every look-at ray start at lookfrom, and the ray through the viewport centre points focus_dist along −w |
| Cameras.RayDepth | include/raytracing/camera.h:57-64 | when the basis and the viewport edges are perpendicular to w, every ray has the component along w of the lower-left corner seen from the origin, whatever s, t and the disk sample |
| Cameras.LookAtRaysForward | include/raytracing/camera.h:45-64 | every look-at ray has component −focus_dist along w |
| Cameras.LookAtEdges | include/raytracing/camera.h:50-52 | the viewport edges of a look-at camera are perpendicular to w, and the corner is the viewport placed focus_dist along −w |
| Cameras.LensOffset | include/raytracing/camera.h:59-63 | the ray origin is lens_radius·\|disk\| away from the camera origin, and the offset is perpendicular to w when u and v are |
| Cameras.LensOrigin | include/raytracing/camera.h:62-63 | the ray starts at origin + offset |
| Cameras.PinholeCamera | include/raytracing/camera.h:19-30 | the default camera with the lens radius read as 0 |
| Cameras.PinholeDefaultCamera | include/raytracing/camera.h:19-30 | the corrected default camera is the default camera with lens radius 0 |
| Cameras.DefaultCameraHasNoLens | include/raytracing/camera.h:16-30 | the default constructor leaves the lens radius unset, and leaves u and v zero |
| Cameras.UnsetLensIsHarmless | include/raytracing/camera.h:57-64 | with u and v zero, every lens radius gives the same ray as radius 0: from the origin through the viewport point, whatever the disk sample |
| Cameras.PinholeRays | include/raytracing/camera.h:57-64 | through the corrected default camera every ray starts at 0 and points at the viewport point, whatever the disk sample |
| Integrator.SkyBlend | apps/step_final/main.cpp:43-45 | the blend is white at t = 0, sky blue at t = 1, in the unit cube in between, and fully blue in every case |
| Integrator.Sky | apps/step_final/main.cpp:43-45 | the background of a non-zero direction is in the unit cube |
| Integrator.SkyVertical | apps/step_final/main.cpp:43-45 | straight up is sky blue and straight down is white |
| Integrator.RandomInHemisphere | apps/step_6/main.cpp:15-21 | the result is the sample or its negation, lies in the normal's hemisphere, and keeps the sample's length |
| Integrator.MirrorDiffers | apps/step_6/main.cpp:17-20 | negating changes a vector iff it is non-zero |
| Integrator.SceneHitFacts | apps/step_final/main.cpp:33-37 | a hit of the scene query has a unit normal and carries the material of one of the scene's spheres |
| Integrator.ScatterAttenuates | src/material.cpp:26-70 | materials with colours in the unit cube attenuate into the unit cube |
| Integrator.MulInUnitCube | src/vector3.cpp:37-41 | the component-wise product of two colours in the unit cube is in the unit cube |
| Integrator.RayColor | apps/step_final/main.cpp:24-46 | no light is gathered once the depth is spent; in a scene whose materials attenuate, the colour of any ray is in the unit cube |
| Integrator.RayColorEnds | apps/step_final/main.cpp:43-45 | in an empty scene every ray that has depth left sees the sky, and one with none left is black |
| Integrator.RayColorStep | apps/step_final/main.cpp:33-40 | a hit that scatters gives attenuation times the colour of the scattered ray one level deeper; a hit that absorbs gives black; a miss gives the sky |
| Integrator.RayColorUsesDepthSamples | apps/step_final/main.cpp:24-46 | the colour at depth d depends only on the first d bounce samples |
| Integrator.DiffuseRayColor | apps/step_6/main.cpp:23-43 | no light is gathered once the depth is spent; whatever the scene, the colour of the diffuse integrator is in the unit cube |
| Integrator.DiffuseBounceHalves | apps/step_6/main.cpp:32-42 | a miss gives the sky; a hit gives half the colour of the bounce into the hemisphere of the normal, along a non-zero direction |
| Integrator.ViewportCoordinate | apps/step_final/main.cpp:140-141 | u·(extent − 1) is the index plus the jitter |
| Integrator.ViewportCoordinateRange | apps/step_final/main.cpp:140-141 | u is at least 0 and below 1 except in the last column or row, where the jitter pushes it to 1 or past it |
| Integrator.SampleRay | apps/step_final/main.cpp:140-142 | the sample ray reaches the viewport point of the jittered pixel coordinates |
| Integrator.PixelSum | apps/step_final/main.cpp:136-143 | in a scene whose materials attenuate, every channel of the sum of n samples lies in [0, n] |
| Integrator.RenderPixel | apps/step_final/main.cpp:136-143 | the sample loop computes the sum of the sample colours, each channel in [0, n] |
| Integrator.PinholeSampleRays | apps/step_5/main.cpp:79-84 | through the corrected default camera every sample ray points at depth −1 and is non-zero |
| EarlySteps.HitSphereTest | apps/step_2/main.cpp:15-22 | the test holds iff the half-b discriminant of step 3 and `Sphere::hit` is positive |
| EarlySteps.FullDiscriminantIsFourHalves | apps/step_2/main.cpp:15-22 | the full-b discriminant is 4 times the half-b one |
| EarlySteps.HitSphereTestCrossesTwice | apps/step_2/main.cpp:15-22 | step 2's test holds iff the line of the ray crosses the sphere at two distinct points |
| EarlySteps.HitSphereTestIgnoresDirection | apps/step_2/main.cpp:15-22 | the test ignores which way the ray points, so spheres behind the camera count |
| EarlySteps.RedSphereColor | apps/step_2/main.cpp:24-32 | the colour is red iff the test holds, and is in the unit cube |
| EarlySteps.HitSphereRoot | apps/step_3/main.cpp:28-39 | −1 when the line misses; otherwise the smallest parameter at which the line meets the sphere |
| EarlySteps.FullBRoot | apps/step_3/main.cpp:15-26 | under the square-root law the commented full-b version gives the same parameter as the half-b one |
| EarlySteps.NormalShade | apps/step_3/main.cpp:46 | the shade is in the unit cube iff every component of the normal is in [-1, 1], so every unit normal shades into it |
| EarlySteps.NormalSphereColor | apps/step_3/main.cpp:41-52 | a root in front of the camera shades by the outward normal there; otherwise the sky shows; the colour is in the unit cube |
| EarlySteps.HalfRadiusNormal | apps/step_3/main.cpp:45 | normalising the offset from the centre of the 0.5 sphere is the sphere's outward normal |
| EarlySteps.NormalColor | apps/step_4/main.cpp:15-26 | the colour of any ray is in the unit cube |
| EarlySteps.NormalColorMiss | apps/step_4/main.cpp:18-25 | when no sphere is hit the sky shows |
| EarlySteps.NormalColorShadesClosest | apps/step_4/main.cpp:17-21 | when some sphere is hit, the colour shades the normal of the closest hit at t ≥ 0 |
| EarlySteps.GridCoordinate | apps/step_4/main.cpp:62-63 | u lies in [0, 1], the first column is 0 and the last is 1 |
| EarlySteps.GridRay | apps/step_4/main.cpp:62-64 | the pixel ray starts at 0, has depth −1 and stays within the viewport |
| EarlySteps.GridCorners | apps/step_4/main.cpp:62-64 | pixel (0, 0) points at (−aspect, −1, −1) and the last pixel at (aspect, 1, −1) |
| EarlySteps.SampleGridRay | apps/step_5/main.cpp:79-83 | a sample ray starts at 0, has depth −1 and is non-zero |
| EarlySteps.SampleGridRayIsCameraRay | apps/step_5/main.cpp:79-83 | it is the ray of the corrected default camera, and with zero jitter the pixel ray of step 4 |
| EarlySteps.NormalPixelSum | apps/step_5/main.cpp:77-84 | every channel of the sum of n normal-shaded samples lies in [0, n] |
| EarlySteps.NormalPixelEncoding | apps/step_5/main.cpp:97 | with gamma 1, each written channel encodes the channel sum divided by 100 |

## Left out

- Output: the PPM file, `operator<<`, `ParallelStream`, the `convert` call, `malloc` and `free` are I/O and memory management. They are not modelled.
- Concurrency: the OpenMP row loop and its shared `row_counter` are not modelled. Pixels are independent, so each pixel is modelled on its own.
- Floating point: `number_t` is a real. Rounding, NaN, infinities other than the `t_max` of a query, and overflow are not modelled. The cast in `write_color`, `static_cast<int>`, is modelled as truncation toward zero.
- Transcendental functions: `sqrt`, `pow`, `sin`, `tan`, `acos` and `atan2` are parameters. Only the square root has a law, and only `pi > 0` is assumed of `acos`. So the texture coordinates of `get_sphere_uv` are only shown to lie in [0, 1], given the ranges of `acos` and `atan2`. They are not checked against the table in its comment, and the values of `tan` are not checked at all.
- RAND_MAX: draws lie in [0, 2^31 − 1], the RAND_MAX of glibc. This is a platform choice; the C standard only guarantees RAND_MAX ≥ 32767, and a smaller RAND_MAX changes the grid of values that `random_number_t` can return, not the ranges stated here.
- Randomness: `rand()` is a parameter. The sampling functions of src/vector3.cpp take an explicit stream of draws; for them the model states which draws are consumed and what they give. The scatter rules and both integrators instead take one independent `BounceSample` per bounce, so the order in which the source consumes `rand()` across bounces is not modelled. In particular the `||` of `Dielectric::scatter` (src/material.cpp:63) skips the reflectance draw when the ray cannot refract, which shifts every later draw in the source. The distribution of the draws and the expected number of rejections are not modelled either.
- Scenes: `random_scene` and the scene set-up in each `main` are not modelled, including the image height `static_cast<int>(image_width / aspect_ratio)` (for example apps/step_final/main.cpp:108); width and height are parameters. The model works for any list of spheres.
- Camera preconditions: the look-at camera asks that lookfrom ≠ lookat and that vup is not parallel to the view direction. The source divides by zero there.
- Zero directions: ray colour, `Sphere::hit` and `normalize_Vector3` ask for a non-zero direction. The source divides by zero for a zero direction.
- Spheres.CanHit: asks for a non-zero radius as well as a non-zero direction, because `Sphere::hit` divides by the radius. A zero-radius sphere has discriminant (oc·d)² − |d|²|oc|², which is never positive. The source therefore reaches that division only when the line of the ray passes through the centre at a parameter in [t_min, t_max]. The normal is then 0/0. The model does not cover that case.
- Integrator.DiffuseRayColor: asks that every hemisphere sample is non-zero. The rejection sampler can return the zero vector, and the source then divides by zero at the next hit.
- Scatter.DielectricScatter: asks that the index of refraction is not 0 on a front face and that the refraction ratio is not −1. Both would divide by zero in the source. Its contract does not say which of reflection and refraction the reflectance draw picks when both are possible. The body makes that choice as the source does.
- Integrator.SamplesReady: asks that each camera ray is non-zero.
- Integrator.RayColor: step 6's integrator is modelled separately as `DiffuseRayColor`. Steps 7, 9, final and next_1 share the same `ray_color` text and one model.
- Integrator.PinholeSampleRays: step 5 sums its samples through the default camera, which the model reads as a pinhole camera (see Findings).
- The material of a `HitRecord` is an optional material, `None` where the source stores a null `shared_ptr`. The integrators of steps 7 to next_1 require a material on every sphere, as every scene of those steps has one; the null dereference of a material-less sphere is not modelled.

## Findings

| source | as written | input that shows it | evidently intended | confidence | as-written member | corrected member |
|---|---|---|---|---|---|---|
| include/raytracing/camera.h:16-30 | the default constructor never sets `lens_radius`, and `get_ray` multiplies the disk sample by it, so steps 5 to 7 read an uninitialised value | `Camera cam{}` then `cam.get_ray(0.5, 0.5)` | a pinhole camera with lens radius 0, as the commented line 66 of `get_ray` shows; because `u` and `v` stay zero, any value the read yields gives that same ray (`Cameras.UnsetLensIsHarmless`) | not executed | Cameras.DefaultCameraHasNoLens | Cameras.PinholeRays |

=== FILE: cameras.dfy ===
/** The camera of include/raytracing/camera.h: the fixed default camera, the
    look-at camera with a thin lens, and `get_ray`. */
module Cameras {
  import opened Wrappers
  import opened MathLib
  import opened Vectors
  import opened Rays
  import opened Utils

  /** `lensRadius` is `None` where the constructor leaves `lens_radius`
      uninitialised. */
  datatype Camera = Camera(
    origin: Point3,
    lowerLeftCorner: Point3,
    horizontal: Vector3,
    vertical: Vector3,
    u: Vector3,
    v: Vector3,
    w: Vector3,
    lensRadius: Option<real>)

  /** The fixed camera at the origin looking down `-z`: a viewport of height
      2 and width `aspect * 2`, one unit in front of the origin. `Camera()`
      builds it with `aspect` 16/9, and the early steps inline it with their
      own aspect ratio. The basis `u, v, w` keeps the zero value of
      `Vector3()`, and `lens_radius` is never written. */
  function FixedCamera(aspect: real): (c: Camera)
    ensures c.origin == Zero()
    ensures c.horizontal == Vector3(aspect * 2.0, 0.0, 0.0)
    ensures c.vertical == Vector3(0.0, 2.0, 0.0)
    ensures c.lowerLeftCorner == Vector3(-aspect, -1.0, -1.0)
    ensures c.u == Zero() && c.v == Zero() && c.w == Zero()
    ensures c.lensRadius == None
  {
    CornerOfViewport(aspect);
    Camera(Zero(), ViewportCorner(Zero(), Vector3(aspect * 2.0, 0.0, 0.0), Vector3(0.0, 2.0, 0.0), Vector3(0.0, 0.0, 1.0)),
           Vector3(aspect * 2.0, 0.0, 0.0), Vector3(0.0, 2.0, 0.0), Zero(), Zero(), Zero(), None)
  }

  /** `Camera()`: the fixed camera with aspect ratio 16/9. */
  function DefaultCamera(): (c: Camera)
    ensures c.origin == Zero() && c.lensRadius == None
    ensures c.horizontal == Vector3(32.0 / 9.0, 0.0, 0.0)
    ensures c.vertical == Vector3(0.0, 2.0, 0.0)
    ensures c.lowerLeftCorner == Vector3(-16.0 / 9.0, -1.0, -1.0)
  {
    FixedCamera(16.0 / 9.0)
  }

  /** `origin - horizontal / 2 - vertical / 2 - depth`: the corner of a
      viewport centred `depth` away from `origin`. */
  function ViewportCorner(origin: Point3, horizontal: Vector3, vertical: Vector3, depth: Vector3): Point3 {
    Sub(Sub(Sub(origin, Div(horizontal, 2.0)), Div(vertical, 2.0)), depth)
  }

  /** Half a viewport up and right of the corner is its centre, `depth` away
      from `origin`. */
  lemma ViewportCentre(origin: Point3, horizontal: Vector3, vertical: Vector3, depth: Vector3)
    ensures Add(Add(ViewportCorner(origin, horizontal, vertical, depth), Scale(horizontal, 0.5)), Scale(vertical, 0.5))
         == Sub(origin, depth)
  {
  }

  lemma CornerOfViewport(aspect: real)
    ensures ViewportCorner(Zero(), Vector3(aspect * 2.0, 0.0, 0.0), Vector3(0.0, 2.0, 0.0), Vector3(0.0, 0.0, 1.0))
         == Vector3(-aspect, -1.0, -1.0)
  {
    var w := aspect * 2.0;
    assert w / 2.0 == aspect;
    assert Div(Vector3(w, 0.0, 0.0), 2.0) == Vector3(aspect, 0.0, 0.0);
    assert Div(Vector3(0.0, 2.0, 0.0), 2.0) == Vector3(0.0, 1.0, 0.0);
  }

  /** The point `lower_left_corner + s horizontal + t vertical` of the
      viewport. */
  function ViewportPoint(cam: Camera, s: real, t: real): Point3 {
    Add(Add(cam.lowerLeftCorner, Scale(cam.horizontal, s)), Scale(cam.vertical, t))
  }

  /** `s` and `t` are the coordinates of the viewport point along the two
      edges, measured from the lower-left corner: (0, 0) is that corner and
      (1, 1) the opposite one. */
  lemma ViewportPointLaws(cam: Camera, s: real, t: real)
    ensures Sub(ViewportPoint(cam, s, t), cam.lowerLeftCorner) == Add(Scale(cam.horizontal, s), Scale(cam.vertical, t))
    ensures ViewportPoint(cam, 0.0, 0.0) == cam.lowerLeftCorner
    ensures ViewportPoint(cam, 1.0, 1.0) == Add(Add(cam.lowerLeftCorner, cam.horizontal), cam.vertical)
  {
  }

  /** `get_ray(s, t)`, given the point `disk` returned by
      `random_in_unit_disk()`: the origin is moved by the lens offset
      `lens_radius (disk.x u + disk.y v)` and the ray still passes through the
      viewport point. It reads `lens_radius`, so the camera must have one. */
  function GetRay(cam: Camera, s: real, t: real, disk: Vector3): (r: Ray)
    requires cam.lensRadius.Some?
    ensures Add(r.origin, r.direction) == ViewportPoint(cam, s, t)
    ensures cam.lensRadius.value == 0.0 ==> r.origin == cam.origin
    ensures cam.lensRadius.value == 0.0 ==> r.direction == Sub(ViewportPoint(cam, s, t), cam.origin)
  {
    var rd := Scale(disk, cam.lensRadius.value);
    var offset := Add(Scale(cam.u, rd.x), Scale(cam.v, rd.y));
    Ray(Add(cam.origin, offset),
        Sub(Sub(Add(Add(cam.lowerLeftCorner, Scale(cam.horizontal, s)), Scale(cam.vertical, t)), cam.origin), offset))
  }

  /** What the look-at constructor needs to normalise its two vectors: the
      eye differs from the target, and `vup` is not parallel to the view
      direction. */
  predicate LookAtReady(lookfrom: Point3, lookat: Point3, vup: Vector3) {
    lookfrom != lookat && Cross(vup, Sub(lookfrom, lookat)) != Zero()
  }

  /** `Camera(lookfrom, lookat, vup, vfov, aspect_ratio, aperture,
      focus_dist)`: an orthonormal basis with `w` pointing back from the
      target, a viewport `focus_dist` away along `-w`, and a lens of radius
      `aperture / 2`. */
  function LookAtCamera(m: Libm, lookfrom: Point3, lookat: Point3, vup: Vector3,
                        vfov: real, aspectRatio: real, aperture: real, focusDist: real): (c: Camera)
    requires SqrtLaw(m) && LookAtReady(lookfrom, lookat, vup)
    ensures c.origin == lookfrom
    ensures c.lensRadius == Some(aperture / 2.0)
    ensures c.horizontal == Scale(c.u, focusDist * (aspectRatio * ViewportHeight(m, vfov)))
    ensures c.vertical == Scale(c.v, focusDist * ViewportHeight(m, vfov))
    ensures c.lowerLeftCorner == ViewportCorner(lookfrom, c.horizontal, c.vertical, Scale(c.w, focusDist))
  {
    BasisReady(m, lookfrom, lookat, vup);
    var w := Normalize(m, Sub(lookfrom, lookat));
    var u := Normalize(m, Cross(vup, w));
    LookAtViewport(lookfrom, u, Cross(w, u), w, ViewportHeight(m, vfov), aspectRatio, aperture, focusDist)
  }

  /** The camera whose eye is `origin`, whose basis is `u`, `v`, `w` and whose
      viewport, `focus_dist` away, is `viewportHeight` high at unit distance.
      The centre of the viewport lies `focus_dist` along `-w` from the eye. */
  function LookAtViewport(origin: Point3, u: Vector3, v: Vector3, w: Vector3, viewportHeight: real,
                          aspectRatio: real, aperture: real, focusDist: real): (c: Camera)
    ensures c.origin == origin && c.u == u && c.v == v && c.w == w
    ensures c.lensRadius == Some(aperture / 2.0)
    ensures c.horizontal == Scale(u, focusDist * (aspectRatio * viewportHeight))
    ensures c.vertical == Scale(v, focusDist * viewportHeight)
    ensures c.lowerLeftCorner == ViewportCorner(origin, c.horizontal, c.vertical, Scale(w, focusDist))
    ensures Add(Add(c.lowerLeftCorner, Scale(c.horizontal, 0.5)), Scale(c.vertical, 0.5)) == Sub(origin, Scale(w, focusDist))
  {
    var horizontal := Scale(u, focusDist * (aspectRatio * viewportHeight));
    var vertical := Scale(v, focusDist * viewportHeight);
    ViewportCentre(origin, horizontal, vertical, Scale(w, focusDist));
    Camera(origin, ViewportCorner(origin, horizontal, vertical, Scale(w, focusDist)),
           horizontal, vertical, u, v, w, Some(aperture / 2.0))
  }

  /** The viewport of a look-at camera is centred `focus_dist` along `-w`
      from the eye. */
  lemma LookAtCentre(m: Libm, lookfrom: Point3, lookat: Point3, vup: Vector3,
                     vfov: real, aspectRatio: real, aperture: real, focusDist: real)
    requires SqrtLaw(m) && LookAtReady(lookfrom, lookat, vup)
    ensures var c := LookAtCamera(m, lookfrom, lookat, vup, vfov, aspectRatio, aperture, focusDist);
            Add(Add(c.lowerLeftCorner, Scale(c.horizontal, 0.5)), Scale(c.vertical, 0.5))
              == Sub(lookfrom, Scale(c.w, focusDist))
  {
    var c := LookAtCamera(m, lookfrom, lookat, vup, vfov, aspectRatio, aperture, focusDist);
    ViewportCentre(lookfrom, c.horizontal, c.vertical, Scale(c.w, focusDist));
  }

  /** `2 tan(theta / 2)` for the vertical field of view `vfov` in degrees:
      the height of the viewport one unit in front of the eye. A field of
      view of 90 degrees makes it as high as it is far, given
      `tan(pi / 4) = 1`. */
  function ViewportHeight(m: Libm, vfov: real): (h: real)
    ensures vfov == 90.0 && m.tan(Pi(m) / 4.0) == 1.0 ==> h == 2.0
  {
    2.0 * m.tan(DegreesToRadians(m, vfov) / 2.0)
  }

  /** Normalising a non-zero vector scales it by a positive factor. */
  lemma NormalizeIsScale(m: Libm, a: Vector3)
    requires SqrtLaw(m) && a != Zero()
    ensures Length(m, a) != 0.0 && 0.0 < 1.0 / Length(m, a)
    ensures Normalize(m, a) == Scale(a, 1.0 / Length(m, a))
  {
    LengthPositive(m, a);
  }

  /** Cross product and scaling commute. */
  lemma CrossScale(a: Vector3, b: Vector3, k: real)
    ensures Cross(a, Scale(b, k)) == Scale(Cross(a, b), k)
  {
    var sb := Scale(b, k);
    assert sb.x == b.x * k && sb.y == b.y * k && sb.z == b.z * k;
    var c := Cross(a, b);
    CrossTermScale(a.y, b.z, a.z, b.y, k);
    CrossTermScale(a.z, b.x, a.x, b.z, k);
    CrossTermScale(a.x, b.y, a.y, b.x, k);
    assert Cross(a, sb).x == c.x * k;
    assert Cross(a, sb).y == c.y * k;
    assert Cross(a, sb).z == c.z * k;
  }

  lemma CrossTermScale(p: real, q: real, r: real, s: real, k: real)
    ensures p * (q * k) - r * (s * k) == (p * q - r * s) * k
  {
    assert p * (q * k) == (p * q) * k;
    assert r * (s * k) == (r * s) * k;
  }

  /** A non-zero vector scaled by a non-zero factor is non-zero. */
  lemma ScaleNonZero(b: Vector3, k: real)
    requires k != 0.0 && b != Zero()
    ensures Scale(b, k) != Zero()
  {
    if b.x != 0.0 {
      ProductZero(b.x, k);
    } else if b.y != 0.0 {
      ProductZero(b.y, k);
    } else {
      ProductZero(b.z, k);
    }
  }

  lemma BasisReady(m: Libm, lookfrom: Point3, lookat: Point3, vup: Vector3)
    requires SqrtLaw(m) && LookAtReady(lookfrom, lookat, vup)
    ensures Length(m, Sub(lookfrom, lookat)) != 0.0
    ensures Length(m, Cross(vup, Normalize(m, Sub(lookfrom, lookat)))) != 0.0
  {
    var d := Sub(lookfrom, lookat);
    assert d != Zero();
    NormalizeIsScale(m, d);
    var k := 1.0 / Length(m, d);
    CrossScale(vup, d, k);
    ScaleNonZero(Cross(vup, d), k);
    LengthPositive(m, Cross(vup, Normalize(m, d)));
  }

  /** The basis of the look-at camera is orthonormal, and `w` points from the
      target back to the eye. */
  lemma LookAtBasis(m: Libm, lookfrom: Point3, lookat: Point3, vup: Vector3,
                    vfov: real, aspectRatio: real, aperture: real, focusDist: real)
    requires SqrtLaw(m) && LookAtReady(lookfrom, lookat, vup)
    ensures var c := LookAtCamera(m, lookfrom, lookat, vup, vfov, aspectRatio, aperture, focusDist);
            LengthSquared(c.u) == 1.0 && LengthSquared(c.v) == 1.0 && LengthSquared(c.w) == 1.0
            && Dot(c.u, c.w) == 0.0 && Dot(c.v, c.w) == 0.0 && Dot(c.u, c.v) == 0.0
            && Dot(c.w, Sub(lookfrom, lookat)) > 0.0
  {
    var c := LookAtCamera(m, lookfrom, lookat, vup, vfov, aspectRatio, aperture, focusDist);
    BasisReady(m, lookfrom, lookat, vup);
    var d := Sub(lookfrom, lookat);
    var w := Normalize(m, d);
    assert c.w == w;
    BackwardAxis(m, d);
    var u := Normalize(m, Cross(vup, w));
    assert c.u == u;
    SideAxis(m, vup, w);
    assert c.v == Cross(w, u);
    CrossOfOrthonormal(w, u);
  }

  /** `w`: the normalised direction from the target to the eye. */
  lemma BackwardAxis(m: Libm, d: Vector3)
    requires SqrtLaw(m) && d != Zero()
    ensures Length(m, d) != 0.0
    ensures LengthSquared(Normalize(m, d)) == 1.0
    ensures Dot(Normalize(m, d), d) > 0.0
  {
    NormalizeUnit(m, d);
    NormalizeIsScale(m, d);
    var k := 1.0 / Length(m, d);
    DotLinear(d, d, d, k);
    DotLaws(d, d);
    LengthSquaredPositive(d);
    PositiveProduct(k, LengthSquared(d));
  }

  /** `u`: the normalised cross product of `vup` and `w`, orthogonal to
      `w`. */
  lemma SideAxis(m: Libm, vup: Vector3, w: Vector3)
    requires SqrtLaw(m) && Length(m, Cross(vup, w)) != 0.0
    ensures LengthSquared(Normalize(m, Cross(vup, w))) == 1.0
    ensures Dot(Normalize(m, Cross(vup, w)), w) == 0.0
  {
    var cr := Cross(vup, w);
    NonZeroByLength(m, cr);
    NormalizeUnit(m, cr);
    NormalizeIsScale(m, cr);
    CrossLaws(vup, w, 0.0);
    DotLinear(cr, cr, w, 1.0 / Length(m, cr));
  }

  /** Only a non-zero vector has a non-zero length. */
  lemma NonZeroByLength(m: Libm, a: Vector3)
    requires SqrtLaw(m) && Length(m, a) != 0.0
    ensures a != Zero()
  {
    if a == Zero() {
      assert LengthSquared(a) == 0.0;
      SqrtUnique(m, 0.0, 0.0);
    }
  }

  /** For orthogonal unit vectors `w` and `u`, `w x u` is a unit vector
      orthogonal to both. */
  lemma CrossOfOrthonormal(w: Vector3, u: Vector3)
    requires LengthSquared(w) == 1.0 && LengthSquared(u) == 1.0 && Dot(u, w) == 0.0
    ensures LengthSquared(Cross(w, u)) == 1.0
    ensures Dot(Cross(w, u), w) == 0.0 && Dot(u, Cross(w, u)) == 0.0
  {
    CrossLaws(w, u, 0.0);
    DotLaws(u, Cross(w, u));
    DotLaws(w, u);
    Lagrange(w, u);
    UnitCross(LengthSquared(w), LengthSquared(u), Dot(w, u));
  }

  lemma UnitCross(a: real, b: real, d: real)
    requires a == 1.0 && b == 1.0 && d == 0.0
    ensures a * b - d * d == 1.0
  {
  }

  lemma PositiveProduct(a: real, b: real)
    requires 0.0 < a && 0.0 < b
    ensures 0.0 < a * b
  {
  }

  /** With aperture 0 every ray leaves from `lookfrom`, and the ray through
      the centre of the viewport runs along `-focus_dist w`. */
  lemma PinholeLookAt(m: Libm, lookfrom: Point3, lookat: Point3, vup: Vector3,
                      vfov: real, aspectRatio: real, focusDist: real, s: real, t: real, disk: Vector3)
    requires SqrtLaw(m) && LookAtReady(lookfrom, lookat, vup)
    ensures var c := LookAtCamera(m, lookfrom, lookat, vup, vfov, aspectRatio, 0.0, focusDist);
            GetRay(c, s, t, disk).origin == lookfrom
            && GetRay(c, 0.5, 0.5, disk).direction == Scale(c.w, -focusDist)
  {
  }

  /** The basis vectors `u`, `v` and the viewport edges are perpendicular
      to `w`. */
  predicate FacesAlongW(cam: Camera) {
    Dot(cam.u, cam.w) == 0.0 && Dot(cam.v, cam.w) == 0.0
    && Dot(cam.horizontal, cam.w) == 0.0 && Dot(cam.vertical, cam.w) == 0.0
  }

  /** On a camera whose edges and basis are perpendicular to `w`, every ray
      has the depth along `w` of the lower left corner: neither the viewport
      point nor the lens sample changes it. */
  lemma RayDepth(cam: Camera, s: real, t: real, disk: Vector3)
    requires cam.lensRadius.Some? && FacesAlongW(cam)
    ensures Dot(GetRay(cam, s, t, disk).direction, cam.w) == Dot(Sub(cam.lowerLeftCorner, cam.origin), cam.w)
  {
    var lens := cam.lensRadius.value;
    var offset := Add(Scale(cam.u, disk.x * lens), Scale(cam.v, disk.y * lens));
    var p := ViewportPoint(cam, s, t);
    LensDirection(cam, s, t, disk);
    PerpendicularCombination(cam.u, cam.v, cam.w, disk.x * lens, disk.y * lens);
    DotLinear(Sub(p, cam.origin), offset, cam.w, 0.0);
    DotLinear(p, cam.origin, cam.w, 0.0);
    ViewportPointDepth(cam, s, t);
    DotLinear(cam.lowerLeftCorner, cam.origin, cam.w, 0.0);
  }

  /** The direction of `get_ray` runs from the moved origin to the viewport
      point. */
  lemma LensDirection(cam: Camera, s: real, t: real, disk: Vector3)
    requires cam.lensRadius.Some?
    ensures GetRay(cam, s, t, disk).direction
         == Sub(Sub(ViewportPoint(cam, s, t), cam.origin),
                Add(Scale(cam.u, disk.x * cam.lensRadius.value), Scale(cam.v, disk.y * cam.lensRadius.value)))
  {
  }

  /** Moving along the viewport edges keeps the depth along `w`. */
  lemma ViewportPointDepth(cam: Camera, s: real, t: real)
    requires Dot(cam.horizontal, cam.w) == 0.0 && Dot(cam.vertical, cam.w) == 0.0
    ensures Dot(ViewportPoint(cam, s, t), cam.w) == Dot(cam.lowerLeftCorner, cam.w)
  {
    var a := Scale(cam.horizontal, s);
    var b := Scale(cam.vertical, t);
    DotLinear(Add(cam.lowerLeftCorner, a), b, cam.w, 0.0);
    DotLinear(cam.lowerLeftCorner, a, cam.w, 0.0);
    DotLinear(cam.horizontal, cam.horizontal, cam.w, s);
    DotLinear(cam.vertical, cam.vertical, cam.w, t);
    ProductZero(s, Dot(cam.horizontal, cam.w));
    ProductZero(t, Dot(cam.vertical, cam.w));
  }

  /** The corner of a viewport centred `f` along `-w` from `origin`, with
      edges perpendicular to the unit vector `w`, lies at depth `-f`. */
  lemma CornerDepth(origin: Point3, h: Vector3, v: Vector3, w: Vector3, f: real)
    requires Dot(h, w) == 0.0 && Dot(v, w) == 0.0 && LengthSquared(w) == 1.0
    ensures Dot(Sub(ViewportCorner(origin, h, v, Scale(w, f)), origin), w) == -f
  {
    var a := Sub(origin, Div(h, 2.0));
    var b := Sub(a, Div(v, 2.0));
    assert Div(h, 2.0) == Scale(h, 0.5);
    assert Div(v, 2.0) == Scale(v, 0.5);
    DotLinear(h, h, w, 0.5);
    DotLinear(v, v, w, 0.5);
    DotLinear(w, w, w, f);
    DotLaws(w, w);
    OneTimes(f, Dot(w, w));
    DotLinear(origin, Div(h, 2.0), w, 0.0);
    DotLinear(a, Div(v, 2.0), w, 0.0);
    DotLinear(b, Scale(w, f), w, 0.0);
    DotLinear(ViewportCorner(origin, h, v, Scale(w, f)), origin, w, 0.0);
  }

  /** Every ray of a look-at camera heads `focus_dist` along `-w`, into the
      scene, so it has a direction whenever `focus_dist` is not zero. */
  lemma LookAtRaysForward(m: Libm, lookfrom: Point3, lookat: Point3, vup: Vector3, vfov: real,
                          aspectRatio: real, aperture: real, focusDist: real, s: real, t: real, disk: Vector3)
    requires SqrtLaw(m) && LookAtReady(lookfrom, lookat, vup)
    ensures var c := LookAtCamera(m, lookfrom, lookat, vup, vfov, aspectRatio, aperture, focusDist);
            && Dot(GetRay(c, s, t, disk).direction, c.w) == -focusDist
            && (focusDist != 0.0 ==> GetRay(c, s, t, disk).direction != Zero())
  {
    var c := LookAtCamera(m, lookfrom, lookat, vup, vfov, aspectRatio, aperture, focusDist);
    LookAtBasis(m, lookfrom, lookat, vup, vfov, aspectRatio, aperture, focusDist);
    LookAtEdges(m, lookfrom, lookat, vup, vfov, aspectRatio, aperture, focusDist);
    CornerDepth(lookfrom, c.horizontal, c.vertical, c.w, focusDist);
    RayDepth(c, s, t, disk);
    if focusDist != 0.0 {
      NonZeroByDot(GetRay(c, s, t, disk).direction, c.w);
    }
  }

  /** The viewport edges of a look-at camera are `u` and `v` scaled, so they
      are perpendicular to `w`, and the corner is the viewport of
      `focus_dist`. */
  lemma LookAtEdges(m: Libm, lookfrom: Point3, lookat: Point3, vup: Vector3, vfov: real,
                    aspectRatio: real, aperture: real, focusDist: real)
    requires SqrtLaw(m) && LookAtReady(lookfrom, lookat, vup)
    requires var c := LookAtCamera(m, lookfrom, lookat, vup, vfov, aspectRatio, aperture, focusDist);
             Dot(c.u, c.w) == 0.0 && Dot(c.v, c.w) == 0.0
    ensures var c := LookAtCamera(m, lookfrom, lookat, vup, vfov, aspectRatio, aperture, focusDist);
            && FacesAlongW(c)
            && c.lowerLeftCorner == ViewportCorner(lookfrom, c.horizontal, c.vertical, Scale(c.w, focusDist))
  {
    var c := LookAtCamera(m, lookfrom, lookat, vup, vfov, aspectRatio, aperture, focusDist);
    var viewportHeight := ViewportHeight(m, vfov);
    var kh := focusDist * viewportHeight;
    var kw := focusDist * (aspectRatio * viewportHeight);
    DotLinear(c.u, c.u, c.w, kw);
    DotLinear(c.v, c.v, c.w, kh);
    ProductZero(kw, Dot(c.u, c.w));
    ProductZero(kh, Dot(c.v, c.w));
  }

  /** The lens offset lies in the plane of `u` and `v`, and for an
      orthonormal pair its squared length is `lens_radius^2` times that of
      the disk sample: a sample inside the unit disk moves the origin by less
      than the lens radius. */
  lemma LensOffset(cam: Camera, s: real, t: real, disk: Vector3)
    requires cam.lensRadius.Some? && disk.z == 0.0
    requires LengthSquared(cam.u) == 1.0 && LengthSquared(cam.v) == 1.0 && Dot(cam.u, cam.v) == 0.0
    ensures var lens := cam.lensRadius.value;
            LengthSquared(Sub(GetRay(cam, s, t, disk).origin, cam.origin))
              == lens * lens * LengthSquared(disk)
    ensures Dot(cam.u, cam.w) == 0.0 && Dot(cam.v, cam.w) == 0.0 ==>
              Dot(Sub(GetRay(cam, s, t, disk).origin, cam.origin), cam.w) == 0.0
  {
    var lens := cam.lensRadius.value;
    var a := disk.x * lens;
    var b := disk.y * lens;
    var offset := Add(Scale(cam.u, a), Scale(cam.v, b));
    LensOrigin(cam, s, t, disk);
    SubAdd(cam.origin, offset);
    OrthonormalCombination(cam.u, cam.v, a, b);
    OffsetArith(disk.x, disk.y, disk.z, lens);
    assert LengthSquared(disk) == disk.x * disk.x + disk.y * disk.y + disk.z * disk.z;
    if Dot(cam.u, cam.w) == 0.0 && Dot(cam.v, cam.w) == 0.0 {
      PerpendicularCombination(cam.u, cam.v, cam.w, a, b);
    }
  }

  /** `a u + b v` for orthonormal `u, v` has squared length `a^2 + b^2`. */
  lemma OrthonormalCombination(u: Vector3, v: Vector3, a: real, b: real)
    requires LengthSquared(u) == 1.0 && LengthSquared(v) == 1.0 && Dot(u, v) == 0.0
    ensures LengthSquared(Add(Scale(u, a), Scale(v, b))) == a * a + b * b
  {
    LengthSquaredAdd(Scale(u, a), Scale(v, b));
    LengthSquaredScale(u, a);
    LengthSquaredScale(v, b);
    OneTimes(a * a, LengthSquared(u));
    OneTimes(b * b, LengthSquared(v));
    assert Dot(Scale(u, a), Scale(v, b)) == 0.0 by {
      DotLinear(u, u, Scale(v, b), a);
      DotLinear(v, v, u, b);
    }
  }

  /** A combination of two vectors perpendicular to `w` is perpendicular to
      `w`. */
  lemma PerpendicularCombination(u: Vector3, v: Vector3, w: Vector3, a: real, b: real)
    requires Dot(u, w) == 0.0 && Dot(v, w) == 0.0
    ensures Dot(Add(Scale(u, a), Scale(v, b)), w) == 0.0
  {
    DotLinear(Scale(u, a), Scale(v, b), w, 0.0);
    DotLinear(u, u, w, a);
    DotLinear(v, v, w, b);
  }

  lemma OffsetArith(x: real, y: real, z: real, lens: real)
    requires z == 0.0
    ensures (x * lens) * (x * lens) + (y * lens) * (y * lens)
         == lens * lens * (x * x + y * y + z * z)
  {
  }

  /** The origin of `get_ray` is the camera origin moved by the lens offset. */
  lemma LensOrigin(cam: Camera, s: real, t: real, disk: Vector3)
    requires cam.lensRadius.Some?
    ensures GetRay(cam, s, t, disk).origin
         == Add(cam.origin, Add(Scale(cam.u, disk.x * cam.lensRadius.value), Scale(cam.v, disk.y * cam.lensRadius.value)))
  {
  }

  lemma SubAdd(a: Vector3, b: Vector3)
    ensures Sub(Add(a, b), a) == b
  {
  }

  /** A fixed camera with `lens_radius` set to 0, so that `get_ray` is the
      lens-free ray from the origin. */
  function PinholeCamera(aspect: real): (c: Camera)
    ensures c == Camera(Zero(), Vector3(-aspect, -1.0, -1.0), Vector3(aspect * 2.0, 0.0, 0.0),
                        Vector3(0.0, 2.0, 0.0), Zero(), Zero(), Zero(), Some(0.0))
  {
    FixedCamera(aspect).(lensRadius := Some(0.0))
  }

  /** The pinhole default camera: `Camera()` with `lens_radius` set to 0. */
  function PinholeDefaultCamera(): (c: Camera)
    ensures c.lensRadius == Some(0.0)
    ensures c == DefaultCamera().(lensRadius := Some(0.0))
  {
    PinholeCamera(16.0 / 9.0)
  }

  /** `Camera()` has no lens radius, so `get_ray` reads an unset value. Its
      `u` and `v` are zero, though, so by `UnsetLensIsHarmless` whatever
      number that read yields, the ray is the one of the pinhole camera. */
  lemma DefaultCameraHasNoLens()
    ensures !DefaultCamera().lensRadius.Some?
    ensures DefaultCamera().u == Zero() && DefaultCamera().v == Zero()
  {
  }

  /** On a camera whose `u` and `v` are zero, as `Camera()` leaves them,
      every lens radius gives the ray of lens radius 0: the lens-free ray
      from the origin through the viewport point. */
  lemma UnsetLensIsHarmless(cam: Camera, l: real, s: real, t: real, disk: Vector3)
    requires cam.u == Zero() && cam.v == Zero()
    ensures GetRay(cam.(lensRadius := Some(l)), s, t, disk) == GetRay(cam.(lensRadius := Some(0.0)), s, t, disk)
    ensures GetRay(cam.(lensRadius := Some(l)), s, t, disk) == Ray(cam.origin, Sub(ViewportPoint(cam, s, t), cam.origin))
  {
    var unset := cam.(lensRadius := Some(l));
    var pinhole := cam.(lensRadius := Some(0.0));
    assert ViewportPoint(unset, s, t) == ViewportPoint(cam, s, t) == ViewportPoint(pinhole, s, t);
    ZeroBasisIgnoresLens(unset, s, t, disk);
    ZeroBasisIgnoresLens(pinhole, s, t, disk);
  }

  /** With a zero `u` and `v` the lens offset vanishes: `get_ray` gives the
      lens-free ray whatever the lens radius and the disk sample. */
  lemma ZeroBasisIgnoresLens(cam: Camera, s: real, t: real, disk: Vector3)
    requires cam.lensRadius.Some? && cam.u == Zero() && cam.v == Zero()
    ensures GetRay(cam, s, t, disk) == Ray(cam.origin, Sub(ViewportPoint(cam, s, t), cam.origin))
  {
    var rd := Scale(disk, cam.lensRadius.value);
    var offset := Add(Scale(cam.u, rd.x), Scale(cam.v, rd.y));
    assert offset == Zero();
    assert Add(cam.origin, offset) == cam.origin;
    assert Sub(Sub(ViewportPoint(cam, s, t), cam.origin), offset) == Sub(ViewportPoint(cam, s, t), cam.origin);
  }

  /** On a pinhole fixed camera, `get_ray(s, t)` is the lens-free ray from
      the origin through `(-aspect + 2 aspect s, -1 + 2 t, -1)`, whatever the
      disk sample. */
  lemma PinholeRays(aspect: real, s: real, t: real, disk: Vector3)
    ensures GetRay(PinholeCamera(aspect), s, t, disk)
         == Ray(Zero(), Vector3(-aspect + aspect * 2.0 * s, -1.0 + 2.0 * t, -1.0))
  {
    var c := PinholeCamera(aspect);
    assert ViewportPoint(c, s, t) == Vector3(-aspect + aspect * 2.0 * s, -1.0 + 2.0 * t, -1.0);
  }
}

=== FILE: colors.dfy ===
/** `Color` (include/raytracing/color.h) and the per-channel encoding of
    `write_color` (src/color.cpp).

    A colour is a `Vector3` whose components are read as red, green and blue.
    `write_color` streams three integers; the model returns them as a
    `Pixel`, leaving the stream out. */
module Colors {
  import opened MathLib
  import opened Vectors

  type Color = Vector3

  /** `Color(r, g, b)` */
  function Rgb(r: real, g: real, b: real): (c: Color)
    ensures c.x == r && c.y == g && c.z == b
  {
    Vector3(r, g, b)
  }

  /** `r()`, `g()` and `b()` */
  function Red(c: Color): real { c.x }
  function Green(c: Color): real { c.y }
  function Blue(c: Color): real { c.z }

  /** The constructors store what they are given, in order, and the
      accessors read it back: `Color()` is black, `Color(c)` is grey `c`,
      and `Color(v)` keeps all three components of `v`. */
  lemma ColorConstructors(r: real, g: real, b: real, v: Vector3)
    ensures Red(Rgb(r, g, b)) == r && Green(Rgb(r, g, b)) == g && Blue(Rgb(r, g, b)) == b
    ensures Rgb(Red(v), Green(v), Blue(v)) == v
    ensures Zero() == Rgb(0.0, 0.0, 0.0)
    ensures Splat(g) == Rgb(g, g, g)
  {
  }

  /** Every channel lies in [0, 1]. */
  predicate InUnitCube(c: Color) {
    0.0 <= c.x <= 1.0 && 0.0 <= c.y <= 1.0 && 0.0 <= c.z <= 1.0
  }

  /** The default arguments of `write_color`. */
  const DefaultSamplesPerPixel: int := 1
  const DefaultGamma: real := 2.0

  /** `clamp(x, min, max)`: tests `x < min` first, then `x > max`. */
  function Clamp(x: real, lo: real, hi: real): (r: real)
    ensures lo <= hi ==> lo <= r <= hi
    ensures lo <= x <= hi ==> r == x
    ensures r == x || r == lo || r == hi
  {
    if x < lo then lo else if x > hi then hi else x
  }

  /** Clamping twice is clamping once, for a non-empty range. */
  lemma ClampIdempotent(x: real, lo: real, hi: real)
    requires lo <= hi
    ensures Clamp(Clamp(x, lo, hi), lo, hi) == Clamp(x, lo, hi)
  {
  }

  /** Clamping is monotone: it never reorders two channels. */
  lemma ClampMonotone(x: real, y: real, lo: real, hi: real)
    requires lo <= hi && x <= y
    ensures Clamp(x, lo, hi) <= Clamp(y, lo, hi)
  {
  }

  /** `static_cast<int>` of a finite value: truncation toward zero. */
  function Trunc(x: real): (r: int)
    ensures 0.0 <= x ==> 0 <= r && r as real <= x < r as real + 1.0
    ensures x < 0.0 ==> r <= 0 && r as real - 1.0 < x <= r as real
  {
    if 0.0 <= x then x.Floor else -((-x).Floor)
  }

  /** Truncation is monotone on non-negative values. */
  lemma TruncMonotone(x: real, y: real)
    requires 0.0 <= x <= y
    ensures Trunc(x) <= Trunc(y)
  {
  }

  /** One channel of `write_color` after gamma correction: the
      translated [0, 255] value `static_cast<int>(256 * clamp(c, 0, 0.999))`. */
  function EncodeChannel(c: real): (r: int)
    ensures 0 <= r <= 255
  {
    Trunc(256.0 * Clamp(c, 0.0, 0.999))
  }

  /** The encoding keeps the order of its inputs, sends everything at or below
      0 to 0, everything at or above 0.999 to 255, and a mid-grey 0.5 to 128. */
  lemma EncodeChannelLaws(c: real, d: real)
    ensures c <= d ==> EncodeChannel(c) <= EncodeChannel(d)
    ensures c <= 0.0 ==> EncodeChannel(c) == 0
    ensures 0.999 <= c ==> EncodeChannel(c) == 255
    ensures EncodeChannel(0.5) == 128
  {
    if c <= d {
      ClampMonotone(c, d, 0.0, 0.999);
      TruncMonotone(256.0 * Clamp(c, 0.0, 0.999), 256.0 * Clamp(d, 0.0, 0.999));
    }
  }

  /** One channel divided by the number of samples and raised to `1/gamma`.
      The source divides by both, so neither may be zero. */
  function GammaChannel(m: Libm, c: real, samplesPerPixel: int, gamma: real): real
    requires samplesPerPixel != 0 && gamma != 0.0
  {
    m.pow((1.0 / samplesPerPixel as real) * c, 1.0 / gamma)
  }

  /** The three integers `write_color` prints for one pixel. */
  datatype Pixel = Pixel(r: int, g: int, b: int)

  predicate PixelInRange(p: Pixel) {
    0 <= p.r <= 255 && 0 <= p.g <= 255 && 0 <= p.b <= 255
  }

  /** `write_color(out, color, samples_per_pixel, gamma)`: each channel is
      corrected and encoded on its own. */
  function WriteColor(m: Libm, color: Color, samplesPerPixel: int, gamma: real): (p: Pixel)
    requires samplesPerPixel != 0 && gamma != 0.0
    ensures PixelInRange(p)
  {
    Pixel(EncodeChannel(GammaChannel(m, Red(color), samplesPerPixel, gamma)),
          EncodeChannel(GammaChannel(m, Green(color), samplesPerPixel, gamma)),
          EncodeChannel(GammaChannel(m, Blue(color), samplesPerPixel, gamma)))
  }

  /** A channel depends on its own component only: two colours that agree on
      red print the same red, whatever their other channels. */
  lemma WriteColorChannelsIndependent(m: Libm, c1: Color, c2: Color, samples: int, gamma: real)
    requires samples != 0 && gamma != 0.0
    ensures c1.x == c2.x ==> WriteColor(m, c1, samples, gamma).r == WriteColor(m, c2, samples, gamma).r
    ensures c1.y == c2.y ==> WriteColor(m, c1, samples, gamma).g == WriteColor(m, c2, samples, gamma).g
    ensures c1.z == c2.z ==> WriteColor(m, c1, samples, gamma).b == WriteColor(m, c2, samples, gamma).b
  {
  }

  /** With gamma 1, and a `pow` that leaves its base unchanged under exponent
      1, a channel is exactly the encoded average `scale * c`, where `scale`
      is `1 / samples`. */
  lemma GammaOneIsAverage(m: Libm, c: real, samples: int)
    requires samples != 0
    requires m.pow((1.0 / samples as real) * c, 1.0) == (1.0 / samples as real) * c
    ensures GammaChannel(m, c, samples, 1.0) == (1.0 / samples as real) * c
    ensures EncodeChannel(GammaChannel(m, c, samples, 1.0)) == EncodeChannel((1.0 / samples as real) * c)
  {
    GammaChannelUnfold(m, c, samples, 1.0);
  }

  lemma GammaChannelUnfold(m: Libm, c: real, samples: int, gamma: real)
    requires samples != 0 && gamma != 0.0
    ensures GammaChannel(m, c, samples, gamma) == m.pow((1.0 / samples as real) * c, 1.0 / gamma)
  {
  }

  /** A single white sample prints 255 on every channel with the default
      gamma, given `pow(1, 1/2) = 1`. */
  lemma WhiteIsFullIntensity(m: Libm)
    requires m.pow(1.0, 0.5) == 1.0
    ensures WriteColor(m, Splat(1.0), DefaultSamplesPerPixel, DefaultGamma) == Pixel(255, 255, 255)
  {
    EncodeChannelLaws(1.0, 1.0);
  }
}

=== FILE: early_steps.dfy ===
/** The first tutorial steps (apps/step_2 to apps/step_5). Steps 2 and 3
    test one sphere, centre (0, 0, -1) and radius 0.5, with a `hit_sphere`
    of their own; steps 4 and 5 shade a scene of spheres by the normal of
    the closest hit, seen through the fixed camera. */
module EarlySteps {
  import opened MathLib
  import opened Vectors
  import opened Rays
  import opened Colors
  import opened Hitables
  import opened Quadratics
  import opened Spheres
  import opened HitableLists
  import opened Cameras
  import opened Integrator

  /** The sphere steps 2 and 3 test. */
  function Target(): Sphere {
    PlainSphere(Vector3(0.0, 0.0, -1.0), 0.5)
  }

  // ---------------------------------------------------------------------
  // Step 2

  /** `b * b - 4 * a * c` of step 2, with `a = d . d`, `b = 2 (oc . d)` and
      `c = oc . oc - radius^2`. */
  function FullDiscriminant(center: Point3, radius: real, r: Ray): real {
    var oc := Sub(r.origin, center);
    (2.0 * Dot(oc, r.direction)) * (2.0 * Dot(oc, r.direction))
      - 4.0 * Dot(r.direction, r.direction) * (Dot(oc, oc) - radius * radius)
  }

  /** `hit_sphere(center, radius, r)` of step 2: whether the discriminant
      is strictly positive, which is the sign test of the half-b
      discriminant that step 3 and `Sphere::hit` use. */
  function HitSphereTest(center: Point3, radius: real, r: Ray): (hit: bool)
    ensures hit <==> 0.0 < Discriminant(Coefficients(PlainSphere(center, radius), r))
  {
    FullDiscriminantIsFourHalves(center, radius, r);
    FullDiscriminant(center, radius, r) > 0.0
  }

  /** The full-b discriminant is four times the half-b discriminant that
      step 3 and `Sphere::hit` compute, so the two have the same sign. */
  lemma FullDiscriminantIsFourHalves(center: Point3, radius: real, r: Ray)
    ensures FullDiscriminant(center, radius, r) == 4.0 * Discriminant(Coefficients(PlainSphere(center, radius), r))
  {
    var oc := Sub(r.origin, center);
    DotLaws(r.direction, r.direction);
    DotLaws(oc, oc);
    FourHalves(Dot(r.direction, r.direction), Dot(oc, r.direction), Dot(oc, oc) - radius * radius);
  }

  lemma FourHalves(a: real, h: real, c: real)
    ensures (2.0 * h) * (2.0 * h) - 4.0 * a * c == 4.0 * (h * h - a * c)
  {
  }

  /** The line of the ray crosses the surface at two distinct parameters. */
  ghost predicate CrossesTwice(s: Sphere, r: Ray) {
    exists t1, t2 :: t1 < t2 && OnSphere(s, At(r, t1)) && OnSphere(s, At(r, t2))
  }

  /** Step 2 reports a hit exactly when the line of the ray crosses the
      sphere twice: a tangent line, which touches it once, misses. */
  lemma HitSphereTestCrossesTwice(m: Libm, center: Point3, radius: real, r: Ray)
    requires SqrtLaw(m) && r.direction != Zero()
    ensures HitSphereTest(center, radius, r) <==> CrossesTwice(PlainSphere(center, radius), r)
  {
    var s := PlainSphere(center, radius);
    var q := Coefficients(s, r);
    FullDiscriminantIsFourHalves(center, radius, r);
    LengthSquaredZero(r.direction);
    if 0.0 < Discriminant(q) {
      SqrtPositive(m, Discriminant(q));
      NearBeforeFar(q.a, q.halfB, m.sqrt(Discriminant(q)));
      RootsSolve(m, q, NearRoot(m, q));
      RootsSolve(m, q, FarRoot(m, q));
      CoefficientsMeaning(s, r, NearRoot(m, q));
      CoefficientsMeaning(s, r, FarRoot(m, q));
    } else if CrossesTwice(s, r) {
      var t1, t2 :| t1 < t2 && OnSphere(s, At(r, t1)) && OnSphere(s, At(r, t2));
      CoefficientsMeaning(s, r, t1);
      CoefficientsMeaning(s, r, t2);
      if Discriminant(q) < 0.0 {
        NoRootsSolve(q, t1);
      } else {
        SqrtUnique(m, Discriminant(q), 0.0);
        RootsSolve(m, q, t1);
        RootsSolve(m, q, t2);
        assert false;
      }
    }
  }

  /** With a positive square root the near root lies strictly before the
      far one. */
  lemma NearBeforeFar(a: real, hb: real, s: real)
    requires 0.0 < a && 0.0 < s
    ensures (-hb - s) / a < (-hb + s) / a
  {
    var lo := (-hb - s) / a;
    var hi := (-hb + s) / a;
    assert lo * a == -hb - s;
    assert hi * a == -hb + s;
    SignOfProduct(a, hi - lo);
  }

  /** Step 2 ignores the sign of the roots: a ray pointing away from the
      sphere gets the same answer as one pointing at it, so a sphere behind
      the eye still counts as hit. */
  lemma HitSphereTestIgnoresDirection(center: Point3, radius: real, r: Ray)
    ensures HitSphereTest(center, radius, Ray(r.origin, Neg(r.direction))) == HitSphereTest(center, radius, r)
  {
    var oc := Sub(r.origin, center);
    DotLinear(r.direction, r.direction, oc, -1.0);
    DotLinear(r.direction, r.direction, Neg(r.direction), -1.0);
    DotLinear(r.direction, r.direction, r.direction, -1.0);
    assert Dot(oc, Neg(r.direction)) == -Dot(oc, r.direction);
    assert Dot(Neg(r.direction), Neg(r.direction)) == Dot(r.direction, r.direction);
  }

  /** `ray_color(r)` of step 2: red where the test hits, the sky elsewhere.
      The sky is never red, so the colour tells the test's answer. */
  function RedSphereColor(m: Libm, r: Ray): (c: Color)
    requires SqrtLaw(m) && r.direction != Zero()
    ensures InUnitCube(c)
    ensures c == Rgb(1.0, 0.0, 0.0) <==> HitSphereTest(Target().center, Target().radius, r)
  {
    if HitSphereTest(Target().center, Target().radius, r) then Rgb(1.0, 0.0, 0.0) else Sky(m, r.direction)
  }

  // ---------------------------------------------------------------------
  // Step 3

  /** `hit_sphere(center, radius, r)` of step 3: -1 for a negative half-b
      discriminant, and otherwise the nearer root `(-half_b - sqrt(d)) / a`,
      whatever its sign. The division by `a` needs a direction. */
  function HitSphereRoot(m: Libm, center: Point3, radius: real, r: Ray): (t: real)
    requires SqrtLaw(m) && r.direction != Zero()
    ensures Discriminant(Coefficients(PlainSphere(center, radius), r)) < 0.0 ==> t == -1.0
    ensures 0.0 <= Discriminant(Coefficients(PlainSphere(center, radius), r)) ==>
              OnSphere(PlainSphere(center, radius), At(r, t))
              && forall t' :: OnSphere(PlainSphere(center, radius), At(r, t')) ==> t <= t'
  {
    var q := Coefficients(PlainSphere(center, radius), r);
    LengthSquaredZero(r.direction);
    if Discriminant(q) < 0.0 then -1.0
    else
      NearRootIsFirst(m, PlainSphere(center, radius), r);
      NearRoot(m, q)
  }

  /** With a non-negative discriminant the near root is on the surface and
      no parameter on the surface comes before it. */
  lemma NearRootIsFirst(m: Libm, s: Sphere, r: Ray)
    requires SqrtLaw(m) && r.direction != Zero()
    requires 0.0 <= Discriminant(Coefficients(s, r))
    ensures LengthSquared(r.direction) != 0.0
    ensures OnSphere(s, At(r, NearRoot(m, Coefficients(s, r))))
    ensures forall t :: OnSphere(s, At(r, t)) ==> NearRoot(m, Coefficients(s, r)) <= t
  {
    var q := Coefficients(s, r);
    LengthSquaredZero(r.direction);
    RootsSolve(m, q, NearRoot(m, q));
    CoefficientsMeaning(s, r, NearRoot(m, q));
    forall t | OnSphere(s, At(r, t))
      ensures NearRoot(m, q) <= t
    {
      CoefficientsMeaning(s, r, t);
      RootsSolve(m, q, t);
    }
  }

  /** The full-b `hit_sphere` that step 3 keeps in a comment:
      `(-b - sqrt(b^2 - 4ac)) / (2a)`, or -1 for a negative discriminant.
      It returns the same number as the half-b version: `b = 2 half_b` and
      the discriminant is four times as large, so its square root is twice
      as large. */
  function FullBRoot(m: Libm, center: Point3, radius: real, r: Ray): (t: real)
    requires r.direction != Zero()
    ensures SqrtLaw(m) ==> t == HitSphereRoot(m, center, radius, r)
  {
    var oc := Sub(r.origin, center);
    var q := Coefficients(PlainSphere(center, radius), r);
    LengthSquaredZero(r.direction);
    DotLaws(r.direction, r.direction);
    FullDiscriminantIsFourHalves(center, radius, r);
    FullBSqrt(m, center, radius, r);
    HalveBoth(q.a, q.halfB, m.sqrt(Discriminant(q)));
    var disc := FullDiscriminant(center, radius, r);
    if disc < 0.0 then -1.0
    else (-(2.0 * Dot(oc, r.direction)) - m.sqrt(disc)) / (2.0 * Dot(r.direction, r.direction))
  }

  /** Under the square-root law, the square root of the full-b discriminant
      is twice that of the half-b one. */
  lemma FullBSqrt(m: Libm, center: Point3, radius: real, r: Ray)
    ensures var d := Discriminant(Coefficients(PlainSphere(center, radius), r));
            SqrtLaw(m) && 0.0 <= d ==> m.sqrt(FullDiscriminant(center, radius, r)) == 2.0 * m.sqrt(d)
  {
    var d := Discriminant(Coefficients(PlainSphere(center, radius), r));
    FullDiscriminantIsFourHalves(center, radius, r);
    if SqrtLaw(m) && 0.0 <= d {
      var sq := m.sqrt(d);
      assert 0.0 <= sq && sq * sq == d;
      SqrtUnique(m, 4.0 * d, 2.0 * sq);
    }
  }

  lemma HalveBoth(a: real, hb: real, s: real)
    requires a != 0.0
    ensures (-(2.0 * hb) - 2.0 * s) / (2.0 * a) == (-hb - s) / a
  {
    var k := (-hb - s) / a;
    assert k * a == -hb - s;
    Quotient(-(2.0 * hb) - 2.0 * s, 2.0 * a, k);
  }

  /** `0.5 * Color{n.x + 1, n.y + 1, n.z + 1}`: a normal mapped to a colour.
      The colour lies in [0, 1]^3 exactly when every component of the normal
      lies in [-1, 1], as those of a unit normal do. */
  function NormalShade(n: Vector3): (c: Color)
    ensures InUnitCube(c) <==> -1.0 <= n.x <= 1.0 && -1.0 <= n.y <= 1.0 && -1.0 <= n.z <= 1.0
    ensures LengthSquared(n) == 1.0 ==> InUnitCube(c)
  {
    UnitNormalComponents(n);
    Scale(Add(n, Splat(1.0)), 0.5)
  }

  lemma UnitNormalComponents(n: Vector3)
    ensures LengthSquared(n) == 1.0 ==> -1.0 <= n.x <= 1.0 && -1.0 <= n.y <= 1.0 && -1.0 <= n.z <= 1.0
  {
    if LengthSquared(n) == 1.0 {
      UnitComponents(n);
    }
  }

  /** `ray_color(r)` of step 3: a root beyond the eye is shaded by the unit
      vector from the centre to the hit point, anything else shows the sky.
      That vector is the sphere's outward normal `(p - center) / radius`. */
  function NormalSphereColor(m: Libm, r: Ray): (c: Color)
    requires SqrtLaw(m) && r.direction != Zero()
    ensures InUnitCube(c)
    ensures var t := HitSphereRoot(m, Target().center, Target().radius, r);
            0.0 < t ==> c == NormalShade(OutwardNormal(Target(), At(r, t)))
    ensures HitSphereRoot(m, Target().center, Target().radius, r) <= 0.0 ==> c == Sky(m, r.direction)
  {
    var t := HitSphereRoot(m, Target().center, Target().radius, r);
    if 0.0 < t then
      HalfRadiusNormal(m, At(r, t));
      NormalShade(Normalize(m, Sub(At(r, t), Target().center)))
    else Sky(m, r.direction)
  }

  /** On the target, normalising `p - center` divides by the radius 0.5:
      it gives the outward normal, a unit vector. */
  lemma HalfRadiusNormal(m: Libm, p: Point3)
    requires SqrtLaw(m) && OnSphere(Target(), p)
    ensures Length(m, Sub(p, Target().center)) == 0.5
    ensures Normalize(m, Sub(p, Target().center)) == OutwardNormal(Target(), p)
    ensures LengthSquared(OutwardNormal(Target(), p)) == 1.0
  {
    var d := Sub(p, Target().center);
    assert LengthSquared(d) == 0.25;
    SqrtUnique(m, 0.25, 0.5);
    LengthSquaredScale(d, 1.0 / 0.5);
    assert OutwardNormal(Target(), p) == Scale(d, 2.0);
  }

  // ---------------------------------------------------------------------
  // Steps 4 and 5

  /** `ray_color(r, world)` of steps 4 and 5: the scene is queried over
      [0, infinity); a hit is shaded by its normal, a miss shows the sky. */
  function NormalColor(m: Libm, r: Ray, world: seq<Sphere>): (c: Color)
    requires Valid(m) && r.direction != Zero() && SceneShapes(world)
    ensures InUnitCube(c)
  {
    SceneHitFacts(m, world, r, 0.0, Infinity);
    var hit := WorldHit(m, world, r, 0.0, Infinity);
    if hit.Some? then NormalShade(hit.value.normal) else Sky(m, r.direction)
  }

  /** A ray that meets no sphere shows the sky. */
  lemma NormalColorMiss(m: Libm, r: Ray, world: seq<Sphere>)
    requires Valid(m) && r.direction != Zero() && SceneShapes(world)
    ensures AllCanHit(m, world, r)
    ensures (forall i :: 0 <= i < |world| ==> Hit(m, world[i], r, 0.0, Infinity).None?)
            ==> NormalColor(m, r, world) == Sky(m, r.direction)
  {
    ShapesCanHit(m, world, r);
  }

  /** A ray that meets a sphere is shaded by the normal of the closest
      sphere it meets at or beyond the eye. */
  lemma NormalColorShadesClosest(m: Libm, r: Ray, world: seq<Sphere>, k: int)
    requires Valid(m) && r.direction != Zero() && SceneShapes(world)
    requires 0 <= k < |world| && CanHit(m, world[k], r) && Hit(m, world[k], r, 0.0, Infinity).Some?
    ensures AllCanHit(m, world, r)
    ensures exists j :: 0 <= j < |world| && ClosestShade(m, r, world, j)
  {
    ShapesCanHit(m, world, r);
    var hit := WorldHit(m, world, r, 0.0, Infinity);
    assert hit.Some?;
    var j :| 0 <= j < |world| && hit == Hit(m, world[j], r, 0.0, Infinity)
             && forall i :: 0 <= i < |world| && Hit(m, world[i], r, 0.0, Infinity).Some? ==>
                  hit.value.t <= Hit(m, world[i], r, 0.0, Infinity).value.t;
    assert ClosestShade(m, r, world, j);
  }

  /** Sphere `j` is met at or beyond the eye, no sphere is met closer, and
      the colour is the shade of its normal. */
  ghost predicate ClosestShade(m: Libm, r: Ray, world: seq<Sphere>, j: int)
    requires Valid(m) && r.direction != Zero() && SceneShapes(world) && 0 <= j < |world|
  {
    && Hit(m, world[j], r, 0.0, Infinity).Some?
    && 0.0 <= Hit(m, world[j], r, 0.0, Infinity).value.t
    && NormalColor(m, r, world) == NormalShade(Hit(m, world[j], r, 0.0, Infinity).value.normal)
    && forall i :: 0 <= i < |world| && Hit(m, world[i], r, 0.0, Infinity).Some? ==>
         Hit(m, world[j], r, 0.0, Infinity).value.t <= Hit(m, world[i], r, 0.0, Infinity).value.t
  }

  /** `double(i) / (image_width - 1)`: the coordinate of column `i` (or row
      `j`) on the viewport. The first column is at 0 and the last at 1. */
  lemma GridCoordinate(index: int, extent: int)
    requires 1 < extent && 0 <= index < extent
    ensures 0.0 <= ViewportCoordinate(index, 0.0, extent) <= 1.0
    ensures index == 0 ==> ViewportCoordinate(index, 0.0, extent) == 0.0
    ensures index == extent - 1 ==> ViewportCoordinate(index, 0.0, extent) == 1.0
  {
    var u := ViewportCoordinate(index, 0.0, extent);
    ViewportCoordinateRange(index, 0.0, extent);
    if index == extent - 1 {
      CancelFactor(u, (extent - 1) as real);
    } else if index == 0 {
      ProductZero(u, (extent - 1) as real);
    }
  }

  /** The ray of pixel (i, j) in step 4: from the origin through
      `lower_left_corner + u horizontal + v vertical` of the fixed camera,
      with `u = i / (width - 1)` and `v = j / (height - 1)`. */
  function GridRay(aspect: real, i: int, j: int, width: int, height: int): (r: Ray)
    requires ImageReady(width, height)
    ensures r.origin == Zero() && r.direction.z == -1.0
    ensures 0 <= i < width && 0.0 <= aspect ==> -aspect <= r.direction.x <= aspect
    ensures 0 <= j < height ==> -1.0 <= r.direction.y <= 1.0
  {
    var cam := FixedCamera(aspect);
    var u := ViewportCoordinate(i, 0.0, width);
    var v := ViewportCoordinate(j, 0.0, height);
    GridPoint(aspect, u, v);
    GridBounds(aspect, i, width);
    GridBounds(1.0, j, height);
    Ray(cam.origin, Sub(ViewportPoint(cam, u, v), cam.origin))
  }

  /** Column `index` of an image `extent` wide lands within `aspect` of
      the centre of a viewport `2 aspect` wide. */
  lemma GridBounds(aspect: real, index: int, extent: int)
    requires 1 < extent
    ensures 0 <= index < extent && 0.0 <= aspect ==>
              -aspect <= -aspect + ViewportCoordinate(index, 0.0, extent) * (aspect * 2.0) <= aspect
  {
    if 0 <= index < extent && 0.0 <= aspect {
      GridCoordinate(index, extent);
      UnitFraction(aspect * 2.0, ViewportCoordinate(index, 0.0, extent));
    }
  }

  /** A point of the fixed camera's viewport. */
  lemma GridPoint(aspect: real, u: real, v: real)
    ensures ViewportPoint(FixedCamera(aspect), u, v) == Vector3(-aspect + u * (aspect * 2.0), -1.0 + v * 2.0, -1.0)
  {
  }

  /** The corner pixels look through the corners of the viewport: pixel
      (0, 0) at the lower left corner and pixel (width - 1, height - 1) at
      the upper right one. */
  lemma GridCorners(aspect: real, width: int, height: int)
    requires ImageReady(width, height)
    ensures GridRay(aspect, 0, 0, width, height).direction == Vector3(-aspect, -1.0, -1.0)
    ensures GridRay(aspect, width - 1, height - 1, width, height).direction == Vector3(aspect, 1.0, -1.0)
  {
    GridCoordinate(0, width);
    GridCoordinate(0, height);
    GridCoordinate(width - 1, width);
    GridCoordinate(height - 1, height);
    GridPoint(aspect, 0.0, 0.0);
    GridPoint(aspect, 1.0, 1.0);
  }

  /** Step 5 takes 100 samples per pixel and writes them with gamma 1. */
  function NormalSamplesPerPixel(): int { 100 }

  /** The ray of one jittered sample of pixel (i, j) through the fixed
      camera: from the origin through the viewport point at
      `u = (i + du) / (width - 1)`, `v = (j + dv) / (height - 1)`. It always
      points one unit down `-z`. */
  function SampleGridRay(aspect: real, i: int, j: int, width: int, height: int, s: PixelSample): (r: Ray)
    requires ImageReady(width, height)
    ensures r.origin == Zero() && r.direction.z == -1.0 && r.direction != Zero()
  {
    var u := ViewportCoordinate(i, s.du, width);
    var v := ViewportCoordinate(j, s.dv, height);
    GridPoint(aspect, u, v);
    Ray(Zero(), Sub(ViewportPoint(FixedCamera(aspect), u, v), Zero()))
  }

  /** `get_ray(u, v)` of the pinhole fixed camera is the sample's grid ray,
      whatever the disk sample; without jitter it is the ray step 4 builds
      for the pixel. */
  lemma SampleGridRayIsCameraRay(aspect: real, i: int, j: int, width: int, height: int, s: PixelSample)
    requires ImageReady(width, height)
    ensures SampleGridRay(aspect, i, j, width, height, s) == SampleRay(PinholeCamera(aspect), i, j, width, height, s)
    ensures s.du == 0.0 && s.dv == 0.0 ==> SampleGridRay(aspect, i, j, width, height, s) == GridRay(aspect, i, j, width, height)
  {
    var u := ViewportCoordinate(i, s.du, width);
    var v := ViewportCoordinate(j, s.dv, height);
    PinholeRays(aspect, u, v, s.disk);
    GridPoint(aspect, u, v);
  }

  /** The sum of the normal shades over the samples of pixel (i, j), in
      sample order. Step 5 traces them through `Camera()`, which leaves
      `lens_radius` unset; the sum uses the pinhole camera with the same
      viewport, whose rays do not depend on the disk sample. Each channel of
      the sum of n samples lies in [0, n], so the average `write_color`
      takes lies in [0, 1]. */
  function NormalPixelSum(m: Libm, aspect: real, world: seq<Sphere>, i: int, j: int, width: int, height: int,
                          samples: seq<PixelSample>): (c: Color)
    requires Valid(m) && SceneShapes(world) && ImageReady(width, height)
    ensures ChannelsWithin(c, |samples| as real)
    decreases |samples|
  {
    if |samples| == 0 then Zero()
    else
      var n := |samples| - 1;
      var sum := NormalPixelSum(m, aspect, world, i, j, width, height, samples[..n]);
      var shade := NormalColor(m, SampleGridRay(aspect, i, j, width, height, samples[n]), world);
      AddWithin(sum, shade, n as real);
      Add(sum, shade)
  }

  /** Adding a colour of [0, 1]^3 to a sum within [0, n] gives a sum within
      [0, n + 1]. */
  lemma AddWithin(sum: Color, c: Color, n: real)
    requires ChannelsWithin(sum, n) && InUnitCube(c)
    ensures ChannelsWithin(Add(sum, c), n + 1.0)
  {
  }

  /** What step 5 writes for a pixel: with gamma 1, and a `pow` that leaves
      its base unchanged under exponent 1, each channel is the encoded
      average over the 100 samples. */
  lemma NormalPixelEncoding(m: Libm, sum: Color)
    requires forall x :: m.pow(x, 1.0) == x
    ensures WriteColor(m, sum, NormalSamplesPerPixel(), 1.0)
         == Pixel(EncodeChannel(sum.x / 100.0), EncodeChannel(sum.y / 100.0), EncodeChannel(sum.z / 100.0))
  {
    AverageOfHundred(m, sum.x);
    AverageOfHundred(m, sum.y);
    AverageOfHundred(m, sum.z);
  }

  lemma AverageOfHundred(m: Libm, c: real)
    requires m.pow((1.0 / 100 as real) * c, 1.0) == (1.0 / 100 as real) * c
    ensures EncodeChannel(GammaChannel(m, c, 100, 1.0)) == EncodeChannel(c / 100.0)
  {
    GammaOneIsAverage(m, c, 100);
    assert (1.0 / 100 as real) * c == c / 100.0;
  }
}

=== FILE: hitable_list.dfy ===
/** `HitableList` (include/raytracing/hitable_list.h): a sequence of
    objects whose `hit` scans them in order, narrowing the upper end to the
    closest hit so far. The scan is stated for any object that keeps to its
    interval and narrows; spheres, the only objects the program builds, are
    shown to be such objects, and `WorldHit` is the scan over a scene of
    spheres. */
module HitableLists {
  import opened Wrappers
  import opened MathLib
  import opened Vectors
  import opened Rays
  import opened Hitables
  import opened Spheres

  /** `add(object)`: appends at the end. */
  function AddObject<T>(objects: seq<T>, s: T): (out: seq<T>)
    ensures |out| == |objects| + 1 && out[..|objects|] == objects && out[|objects|] == s
  {
    objects + [s]
  }

  /** `clear()` */
  function Clear<T>(objects: seq<T>): (out: seq<T>)
    ensures |out| == 0
  {
    []
  }

  /** Every sphere of the scene can be hit by `r`. */
  predicate AllCanHit(m: Libm, objects: seq<Sphere>, r: Ray) {
    forall i :: 0 <= i < |objects| ==> CanHit(m, objects[i], r)
  }

  /** An object of the list as the scan sees it: for the ray and `t_min` of
      one query, what its `hit` reports for a given upper end `t_max`. The
      list holds any `Hitable`, so the scan is stated for any such object. */
  type Query = Limit -> Option<HitRecord>

  /** An object's `hit` keeps to its interval. */
  ghost predicate Honours(q: Query, tMin: real) {
    forall tMax :: q(tMax).Some? ==> InRange(q(tMax).value.t, tMin, tMax)
  }

  /** Lowering the upper end to `bound` keeps a hit at or before `bound` and
      loses any other. */
  ghost predicate Narrows(q: Query, tMax: Limit) {
    forall bound :: (tMax.Infinity? || bound <= tMax.value) ==>
      q(Finite(bound)) == if q(tMax).Some? && q(tMax).value.t <= bound then q(tMax) else None
  }

  /** Every object of the list keeps to its interval and narrows. */
  ghost predicate Lawful(objects: seq<Query>, tMin: real, tMax: Limit) {
    forall i :: 0 <= i < |objects| ==> Honours(objects[i], tMin) && Narrows(objects[i], tMax)
  }

  /** Object `j` of the first `n` has the closest hit among them, and every
      later one of them that hits does so strictly further away: ties go to
      the later object. */
  predicate IsClosest(objects: seq<Query>, n: int, j: int, tMax: Limit)
    requires 0 <= n <= |objects|
  {
    0 <= j < n && objects[j](tMax).Some?
    && (forall i :: 0 <= i < n && objects[i](tMax).Some? ==> objects[j](tMax).value.t <= objects[i](tMax).value.t)
    && (forall i :: j < i < n && objects[i](tMax).Some? ==> objects[j](tMax).value.t < objects[i](tMax).value.t)
  }

  /** The scan over the first `n` objects, one step per object, each queried
      up to the closest hit so far. */
  function Scan(objects: seq<Query>, n: nat, tMin: real, tMax: Limit): (res: Option<HitRecord>)
    requires n <= |objects| && Lawful(objects, tMin, tMax)
    ensures res.Some? ==> InRange(res.value.t, tMin, tMax)
  {
    if n == 0 then None
    else
      var prev := Scan(objects, n - 1, tMin, tMax);
      var closest := if prev.Some? then Finite(prev.value.t) else tMax;
      var h := objects[n - 1](closest);
      assert h.Some? ==> InRange(h.value.t, tMin, closest);
      if h.Some? then h else prev
  }

  /** The scan reports nothing exactly when no object is hit in the
      interval. */
  lemma {:induction false} ScanMissesAll(objects: seq<Query>, n: nat, tMin: real, tMax: Limit)
    requires n <= |objects| && Lawful(objects, tMin, tMax)
    ensures Scan(objects, n, tMin, tMax).None? <==> forall i :: 0 <= i < n ==> objects[i](tMax).None?
  {
    if n > 0 {
      ScanMissesAll(objects, n - 1, tMin, tMax);
      var prev := Scan(objects, n - 1, tMin, tMax);
      if prev.None? {
        assert Scan(objects, n, tMin, tMax) == objects[n - 1](tMax);
      } else {
        assert Scan(objects, n, tMin, tMax).Some?;
      }
    }
  }

  /** The scan returns the hit of the closest object, the later object's on
      a tie. */
  lemma {:induction false} ScanIsClosest(objects: seq<Query>, n: nat, tMin: real, tMax: Limit)
    requires n <= |objects| && Lawful(objects, tMin, tMax)
    ensures var res := Scan(objects, n, tMin, tMax);
            res.Some? ==> exists j :: IsClosest(objects, n, j, tMax) && res == objects[j](tMax)
  {
    if n > 0 {
      ScanIsClosest(objects, n - 1, tMin, tMax);
      ScanMissesAll(objects, n - 1, tMin, tMax);
      var prev := Scan(objects, n - 1, tMin, tMax);
      if prev.Some? {
        var j :| IsClosest(objects, n - 1, j, tMax) && prev == objects[j](tMax);
        ScanStepClosest(objects, n, j, tMin, tMax);
      } else if objects[n - 1](tMax).Some? {
        FirstClosest(objects, n, tMax);
      }
    }
  }

  /** One step of the scan after a hit: the closest so far is either kept
      or replaced by the last object. */
  lemma ScanStepClosest(objects: seq<Query>, n: nat, j: int, tMin: real, tMax: Limit)
    requires 0 < n <= |objects| && Lawful(objects, tMin, tMax)
    requires IsClosest(objects, n - 1, j, tMax)
    requires Scan(objects, n - 1, tMin, tMax) == objects[j](tMax)
    ensures var res := Scan(objects, n, tMin, tMax);
            res.Some? && ((IsClosest(objects, n, j, tMax) && res == objects[j](tMax))
                          || (IsClosest(objects, n, n - 1, tMax) && res == objects[n - 1](tMax)))
  {
    var h := objects[n - 1](tMax);
    assert Narrows(objects[n - 1], tMax);
    if h.Some? && h.value.t <= objects[j](tMax).value.t {
      NewClosest(objects, n, j, tMax);
    } else {
      KeepClosest(objects, n, j, tMax);
    }
  }

  /** Step of the scan: a last object hit no further than the closest so far
      becomes the closest. */
  lemma NewClosest(objects: seq<Query>, n: nat, j: int, tMax: Limit)
    requires 0 < n <= |objects|
    requires IsClosest(objects, n - 1, j, tMax)
    requires objects[n - 1](tMax).Some?
    requires objects[n - 1](tMax).value.t <= objects[j](tMax).value.t
    ensures IsClosest(objects, n, n - 1, tMax)
  {
  }

  /** Step of the scan: a last object missed, or hit strictly further away,
      leaves the closest unchanged. */
  lemma KeepClosest(objects: seq<Query>, n: nat, j: int, tMax: Limit)
    requires 0 < n <= |objects|
    requires IsClosest(objects, n - 1, j, tMax)
    requires objects[n - 1](tMax).Some? ==> objects[j](tMax).value.t < objects[n - 1](tMax).value.t
    ensures IsClosest(objects, n, j, tMax)
  {
  }

  /** Step of the scan: the first object hit after only misses is the
      closest. */
  lemma FirstClosest(objects: seq<Query>, n: nat, tMax: Limit)
    requires 0 < n <= |objects|
    requires forall i :: 0 <= i < n - 1 ==> objects[i](tMax).None?
    requires objects[n - 1](tMax).Some?
    ensures IsClosest(objects, n, n - 1, tMax)
  {
  }

  /** `HitableList::hit(r, t_min, t_max, rec)`: returns whether anything was
      hit and the record, which is the caller's `rec` unchanged when nothing
      was. */
  method ListHit(objects: seq<Query>, tMin: real, tMax: Limit, rec: HitRecord)
    returns (hitAnything: bool, out: HitRecord)
    requires Lawful(objects, tMin, tMax)
    ensures !hitAnything <==> forall i :: 0 <= i < |objects| ==> objects[i](tMax).None?
    ensures !hitAnything ==> out == rec
    ensures hitAnything ==> InRange(out.t, tMin, tMax)
    ensures hitAnything ==> exists j :: IsClosest(objects, |objects|, j, tMax) && objects[j](tMax) == Some(out)
    ensures hitAnything ==> Scan(objects, |objects|, tMin, tMax) == Some(out)
  {
    hitAnything := false;
    out := rec;
    var closestSoFar := tMax;
    var i := 0;
    while i < |objects|
      invariant 0 <= i <= |objects|
      invariant hitAnything <==> Scan(objects, i, tMin, tMax).Some?
      invariant hitAnything ==> Scan(objects, i, tMin, tMax) == Some(out) && closestSoFar == Finite(out.t)
      invariant !hitAnything ==> out == rec && closestSoFar == tMax
    {
      var tempRec := objects[i](closestSoFar);
      if tempRec.Some? {
        hitAnything := true;
        closestSoFar := Finite(tempRec.value.t);
        out := tempRec.value;
      }
      i := i + 1;
    }
    ScanMissesAll(objects, |objects|, tMin, tMax);
    ScanIsClosest(objects, |objects|, tMin, tMax);
  }

  /** The closest-so-far bound never exceeds `t_max` and never grows: a
      later scan step's hit is no further than an earlier one's. */
  lemma ScanNonIncreasing(objects: seq<Query>, n: nat, tMin: real, tMax: Limit)
    requires n < |objects| && Lawful(objects, tMin, tMax)
    requires Scan(objects, n, tMin, tMax).Some?
    ensures Scan(objects, n + 1, tMin, tMax).Some?
    ensures Scan(objects, n + 1, tMin, tMax).value.t <= Scan(objects, n, tMin, tMax).value.t
    ensures tMax.Finite? ==> Scan(objects, n + 1, tMin, tMax).value.t <= tMax.value
  {
    var prev := Scan(objects, n, tMin, tMax);
    assert Honours(objects[n], tMin);
    var h := objects[n](Finite(prev.value.t));
    assert h.Some? ==> InRange(h.value.t, tMin, Finite(prev.value.t));
  }

  /** `Sphere::hit` for one ray and `t_min`, as an object of the list. */
  function SphereQuery(m: Libm, s: Sphere, r: Ray, tMin: real): (q: Query)
    requires CanHit(m, s, r)
    ensures forall tMax :: q(tMax) == Hit(m, s, r, tMin, tMax)
  {
    tMax => Hit(m, s, r, tMin, tMax)
  }

  /** A sphere keeps to its interval and narrows. */
  lemma SphereLawful(m: Libm, s: Sphere, r: Ray, tMin: real, tMax: Limit)
    requires SqrtLaw(m) && CanHit(m, s, r)
    ensures Honours(SphereQuery(m, s, r, tMin), tMin)
    ensures Narrows(SphereQuery(m, s, r, tMin), tMax)
  {
    var q := SphereQuery(m, s, r, tMin);
    forall bound | tMax.Infinity? || bound <= tMax.value
      ensures q(Finite(bound)) == if q(tMax).Some? && q(tMax).value.t <= bound then q(tMax) else None
    {
      HitShrink(m, s, r, tMin, tMax, bound);
    }
  }

  /** A scene of spheres as a list of objects for one ray and `t_min`. */
  function Objects(m: Libm, objects: seq<Sphere>, r: Ray, tMin: real): (qs: seq<Query>)
    requires AllCanHit(m, objects, r)
    ensures |qs| == |objects|
    ensures forall i :: 0 <= i < |objects| ==> qs[i] == SphereQuery(m, objects[i], r, tMin)
  {
    seq(|objects|, i requires 0 <= i < |objects| => SphereQuery(m, objects[i], r, tMin))
  }

  /** `world.hit(r, t_min, t_max, rec)` on a scene of spheres: nothing
      exactly when every sphere misses, and otherwise the hit of a sphere no
      other sphere beats. */
  function WorldHit(m: Libm, objects: seq<Sphere>, r: Ray, tMin: real, tMax: Limit): (res: Option<HitRecord>)
    requires SqrtLaw(m) && AllCanHit(m, objects, r)
    ensures res.None? <==> forall i :: 0 <= i < |objects| ==> Hit(m, objects[i], r, tMin, tMax).None?
    ensures res.Some? ==> InRange(res.value.t, tMin, tMax)
    ensures res.Some? ==> exists j :: 0 <= j < |objects| && res == Hit(m, objects[j], r, tMin, tMax)
                                      && forall i :: 0 <= i < |objects| && Hit(m, objects[i], r, tMin, tMax).Some?
                                                     ==> res.value.t <= Hit(m, objects[i], r, tMin, tMax).value.t
  {
    var qs := Objects(m, objects, r, tMin);
    ObjectsLawful(m, objects, r, tMin, tMax);
    ScanMissesAll(qs, |qs|, tMin, tMax);
    ScanIsClosest(qs, |qs|, tMin, tMax);
    Scan(qs, |qs|, tMin, tMax)
  }

  lemma ObjectsLawful(m: Libm, objects: seq<Sphere>, r: Ray, tMin: real, tMax: Limit)
    requires SqrtLaw(m) && AllCanHit(m, objects, r)
    ensures Lawful(Objects(m, objects, r, tMin), tMin, tMax)
  {
    var qs := Objects(m, objects, r, tMin);
    forall i | 0 <= i < |qs|
      ensures Honours(qs[i], tMin) && Narrows(qs[i], tMax)
    {
      SphereLawful(m, objects[i], r, tMin, tMax);
    }
  }
}

=== FILE: hitables.dfy ===
/** `HitRecord` and `Hitable` (include/raytracing/hitable.h): what a hit
    reports, the accepted parameter interval of a query, and
    `set_face_normal`. */
module Hitables {
  import opened Wrappers
  import opened Vectors
  import opened Rays
  import opened Materials

  /** The upper end of a query: a number, or `infinity`. */
  datatype Limit = Finite(value: real) | Infinity

  /** The hit tests reject a root with `root < t_min || t_max < root`, so
      both ends are accepted. */
  predicate InRange(t: real, tMin: real, tMax: Limit) {
    tMin <= t && (tMax.Infinity? || t <= tMax.value)
  }

  /** `HitRecord`. The material is `None` where the source holds a null
      pointer. */
  datatype HitRecord = HitRecord(
    p: Point3,
    normal: Vector3,
    t: real,
    material: Option<Material>,
    frontFace: bool,
    u: real,
    v: real)

  /** `set_face_normal(r, outward_normal)`: the record's normal is turned to
      face the incoming ray, and `front_face` says whether that needed no
      turning. */
  function SetFaceNormal(rec: HitRecord, r: Ray, outward: Vector3): (out: HitRecord)
    ensures out.frontFace <==> Dot(r.direction, outward) < 0.0
    ensures out.normal == outward || out.normal == Neg(outward)
    ensures out.frontFace ==> out.normal == outward
    ensures !out.frontFace ==> out.normal == Neg(outward)
    ensures Dot(r.direction, out.normal) <= 0.0
    ensures LengthSquared(out.normal) == LengthSquared(outward)
    ensures out.p == rec.p && out.t == rec.t && out.material == rec.material
    ensures out.u == rec.u && out.v == rec.v
  {
    var front := Dot(r.direction, outward) < 0.0;
    DotLinear(outward, outward, r.direction, -1.0);
    DotLaws(r.direction, outward);
    DotLaws(r.direction, Neg(outward));
    LengthSquaredScale(outward, -1.0);
    rec.(frontFace := front, normal := if front then outward else Neg(outward))
  }

  /** Orienting a second time against the same ray, with the stored normal,
      keeps that normal. After a front-face hit nothing changes; after a
      back-face hit the stored normal already faces the ray, so only
      `front_face` turns true. */
  lemma SetFaceNormalTwice(rec: HitRecord, r: Ray, outward: Vector3)
    requires Dot(r.direction, outward) != 0.0
    ensures var once := SetFaceNormal(rec, r, outward);
            SetFaceNormal(once, r, once.normal).normal == once.normal
    ensures var once := SetFaceNormal(rec, r, outward);
            once.frontFace ==> SetFaceNormal(once, r, once.normal) == once
    ensures var once := SetFaceNormal(rec, r, outward);
            !once.frontFace ==> SetFaceNormal(once, r, once.normal) == once.(frontFace := true)
  {
    var once := SetFaceNormal(rec, r, outward);
    DotLaws(r.direction, outward);
    DotLinear(outward, outward, r.direction, -1.0);
    assert Dot(r.direction, Neg(outward)) == -Dot(r.direction, outward);
    assert Dot(r.direction, once.normal) < 0.0;
    var twice := SetFaceNormal(once, r, once.normal);
    assert twice.frontFace && twice.normal == once.normal;
    assert twice == once.(frontFace := true);
  }
}

=== FILE: integrator.dfy ===
/** The recursive `ray_color` of the tutorial steps (apps/step_6 to
    apps/step_next_1), the background they share, and the per-pixel sum of
    samples. Steps 7, 9, final and next_1 carry the same integrator word for
    word; step 6 carries the earlier diffuse one. Each bounce takes its random
    input from an explicit sample, one per level of recursion. */
module Integrator {
  import opened Wrappers
  import opened MathLib
  import opened Vectors
  import opened Rays
  import opened Colors
  import opened Textures
  import opened Materials
  import opened Hitables
  import opened Spheres
  import opened HitableLists
  import opened Scatter
  import opened Cameras

  /** `1e-3`: the lower end of every scene query, which skips hits at the
      origin of a bounced ray. */
  const ShadowAcneTMin: real := 0.001

  /** `(1 - t) * Color{1} + t * Color{0.5, 0.7, 1}`: a blend from white at
      `t = 0` to sky blue at `t = 1`. */
  function SkyBlend(t: real): (c: Color)
    ensures 0.0 <= t <= 1.0 ==> InUnitCube(c)
    ensures t == 0.0 ==> c == Splat(1.0)
    ensures t == 1.0 ==> c == Rgb(0.5, 0.7, 1.0)
    ensures c.z == 1.0
  {
    Add(Scale(Splat(1.0), 1.0 - t), Scale(Rgb(0.5, 0.7, 1.0), t))
  }

  /** The background seen along `direction`, which is normalised first: the
      blend at `t = 0.5 (unit.y + 1)`. */
  function Sky(m: Libm, direction: Vector3): (c: Color)
    requires SqrtLaw(m) && direction != Zero()
    ensures InUnitCube(c)
    ensures c.z == 1.0
  {
    NormalizeUnit(m, direction);
    var unit := Normalize(m, direction);
    UnitComponents(unit);
    SkyBlend(0.5 * (unit.y + 1.0))
  }

  /** Looking straight up gives sky blue and straight down gives white,
      whatever the length of the direction. */
  lemma SkyVertical(m: Libm, y: real)
    requires SqrtLaw(m) && y != 0.0
    ensures 0.0 < y ==> Sky(m, Vector3(0.0, y, 0.0)) == Rgb(0.5, 0.7, 1.0)
    ensures y < 0.0 ==> Sky(m, Vector3(0.0, y, 0.0)) == Splat(1.0)
  {
    var d := Vector3(0.0, y, 0.0);
    assert LengthSquared(d) == y * y;
    SqrtUnique(m, y * y, Abs(y));
    assert Length(m, d) == Abs(y);
    var unit := Normalize(m, d);
    if 0.0 < y {
      Quotient(y, y, 1.0);
      assert unit.y == 1.0;
      assert 0.5 * (unit.y + 1.0) == 1.0;
    } else {
      assert Abs(y) == -y;
      Quotient(y, -y, -1.0);
      assert unit.y == -1.0;
      assert 0.5 * (unit.y + 1.0) == 0.0;
    }
  }

  /** `random_in_hemisphere(normal)`, given the point `inUnitSphere` returned
      by `random_in_unit_sphere()`: the point or its mirror image through the
      origin, whichever lies on the side of the normal. A point exactly on the
      tangent plane is mirrored. */
  function RandomInHemisphere(inUnitSphere: Vector3, normal: Vector3): (r: Vector3)
    ensures r == inUnitSphere || r == Neg(inUnitSphere)
    ensures Dot(r, normal) == Abs(Dot(inUnitSphere, normal))
    ensures Dot(inUnitSphere, normal) > 0.0 <==> r == inUnitSphere && inUnitSphere != Zero()
    ensures LengthSquared(r) == LengthSquared(inUnitSphere)
  {
    DotLinear(inUnitSphere, inUnitSphere, normal, -1.0);
    LengthSquaredScale(inUnitSphere, -1.0);
    if Dot(inUnitSphere, normal) > 0.0 then
      NonZeroByDot(inUnitSphere, normal);
      inUnitSphere
    else
      MirrorDiffers(inUnitSphere);
      Neg(inUnitSphere)
  }

  /** A non-zero vector differs from its mirror image. */
  lemma MirrorDiffers(v: Vector3)
    ensures v != Zero() <==> Neg(v) != v
  {
  }

  /** Every sphere of the scene has a non-zero radius. */
  predicate SceneShapes(world: seq<Sphere>) {
    forall i :: 0 <= i < |world| ==> world[i].radius != 0.0
  }

  /** Every sphere of the scene has a non-zero radius and a material that
      can scatter. */
  predicate SceneReady(world: seq<Sphere>) {
    forall i :: 0 <= i < |world| ==>
      world[i].radius != 0.0 && world[i].material.Some? && MaterialReady(world[i].material.value)
  }

  /** A material whose attenuation lies in [0, 1]^3. */
  predicate Attenuates(mat: Material) {
    match mat
    case Lambertian(albedo) => PaletteInUnitCube(albedo)
    case Metal(tint, _) => InUnitCube(tint)
    case Dielectric(_) => true
  }

  /** Every material of the scene attenuates. */
  predicate SceneAttenuates(world: seq<Sphere>) {
    forall i :: 0 <= i < |world| ==> world[i].material.Some? ==> Attenuates(world[i].material.value)
  }

  /** Any ray with a non-zero direction can be queried against the scene. */
  lemma ShapesCanHit(m: Libm, world: seq<Sphere>, r: Ray)
    requires Valid(m) && SceneShapes(world) && r.direction != Zero()
    ensures AllCanHit(m, world, r)
  {
  }

  /** What a hit on the scene carries: a unit normal, and the material of
      the sphere that was hit. */
  lemma SceneHitFacts(m: Libm, world: seq<Sphere>, r: Ray, tMin: real, tMax: Limit)
    requires Valid(m) && SceneShapes(world) && r.direction != Zero()
    ensures AllCanHit(m, world, r)
    ensures var hit := WorldHit(m, world, r, tMin, tMax);
            hit.Some? ==> LengthSquared(hit.value.normal) == 1.0
                          && exists j :: 0 <= j < |world| && hit.value.material == world[j].material
  {
    var hit := WorldHit(m, world, r, tMin, tMax);
    if hit.Some? {
      var j :| 0 <= j < |world| && hit == Hit(m, world[j], r, tMin, tMax);
      HitNormalIsUnit(m, world[j], r, tMin, tMax);
    }
  }

  /** A scatter off an attenuating material attenuates. */
  lemma ScatterAttenuates(m: Libm, mat: Material, rIn: Ray, rec: HitRecord, sample: BounceSample)
    requires CanNormalize(m, rIn.direction) && MaterialReady(mat)
    ensures Attenuates(mat) ==> InUnitCube(ScatterOff(m, mat, rIn, rec, sample).attenuation)
  {
    if mat.Lambertian? && Attenuates(mat) {
      ValueInUnitCube(m, mat.albedo, rec.u, rec.v, rec.p);
    }
  }

  /** The component-wise product of two colours in [0, 1]^3 lies in
      [0, 1]^3. */
  lemma MulInUnitCube(a: Color, b: Color)
    ensures InUnitCube(a) && InUnitCube(b) ==> InUnitCube(Mul(a, b))
  {
    if InUnitCube(a) && InUnitCube(b) {
      UnitProduct(a.x, b.x);
      UnitProduct(a.y, b.y);
      UnitProduct(a.z, b.z);
    }
  }

  lemma UnitProduct(p: real, q: real)
    requires 0.0 <= p <= 1.0 && 0.0 <= q <= 1.0
    ensures 0.0 <= p * q <= 1.0
  {
    UnitFraction(p, q);
  }

  /** `ray_color(r, world, depth)` of steps 7, 9, final and next_1. Below
      depth 1 no light is gathered; otherwise the scene is queried over
      [1e-3, infinity), a miss shows the sky, a hit scatters off the
      material with the sample of this bounce, and an absorbed ray is
      black. When every material attenuates, so does the integrator. */
  function RayColor(m: Libm, r: Ray, world: seq<Sphere>, depth: int, samples: seq<BounceSample>): (c: Color)
    requires Valid(m) && r.direction != Zero() && SceneReady(world)
    requires depth <= |samples|
    ensures depth <= 0 ==> c == Zero()
    ensures SceneAttenuates(world) ==> InUnitCube(c)
    decreases depth
  {
    if depth <= 0 then Zero()
    else
      SceneHitFacts(m, world, r, ShadowAcneTMin, Infinity);
      var hit := WorldHit(m, world, r, ShadowAcneTMin, Infinity);
      if hit.None? then Sky(m, r.direction)
      else
        var rec := hit.value;
        var mat := rec.material.value;
        LengthPositive(m, r.direction);
        var s := ScatterOff(m, mat, r, rec, samples[0]);
        if !s.ok then Zero()
        else
          ScatteredDirectionNonZero(m, mat, r, rec, samples[0]);
          ScatterAttenuates(m, mat, r, rec, samples[0]);
          var bounced := RayColor(m, s.scattered, world, depth - 1, samples[1..]);
          MulInUnitCube(s.attenuation, bounced);
          Mul(s.attenuation, bounced)
  }

  /** No light is gathered once the bounce budget is spent, and an empty
      scene shows the sky to every ray. */
  lemma RayColorEnds(m: Libm, r: Ray, depth: int, samples: seq<BounceSample>)
    requires Valid(m) && r.direction != Zero() && depth <= |samples|
    ensures depth <= 0 ==> RayColor(m, r, [], depth, samples) == Zero()
    ensures 0 < depth ==> RayColor(m, r, [], depth, samples) == Sky(m, r.direction)
  {
    if 0 < depth {
      assert WorldHit(m, [], r, ShadowAcneTMin, Infinity).None?;
    }
  }

  /** A hit that scatters returns the attenuation times the colour of the
      scattered ray one level down; a hit that is absorbed returns black;
      a miss returns the sky. */
  lemma RayColorStep(m: Libm, r: Ray, world: seq<Sphere>, depth: int, samples: seq<BounceSample>)
    requires Valid(m) && r.direction != Zero() && SceneReady(world)
    requires 0 < depth <= |samples|
    ensures AllCanHit(m, world, r)
    ensures var hit := WorldHit(m, world, r, ShadowAcneTMin, Infinity);
            hit.None? ==> RayColor(m, r, world, depth, samples) == Sky(m, r.direction)
    ensures var hit := WorldHit(m, world, r, ShadowAcneTMin, Infinity);
            hit.Some? ==>
              && hit.value.material.Some?
              && CanNormalize(m, r.direction)
              && MaterialReady(hit.value.material.value)
              && var s := ScatterOff(m, hit.value.material.value, r, hit.value, samples[0]);
                 && (!s.ok ==> RayColor(m, r, world, depth, samples) == Zero())
                 && (s.ok ==> s.scattered.direction != Zero()
                              && RayColor(m, r, world, depth, samples)
                                 == Mul(s.attenuation, RayColor(m, s.scattered, world, depth - 1, samples[1..])))
  {
    SceneHitFacts(m, world, r, ShadowAcneTMin, Infinity);
    LengthPositive(m, r.direction);
    var hit := WorldHit(m, world, r, ShadowAcneTMin, Infinity);
    if hit.Some? {
      ScatteredDirectionNonZero(m, hit.value.material.value, r, hit.value, samples[0]);
    }
  }

  /** The integrator reads only the first `depth` samples, one per bounce:
      two sample streams that agree on those give the same colour. */
  lemma {:induction false} RayColorUsesDepthSamples(m: Libm, r: Ray, world: seq<Sphere>, depth: nat,
                                                    a: seq<BounceSample>, b: seq<BounceSample>)
    requires Valid(m) && r.direction != Zero() && SceneReady(world)
    requires depth <= |a| && depth <= |b| && a[..depth] == b[..depth]
    ensures RayColor(m, r, world, depth, a) == RayColor(m, r, world, depth, b)
    decreases depth
  {
    if 0 < depth {
      assert a[0] == a[..depth][0] == b[0];
      SceneHitFacts(m, world, r, ShadowAcneTMin, Infinity);
      LengthPositive(m, r.direction);
      var hit := WorldHit(m, world, r, ShadowAcneTMin, Infinity);
      if hit.Some? {
        var s := ScatterOff(m, hit.value.material.value, r, hit.value, a[0]);
        if s.ok {
          ScatteredDirectionNonZero(m, hit.value.material.value, r, hit.value, a[0]);
          assert a[1..][..depth - 1] == a[..depth][1..] == b[..depth][1..] == b[1..][..depth - 1];
          RayColorUsesDepthSamples(m, s.scattered, world, depth - 1, a[1..], b[1..]);
        }
      }
    }
  }

  /** `ray_color(r, world, depth)` of step 6: a hit bounces towards
      `rec.p + random_in_hemisphere(rec.normal)` and keeps half the light.
      The hemisphere samples are the points `random_in_unit_sphere()`
      returns, one per bounce; a zero point would give the bounced ray a zero
      direction, which the sphere test divides by. Whatever the scene, the
      colour lies in [0, 1]^3. */
  function DiffuseRayColor(m: Libm, r: Ray, world: seq<Sphere>, depth: int, samples: seq<Vector3>): (c: Color)
    requires Valid(m) && r.direction != Zero() && SceneShapes(world)
    requires depth <= |samples| && forall k :: 0 <= k < |samples| ==> samples[k] != Zero()
    ensures depth <= 0 ==> c == Zero()
    ensures InUnitCube(c)
    decreases depth
  {
    if depth <= 0 then Zero()
    else
      ShapesCanHit(m, world, r);
      var hit := WorldHit(m, world, r, ShadowAcneTMin, Infinity);
      if hit.None? then Sky(m, r.direction)
      else
        var rec := hit.value;
        var target := Add(rec.p, RandomInHemisphere(samples[0], rec.normal));
        var direction := Sub(target, rec.p);
        AddBack(rec.p, RandomInHemisphere(samples[0], rec.normal));
        MirrorDiffers(samples[0]);
        var bounced := DiffuseRayColor(m, Ray(rec.p, direction), world, depth - 1, samples[1..]);
        HalfInUnitCube(bounced);
        Scale(bounced, 0.5)
  }

  /** `(p + v) - p` is `v`. */
  lemma AddBack(p: Vector3, v: Vector3)
    ensures Sub(Add(p, v), p) == v
  {
  }

  lemma HalfInUnitCube(c: Color)
    requires InUnitCube(c)
    ensures InUnitCube(Scale(c, 0.5))
  {
  }

  /** Each diffuse bounce halves the light: after a hit, the colour is half
      the colour along the hemisphere sample; after a miss it is the sky. */
  lemma DiffuseBounceHalves(m: Libm, r: Ray, world: seq<Sphere>, depth: int, samples: seq<Vector3>)
    requires Valid(m) && r.direction != Zero() && SceneShapes(world)
    requires 0 < depth <= |samples| && forall k :: 0 <= k < |samples| ==> samples[k] != Zero()
    ensures AllCanHit(m, world, r)
    ensures var hit := WorldHit(m, world, r, ShadowAcneTMin, Infinity);
            hit.None? ==> DiffuseRayColor(m, r, world, depth, samples) == Sky(m, r.direction)
    ensures var hit := WorldHit(m, world, r, ShadowAcneTMin, Infinity);
            hit.Some? ==>
              var d := RandomInHemisphere(samples[0], hit.value.normal);
              && d != Zero()
              && Dot(d, hit.value.normal) >= 0.0
              && DiffuseRayColor(m, r, world, depth, samples)
                 == Scale(DiffuseRayColor(m, Ray(hit.value.p, d), world, depth - 1, samples[1..]), 0.5)
  {
    ShapesCanHit(m, world, r);
    var hit := WorldHit(m, world, r, ShadowAcneTMin, Infinity);
    if hit.Some? {
      var d := RandomInHemisphere(samples[0], hit.value.normal);
      AddBack(hit.value.p, d);
      MirrorDiffers(samples[0]);
    }
  }

  /** `(index + jitter) / (extent - 1)`: the viewport coordinate of a sample
      in column (or row) `index` of an image `extent` pixels wide (or
      high). Scaled back by `extent - 1` it is the jittered pixel position. */
  function ViewportCoordinate(index: int, jitter: real, extent: int): (u: real)
    requires extent != 1
    ensures u * (extent - 1) as real == index as real + jitter
  {
    (index as real + jitter) / (extent - 1) as real
  }

  /** With jitter in [0, 1), the samples of every column but the last land in
      [0, 1); the samples of the last column start at 1 and, jittered, fall
      beyond the edge of the viewport. */
  lemma ViewportCoordinateRange(index: int, jitter: real, extent: int)
    requires 1 < extent && 0 <= index < extent && 0.0 <= jitter < 1.0
    ensures 0.0 <= ViewportCoordinate(index, jitter, extent)
    ensures index < extent - 1 ==> ViewportCoordinate(index, jitter, extent) < 1.0
    ensures index == extent - 1 ==> 1.0 <= ViewportCoordinate(index, jitter, extent)
    ensures index == extent - 1 && 0.0 < jitter ==> 1.0 < ViewportCoordinate(index, jitter, extent)
  {
    var d := (extent - 1) as real;
    var u := ViewportCoordinate(index, jitter, extent);
    ScaledBounds(u, d, index as real + jitter);
  }

  /** The random input of one sample of a pixel: the two draws added to the
      column and row, the point `random_in_unit_disk()` returns for the
      lens, and the samples of the bounces. */
  datatype PixelSample = PixelSample(du: real, dv: real, disk: Vector3, bounces: seq<BounceSample>)

  /** The image has at least two columns and two rows. */
  predicate ImageReady(width: int, height: int) {
    1 < width && 1 < height
  }

  /** `cam.get_ray(u, v)` for one sample of pixel (i, j). */
  function SampleRay(cam: Camera, i: int, j: int, width: int, height: int, s: PixelSample): (r: Ray)
    requires cam.lensRadius.Some? && ImageReady(width, height)
    ensures Add(r.origin, r.direction)
         == ViewportPoint(cam, ViewportCoordinate(i, s.du, width), ViewportCoordinate(j, s.dv, height))
  {
    GetRay(cam, ViewportCoordinate(i, s.du, width), ViewportCoordinate(j, s.dv, height), s.disk)
  }

  /** Each sample can be traced: its ray has a direction and it carries a
      bounce sample for every level of recursion. */
  predicate SamplesReady(cam: Camera, i: int, j: int, width: int, height: int,
                         samples: seq<PixelSample>, maxDepth: int)
  {
    cam.lensRadius.Some? && ImageReady(width, height)
    && forall k :: 0 <= k < |samples| ==>
         maxDepth <= |samples[k].bounces| && SampleRay(cam, i, j, width, height, samples[k]).direction != Zero()
  }

  /** Each channel lies in [0, n]. */
  predicate ChannelsWithin(c: Color, n: real) {
    0.0 <= c.x <= n && 0.0 <= c.y <= n && 0.0 <= c.z <= n
  }

  /** The sum over the samples of the colour each one sees: what the
      accumulation loop of a pixel computes. When every material
      attenuates, each channel of the sum lies between 0 and the number of
      samples, so the average `write_color` takes lies in [0, 1]. */
  function PixelSum(m: Libm, cam: Camera, world: seq<Sphere>, i: int, j: int, width: int, height: int,
                    samples: seq<PixelSample>, maxDepth: int): (c: Color)
    requires Valid(m) && SceneReady(world) && SamplesReady(cam, i, j, width, height, samples, maxDepth)
    ensures SceneAttenuates(world) ==> ChannelsWithin(c, |samples| as real)
    decreases |samples|
  {
    if |samples| == 0 then Zero()
    else
      var last := samples[|samples| - 1];
      Add(PixelSum(m, cam, world, i, j, width, height, samples[..|samples| - 1], maxDepth),
          RayColor(m, SampleRay(cam, i, j, width, height, last), world, maxDepth, last.bounces))
  }

  /** The loop of one pixel: starts from black and adds
      `ray_color(cam.get_ray(u, v), world, max_depth)` for each sample. */
  method RenderPixel(m: Libm, cam: Camera, world: seq<Sphere>, i: int, j: int, width: int, height: int,
                     samples: seq<PixelSample>, maxDepth: int)
    returns (pixel: Color)
    requires Valid(m) && SceneReady(world) && SamplesReady(cam, i, j, width, height, samples, maxDepth)
    ensures pixel == PixelSum(m, cam, world, i, j, width, height, samples, maxDepth)
    ensures SceneAttenuates(world) ==> ChannelsWithin(pixel, |samples| as real)
  {
    pixel := Zero();
    var s := 0;
    while s < |samples|
      invariant 0 <= s <= |samples|
      invariant pixel == PixelSum(m, cam, world, i, j, width, height, samples[..s], maxDepth)
    {
      var r := SampleRay(cam, i, j, width, height, samples[s]);
      pixel := Add(pixel, RayColor(m, r, world, maxDepth, samples[s].bounces));
      assert samples[..s + 1][..s] == samples[..s];
      s := s + 1;
    }
    assert samples[..s] == samples;
  }

  /** Every ray of a pinhole fixed camera has a direction: it always points
      one unit down `-z`. */
  lemma PinholeSampleRays(aspect: real, i: int, j: int, width: int, height: int, s: PixelSample)
    requires ImageReady(width, height)
    ensures SampleRay(PinholeCamera(aspect), i, j, width, height, s).direction.z == -1.0
    ensures SampleRay(PinholeCamera(aspect), i, j, width, height, s).direction != Zero()
  {
    PinholeRays(aspect, ViewportCoordinate(i, s.du, width), ViewportCoordinate(j, s.dv, height), s.disk);
  }
}

=== FILE: materials.dfy ===
/** The materials of include/raytracing/material.h as a closed datatype, and
    their constructors. The scatter rules live in the `Scatter` module. */
module Materials {
  import opened MathLib
  import opened Colors
  import opened Textures

  datatype Material =
    | Lambertian(albedo: Texture)
    | Metal(tint: Color, fuzz: real)
    | Dielectric(ir: real)

  /** `Lambertian(const Color &)`: wraps the colour in a `SolidColor`. */
  function LambertianOf(albedo: Color): (mat: Material)
    ensures mat.Lambertian? && mat.albedo == SolidColor(albedo)
  {
    Lambertian(SolidColor(albedo))
  }

  /** `Metal(albedo, fuzz)`: keeps the albedo and stores `fuzz < 1 ? fuzz : 1`,
      so the fuzz is bounded above by 1 but not below. */
  function MakeMetal(albedo: Color, fuzz: real): (mat: Material)
    ensures mat.Metal? && mat.tint == albedo
    ensures mat.fuzz <= 1.0
    ensures fuzz < 1.0 ==> mat.fuzz == fuzz
  {
    Metal(albedo, if fuzz < 1.0 then fuzz else 1.0)
  }

  /** The stored fuzz is `fmin(fuzz, 1)`; building a metal from a stored fuzz
      stores it again unchanged. A fuzz of 1.5 becomes 1, while -0.5 passes
      through. */
  lemma MetalFuzzClamp(albedo: Color, fuzz: real)
    ensures MakeMetal(albedo, fuzz).fuzz == Min(fuzz, 1.0)
    ensures MakeMetal(albedo, MakeMetal(albedo, fuzz).fuzz) == MakeMetal(albedo, fuzz)
    ensures MakeMetal(albedo, 1.5).fuzz == 1.0
    ensures MakeMetal(albedo, -0.5).fuzz == -0.5
  {
  }
}

=== FILE: mathlib.dfy ===
/** The parts of <cmath> the renderer uses.

    `fabs` and `fmin` are exact and are defined here. The transcendental
    functions are not computed: a `Libm` value stands for one implementation of
    them and is passed to every operation that calls one. The only facts the
    model relies on are the laws stated below, and each operation or lemma asks
    for exactly the laws it needs. */
module MathLib {

  datatype Libm = Libm(
    sqrt: real -> real,
    pow: (real, real) -> real,
    sin: real -> real,
    tan: real -> real,
    acos: real -> real,
    atan2: (real, real) -> real)

  /** `fabs` */
  function Abs(x: real): (r: real)
    ensures 0.0 <= r
    ensures r == x || r == -x
  {
    if x < 0.0 then -x else x
  }

  /** `fmin`, for arguments that are not NaN */
  function Min(a: real, b: real): (r: real)
    ensures r <= a && r <= b
    ensures r == a || r == b
  {
    if a <= b then a else b
  }

  /** The constant `pi`, which the source defines as `acos(-1.0)`. */
  function Pi(m: Libm): real {
    m.acos(-1.0)
  }

  /** The law of the square root over the reals: for a non-negative argument it
      returns the non-negative number whose square is the argument. */
  ghost predicate SqrtLaw(m: Libm) {
    forall x: real :: 0.0 <= x ==> 0.0 <= m.sqrt(x) && m.sqrt(x) * m.sqrt(x) == x
  }

  /** The laws every rendering operation relies on: the square-root law and a
      positive `pi` (it is a divisor in the sphere's surface coordinates). */
  ghost predicate Valid(m: Libm) {
    SqrtLaw(m) && Pi(m) > 0.0
  }

  /** The square root is determined by its law: a non-negative `y` whose square
      is `x` is `sqrt(x)`. */
  lemma SqrtUnique(m: Libm, x: real, y: real)
    requires SqrtLaw(m)
    requires 0.0 <= y && y * y == x
    ensures m.sqrt(x) == y
  {
    var s := m.sqrt(x);
    assert 0.0 <= s && s * s == x;
    assert (s - y) * (s + y) == 0.0;
    ProductZero(s - y, s + y);
  }

  lemma ProductZero(a: real, b: real)
    ensures a * b == 0.0 <==> a == 0.0 || b == 0.0
  {
    if a != 0.0 && b != 0.0 {
      SquarePositive(a);
      assert a * b * a == a * a * b;
      if b > 0.0 {
        assert a * a * b > 0.0;
      } else {
        assert a * a * (-b) > 0.0;
      }
    }
  }

  /** A non-zero square is positive. */
  lemma SquarePositive(a: real)
    ensures a != 0.0 ==> a * a > 0.0
    ensures 0.0 <= a * a
  {
    if a > 0.0 {
      assert a * a > 0.0;
    } else if a < 0.0 {
      assert (-a) * (-a) > 0.0;
    }
  }

  /** A sum of three squares is non-negative, and positive unless all three
      numbers are zero. */
  lemma SumOfSquares(a: real, b: real, c: real)
    ensures 0.0 <= a * a + b * b + c * c
    ensures a != 0.0 || b != 0.0 || c != 0.0 ==> 0.0 < a * a + b * b + c * c
  {
    SquarePositive(a);
    SquarePositive(b);
    SquarePositive(c);
  }

  /** A fraction `u` in [0, 1) of `d` lies between 0, which it can reach,
      and `d`, which it cannot. */
  lemma FractionOf(d: real, u: real)
    requires 0.0 <= u < 1.0
    ensures 0.0 < d ==> 0.0 <= d * u < d
    ensures d < 0.0 ==> d < d * u <= 0.0
    ensures d == 0.0 ==> d * u == 0.0
  {
    if 0.0 < d {
      assert d * u < d * 1.0;
    } else if d < 0.0 {
      assert (-d) * u < (-d) * 1.0;
    }
  }

  /** A number whose square is at most 1 lies in [-1, 1]. */
  lemma SquareBound(a: real)
    ensures a * a <= 1.0 ==> -1.0 <= a <= 1.0
  {
    if a > 1.0 {
      assert a * a > a;
    } else if a < -1.0 {
      assert a * a > -a;
    }
  }

  /** A product that equals its non-zero second factor has first factor 1. */
  lemma CancelFactor(a: real, k: real)
    requires k != 0.0 && a * k == k
    ensures a == 1.0
  {
    assert (a - 1.0) * k == 0.0;
    ProductZero(a - 1.0, k);
  }

  /** A product with a positive factor has the sign of the other factor. */
  lemma SignOfProduct(a: real, b: real)
    requires 0.0 < a
    ensures a * b < 0.0 <==> b < 0.0
    ensures a * b > 0.0 <==> b > 0.0
  {
    if b < 0.0 {
      assert a * (-b) > 0.0;
    } else if b > 0.0 {
      assert a * b > 0.0;
    }
  }

  /** Multiplying by a positive `d` keeps the order of `u` against 0 and 1,
      which `a = u d` keeps against 0 and `d`. */
  lemma ScaledBounds(u: real, d: real, a: real)
    requires 0.0 < d && u * d == a
    ensures 0.0 <= a <==> 0.0 <= u
    ensures a < d <==> u < 1.0
    ensures d < a <==> 1.0 < u
  {
    SignOfProduct(d, u);
    assert d * (u - 1.0) == a - d;
    SignOfProduct(d, u - 1.0);
  }

  /** A product with a factor equal to 1 is the other factor. */
  lemma OneTimes(a: real, one: real)
    requires one == 1.0
    ensures a * one == a
  {
  }

  /** A number in [-1, 1] has a square at most 1. */
  lemma UnitSquare(a: real)
    requires -1.0 <= a <= 1.0
    ensures a * a <= 1.0
  {
    if 0.0 <= a {
      assert a * a <= a * 1.0;
    } else {
      assert (-a) * (-a) <= (-a) * 1.0;
    }
  }

  /** A fraction `p` in [0, 1] of a non-negative `a` lies in [0, a]. */
  lemma UnitFraction(a: real, p: real)
    requires 0.0 <= a && 0.0 <= p <= 1.0
    ensures 0.0 <= a * p <= a
  {
    assert a * p <= a * 1.0;
  }

  /** A quotient is the number that multiplies the divisor back to the
      dividend. */
  lemma Quotient(a: real, b: real, q: real)
    requires b != 0.0 && q * b == a
    ensures a / b == q
  {
    assert (a / b) * b == a;
    assert (a / b - q) * b == 0.0;
    ProductZero(a / b - q, b);
  }

  lemma SqrtOfOne(m: Libm)
    requires SqrtLaw(m)
    ensures m.sqrt(1.0) == 1.0
  {
    SqrtUnique(m, 1.0, 1.0);
  }

  /** A positive argument has a positive square root. */
  lemma SqrtPositive(m: Libm, x: real)
    requires SqrtLaw(m)
    requires 0.0 < x
    ensures 0.0 < m.sqrt(x)
  {
    assert 0.0 <= m.sqrt(x) && m.sqrt(x) * m.sqrt(x) == x;
  }
}

=== FILE: quadratics.dfy ===
/** The half-b form of the quadratic `a t^2 + 2 half_b t + c = 0` that
    `Sphere::hit` (include/raytracing/sphere.h) and the third tutorial step
    solve, with `a > 0`. */
module Quadratics {
  import opened MathLib

  datatype Quadratic = Quadratic(a: real, halfB: real, c: real)

  /** `half_b * half_b - a * c`, a quarter of the usual `b^2 - 4ac`. */
  function Discriminant(q: Quadratic): real {
    q.halfB * q.halfB - q.a * q.c
  }

  function Eval(q: Quadratic, t: real): real {
    q.a * t * t + 2.0 * q.halfB * t + q.c
  }

  /** `(-half_b - sqrtd) / a`, the root tried first */
  function NearRoot(m: Libm, q: Quadratic): real
    requires q.a != 0.0
  {
    (-q.halfB - m.sqrt(Discriminant(q))) / q.a
  }

  /** `(-half_b + sqrtd) / a`, the root tried second */
  function FarRoot(m: Libm, q: Quadratic): real
    requires q.a != 0.0
  {
    (-q.halfB + m.sqrt(Discriminant(q))) / q.a
  }

  /** Over plain numbers: with `a > 0`, `d = hb^2 - a c` and `s` the
      non-negative square root of `d`, the solutions of `a t^2 + 2 hb t + c`
      are exactly `(-hb - s)/a <= (-hb + s)/a`. */
  lemma RootsOf(a: real, hb: real, c: real, s: real, t: real)
    requires 0.0 < a && 0.0 <= s && s * s == hb * hb - a * c
    ensures (-hb - s) / a <= (-hb + s) / a
    ensures a * t * t + 2.0 * hb * t + c == 0.0 <==> t == (-hb - s) / a || t == (-hb + s) / a
  {
    var lo := (-hb - s) / a;
    var hi := (-hb + s) / a;
    assert lo * a == -hb - s;
    assert hi * a == -hb + s;
    assert lo * a <= hi * a;
    var e := a * t * t + 2.0 * hb * t + c;
    var k := a * t + hb;
    assert a * e == (k - s) * (k + s);
    ProductZero(a, e);
    ProductZero(k - s, k + s);
    if e == 0.0 {
      assert k == s || k == -s;
      if k == s {
        assert t * a == hi * a;
      } else {
        assert t * a == lo * a;
      }
    } else {
      assert k != s && k != -s;
      assert t * a != lo * a && t * a != hi * a;
    }
  }

  /** With a negative discriminant no number solves the equation. */
  lemma NoRoots(a: real, hb: real, c: real, t: real)
    requires 0.0 < a && hb * hb - a * c < 0.0
    ensures a * t * t + 2.0 * hb * t + c != 0.0
  {
    var k := a * t + hb;
    assert a * (a * t * t + 2.0 * hb * t + c) == k * k - (hb * hb - a * c);
    SquarePositive(k);
    ProductZero(a, a * t * t + 2.0 * hb * t + c);
  }

  /** The two roots solve the equation, the near one is not beyond the far
      one, and nothing else solves it. */
  lemma RootsSolve(m: Libm, q: Quadratic, t: real)
    requires SqrtLaw(m)
    requires 0.0 < q.a && 0.0 <= Discriminant(q)
    ensures NearRoot(m, q) <= FarRoot(m, q)
    ensures Eval(q, t) == 0.0 <==> t == NearRoot(m, q) || t == FarRoot(m, q)
  {
    RootsOf(q.a, q.halfB, q.c, m.sqrt(Discriminant(q)), t);
  }

  /** With a negative discriminant `Eval` never vanishes. */
  lemma NoRootsSolve(q: Quadratic, t: real)
    requires 0.0 < q.a && Discriminant(q) < 0.0
    ensures Eval(q, t) != 0.0
  {
    NoRoots(q.a, q.halfB, q.c, t);
  }
}

=== FILE: rays.dfy ===
/** `Ray` (include/raytracing/ray.h): an origin, a direction and the point
    reached after travelling a parameter `t` along the direction. */
module Rays {
  import opened Vectors

  datatype Ray = Ray(origin: Point3, direction: Vector3)

  /** `Ray()`: both members are default-constructed vectors. */
  function DefaultRay(): (r: Ray)
    ensures r.origin == Zero() && r.direction == Zero()
  {
    Ray(Zero(), Zero())
  }

  /** `at(t)`, which the source writes as `origin + t * direction`: the
      point reached from the origin by `t` times the direction. */
  function At(r: Ray, t: real): (p: Point3)
    ensures Sub(p, r.origin) == Scale(r.direction, t)
    ensures t == 0.0 ==> p == r.origin
  {
    Add(r.origin, Scale(r.direction, t))
  }

  /** The ray starts at its origin, moves by `t` times its direction, and
      travelling `t1` then `t2` is travelling `t1 + t2`. */
  lemma AtLaws(r: Ray, t: real, t1: real, t2: real)
    ensures At(r, 0.0) == r.origin
    ensures Sub(At(r, t), r.origin) == Scale(r.direction, t)
    ensures At(r, t1 + t2) == Add(At(r, t1), Scale(r.direction, t2))
    ensures At(Ray(At(r, t1), r.direction), t2) == At(r, t1 + t2)
  {
  }

  /** The squared distance from a point `c` to `at(t)` is a quadratic in `t`
      whose coefficients are the ones `Sphere::hit` computes. */
  lemma DistanceQuadratic(r: Ray, c: Point3, t: real)
    ensures LengthSquared(Sub(At(r, t), c))
            == LengthSquared(r.direction) * t * t
               + 2.0 * Dot(Sub(r.origin, c), r.direction) * t
               + LengthSquared(Sub(r.origin, c))
  {
    var oc := Sub(r.origin, c);
    var d := r.direction;
    assert Sub(At(r, t), c) == Add(oc, Scale(d, t));
    LengthSquaredAdd(oc, Scale(d, t));
    LengthSquaredScale(d, t);
    DotLinear(d, oc, oc, t);
    assert Dot(oc, Scale(d, t)) == t * Dot(oc, d);
    DotLaws(oc, d);
  }
}

=== FILE: sampling.dfy ===
/** The random vectors of `src/vector3.cpp`: `random_Vector3` and the two
    rejection loops `random_in_unit_sphere` and `random_in_unit_disk`, plus
    `norm_random_in_unit_sphere`.

    A loop that calls `rand()` until it is satisfied is modelled as a method
    over a finite stream of draws. It consumes the stream three draws (two for
    the disk) per candidate and stops at the first candidate it accepts. When
    the stream runs out first it returns `None`: the source would keep drawing,
    so `None` only says that this finite prefix was not enough. */
module Sampling {
  import opened Wrappers
  import opened MathLib
  import opened Utils
  import opened Vectors

  predicate AllDraws(draws: seq<int>) {
    forall i :: 0 <= i < |draws| ==> IsDraw(draws[i])
  }

  /** `random_Vector3()`: three unit draws. */
  function RandomVector(d0: int, d1: int, d2: int): (r: Vector3)
    requires IsDraw(d0) && IsDraw(d1) && IsDraw(d2)
    ensures 0.0 <= r.x < 1.0 && 0.0 <= r.y < 1.0 && 0.0 <= r.z < 1.0
  {
    Vector3(RandomUnit(d0), RandomUnit(d1), RandomUnit(d2))
  }

  /** `random_Vector3(min, max)`: three draws in [min, max). */
  function RandomVectorIn(lo: real, hi: real, d0: int, d1: int, d2: int): (r: Vector3)
    requires IsDraw(d0) && IsDraw(d1) && IsDraw(d2)
    ensures lo < hi ==> lo <= r.x < hi && lo <= r.y < hi && lo <= r.z < hi
  {
    Vector3(RandomIn(lo, hi, d0), RandomIn(lo, hi, d1), RandomIn(lo, hi, d2))
  }

  /** The acceptance test of both rejection loops, which retry while
      `length_squared() >= 1`. */
  predicate InsideUnitBall(v: Vector3) {
    LengthSquared(v) < 1.0
  }

  /** The `k`-th candidate of `random_in_unit_sphere`, built from draws
      3k, 3k+1 and 3k+2. */
  function SphereCandidate(draws: seq<int>, k: nat): (r: Vector3)
    requires AllDraws(draws) && 3 * k + 2 < |draws|
    ensures -1.0 <= r.x < 1.0 && -1.0 <= r.y < 1.0 && -1.0 <= r.z < 1.0
  {
    RandomVectorIn(-1.0, 1.0, draws[3 * k], draws[3 * k + 1], draws[3 * k + 2])
  }

  /** The `k`-th candidate of `random_in_unit_disk`, built from draws 2k and
      2k+1, with a zero third component. */
  function DiskCandidate(draws: seq<int>, k: nat): (r: Vector3)
    requires AllDraws(draws) && 2 * k + 1 < |draws|
    ensures -1.0 <= r.x < 1.0 && -1.0 <= r.y < 1.0 && r.z == 0.0
  {
    Vector3(RandomIn(-1.0, 1.0, draws[2 * k]), RandomIn(-1.0, 1.0, draws[2 * k + 1]), 0.0)
  }

  /** `random_in_unit_sphere`: the first candidate strictly inside the unit
      ball, and the number of draws consumed up to and including it. */
  method RandomInUnitSphere(draws: seq<int>) returns (r: Option<Vector3>, used: nat)
    requires AllDraws(draws)
    ensures used <= |draws| && used % 3 == 0
    ensures r.Some? ==> 0 < used
                        && r.value == SphereCandidate(draws, used / 3 - 1)
                        && InsideUnitBall(r.value)
    ensures r.Some? ==> forall k :: 0 <= k < used / 3 - 1 ==> !InsideUnitBall(SphereCandidate(draws, k))
    ensures r.None? <==> forall k :: 0 <= k < |draws| / 3 ==> !InsideUnitBall(SphereCandidate(draws, k))
  {
    var k := 0;
    while 3 * k + 2 < |draws|
      invariant 0 <= k <= |draws| / 3
      invariant forall j :: 0 <= j < k ==> !InsideUnitBall(SphereCandidate(draws, j))
    {
      var candidate := SphereCandidate(draws, k);
      if LengthSquared(candidate) < 1.0 {
        return Some(candidate), 3 * k + 3;
      }
      k := k + 1;
    }
    return None, 3 * k;
  }

  /** `random_in_unit_disk`: the first candidate strictly inside the unit
      disk of the z = 0 plane. */
  method RandomInUnitDisk(draws: seq<int>) returns (r: Option<Vector3>, used: nat)
    requires AllDraws(draws)
    ensures used <= |draws| && used % 2 == 0
    ensures r.Some? ==> 0 < used
                        && r.value == DiskCandidate(draws, used / 2 - 1)
                        && InsideUnitBall(r.value) && r.value.z == 0.0
    ensures r.Some? ==> forall k :: 0 <= k < used / 2 - 1 ==> !InsideUnitBall(DiskCandidate(draws, k))
    ensures r.None? <==> forall k :: 0 <= k < |draws| / 2 ==> !InsideUnitBall(DiskCandidate(draws, k))
  {
    var k := 0;
    while 2 * k + 1 < |draws|
      invariant 0 <= k <= |draws| / 2
      invariant forall j :: 0 <= j < k ==> !InsideUnitBall(DiskCandidate(draws, j))
    {
      var candidate := DiskCandidate(draws, k);
      if LengthSquared(candidate) < 1.0 {
        return Some(candidate), 2 * k + 2;
      }
      k := k + 1;
    }
    return None, 2 * k;
  }

  /** `norm_random_in_unit_sphere`: the accepted candidate normalised. The
      source divides by the candidate's length, so the precondition excludes
      a zero candidate being the first one accepted; candidates after it are
      never read. */
  method NormRandomInUnitSphere(m: Libm, draws: seq<int>) returns (r: Option<Vector3>, used: nat)
    requires SqrtLaw(m)
    requires AllDraws(draws)
    requires forall k :: 0 <= k < |draws| / 3 && InsideUnitBall(SphereCandidate(draws, k))
                         && (forall j :: 0 <= j < k ==> !InsideUnitBall(SphereCandidate(draws, j)))
                         ==> SphereCandidate(draws, k) != Zero()
    ensures used <= |draws| && used % 3 == 0
    ensures r.Some? ==> 0 < used && LengthSquared(r.value) == 1.0
    ensures r.Some? ==> var c := SphereCandidate(draws, used / 3 - 1);
                        InsideUnitBall(c) && Scale(r.value, Length(m, c)) == c
    ensures r.Some? ==> forall k :: 0 <= k < used / 3 - 1 ==> !InsideUnitBall(SphereCandidate(draws, k))
    ensures r.None? <==> forall k :: 0 <= k < |draws| / 3 ==> !InsideUnitBall(SphereCandidate(draws, k))
  {
    var s;
    s, used := RandomInUnitSphere(draws);
    if s.None? {
      return None, used;
    }
    var c := s.value;
    assert c == SphereCandidate(draws, used / 3 - 1);
    NormalizeUnit(m, c);
    ScaleDivRoundTrip(c, Length(m, c));
    r := Some(Normalize(m, c));
  }

  /** The middle draw 2^30 maps to 0 in [-1, 1), so the zero vector is a
      candidate that `random_in_unit_sphere` accepts. */
  lemma ZeroCandidate()
    ensures RandomIn(-1.0, 1.0, 1073741824) == 0.0
    ensures SphereCandidate([1073741824, 1073741824, 1073741824], 0) == Zero()
    ensures InsideUnitBall(Zero())
  {
  }
}

=== FILE: scatter.dfy ===
/** The scatter rules of src/material.cpp: `reflect`, `refract`, Schlick's
    `reflectance`, and `scatter` of `Lambertian`, `Metal` and `Dielectric`.

    The random vectors and the random number a scatter draws are passed in as
    a `BounceSample`. */
module Scatter {
  import opened MathLib
  import opened Vectors
  import opened Rays
  import opened Colors
  import opened Textures
  import opened Materials
  import opened Hitables

  /** `reflect(v, n)`: `v - 2 (v . n) n`. The reflection differs from `v`
      only along `n`, so a vector along the surface is unchanged, and about a
      unit normal it flips the sign of the normal component. */
  function Reflect(v: Vector3, n: Vector3): (r: Vector3)
    ensures Sub(v, r) == Scale(n, 2.0 * Dot(v, n))
    ensures Dot(v, n) == 0.0 ==> r == v
    ensures LengthSquared(n) == 1.0 ==> Dot(r, n) == -Dot(v, n)
  {
    var k := 2.0 * Dot(v, n);
    DotLinear(v, Scale(n, k), n, k);
    DotLinear(n, n, n, k);
    DotLaws(n, n);
    if LengthSquared(n) == 1.0 then
      OneTimes(k, LengthSquared(n));
      Sub(v, Scale(n, k))
    else
      Sub(v, Scale(n, k))
  }

  /** About a unit normal, reflection negates the normal component, keeps the
      length, and undoes itself. A vector along the surface is unchanged. */
  lemma ReflectLaws(v: Vector3, n: Vector3)
    ensures Dot(v, n) == 0.0 ==> Reflect(v, n) == v
    ensures LengthSquared(n) == 1.0 ==> Dot(Reflect(v, n), n) == -Dot(v, n)
    ensures LengthSquared(n) == 1.0 ==> LengthSquared(Reflect(v, n)) == LengthSquared(v)
    ensures LengthSquared(n) == 1.0 ==> Reflect(Reflect(v, n), n) == v
  {
    if LengthSquared(n) == 1.0 {
      ReflectNormalComponent(v, n);
      ReflectLength(v, n);
      ReflectInvolution(v, n);
    }
  }

  lemma ReflectNormalComponent(v: Vector3, n: Vector3)
    requires LengthSquared(n) == 1.0
    ensures Dot(Reflect(v, n), n) == -Dot(v, n)
  {
    var d := Dot(v, n);
    var k := 2.0 * d;
    DotLinear(v, Scale(n, k), n, k);
    DotLinear(n, n, n, k);
    DotLaws(n, n);
    var nn := LengthSquared(n);
    assert Dot(Reflect(v, n), n) == d - k * nn;
    OneTimes(k, nn);
  }

  lemma ReflectLength(v: Vector3, n: Vector3)
    requires LengthSquared(n) == 1.0
    ensures LengthSquared(Reflect(v, n)) == LengthSquared(v)
  {
    var d := Dot(v, n);
    var k := 2.0 * d;
    SubAsAddScaled(v, n, k);
    AddScaledLength(v, n, -k);
    ReflectLengthArith(LengthSquared(v), d, k, LengthSquared(n));
  }

  /** Subtracting `k n` is adding `(-k) n`. */
  lemma SubAsAddScaled(v: Vector3, n: Vector3, k: real)
    ensures Sub(v, Scale(n, k)) == Add(v, Scale(n, -k))
  {
    assert n.x * -k == -(n.x * k);
    assert n.y * -k == -(n.y * k);
    assert n.z * -k == -(n.z * k);
  }

  /** The squared length of `v + t n`. */
  lemma AddScaledLength(v: Vector3, n: Vector3, t: real)
    ensures LengthSquared(Add(v, Scale(n, t)))
         == LengthSquared(v) + 2.0 * (t * Dot(v, n)) + t * t * LengthSquared(n)
  {
    LengthSquaredAdd(v, Scale(n, t));
    DotLinear(n, n, v, t);
    LengthSquaredScale(n, t);
  }

  lemma ReflectLengthArith(l: real, d: real, k: real, nn: real)
    requires k == 2.0 * d && nn == 1.0
    ensures l + 2.0 * (-k * d) + (-k) * (-k) * nn == l
  {
    OneTimes((-k) * (-k), nn);
    assert (-k) * (-k) == k * k;
    assert k * k == 2.0 * (k * d);
    assert -k * d == -(k * d);
  }

  lemma ReflectInvolution(v: Vector3, n: Vector3)
    requires LengthSquared(n) == 1.0
    ensures Reflect(Reflect(v, n), n) == v
  {
    var d := Dot(v, n);
    ReflectNormalComponent(v, n);
    var r := Reflect(v, n);
    assert 2.0 * Dot(r, n) == -(2.0 * d);
    assert Reflect(r, n) == Sub(Sub(v, Scale(n, 2.0 * d)), Scale(n, -(2.0 * d)));
  }

  /** `refract(uv, n, etai_over_etat)`: the perpendicular part
      `eta (uv + cos_theta n)` with `cos_theta = fmin(-uv . n, 1)`, plus the
      parallel part `-sqrt(|1 - |perp|^2|) n`. */
  function RefractCos(uv: Vector3, n: Vector3): (c: real)
    ensures c <= 1.0
  {
    Min(-Dot(uv, n), 1.0)
  }

  function RefractPerp(uv: Vector3, n: Vector3, eta: real): Vector3 {
    Scale(Add(uv, Scale(n, RefractCos(uv, n))), eta)
  }

  /** For unit vectors the refracted direction crosses the surface: its
      component along the normal is `-sqrt(|1 - |perp|^2|)`, and the rest is
      the perpendicular part. */
  function Refract(m: Libm, uv: Vector3, n: Vector3, eta: real): (r: Vector3)
    ensures Sub(r, RefractPerp(uv, n, eta)) == Scale(n, -m.sqrt(Abs(1.0 - LengthSquared(RefractPerp(uv, n, eta)))))
    ensures LengthSquared(uv) == 1.0 && LengthSquared(n) == 1.0 ==>
              Dot(r, n) == -m.sqrt(Abs(1.0 - LengthSquared(RefractPerp(uv, n, eta))))
    ensures SqrtLaw(m) && LengthSquared(uv) == 1.0 && LengthSquared(n) == 1.0 ==> Dot(r, n) <= 0.0
  {
    var perp := RefractPerp(uv, n, eta);
    var s := -m.sqrt(Abs(1.0 - LengthSquared(perp)));
    DotLinear(perp, Scale(n, s), n, s);
    DotLinear(n, n, n, s);
    DotLaws(n, n);
    if LengthSquared(uv) == 1.0 && LengthSquared(n) == 1.0 then
      RefractPerpOrthogonal(uv, n, eta);
      OneTimes(s, LengthSquared(n));
      Add(perp, Scale(n, s))
    else
      Add(perp, Scale(n, s))
  }

  /** For unit vectors the clamp to 1 never bites, so the perpendicular part
      is orthogonal to the normal. */
  lemma RefractPerpOrthogonal(uv: Vector3, n: Vector3, eta: real)
    requires LengthSquared(uv) == 1.0 && LengthSquared(n) == 1.0
    ensures RefractCos(uv, n) == -Dot(uv, n)
    ensures Dot(RefractPerp(uv, n, eta), n) == 0.0
  {
    CauchySchwarz(uv, n);
    var c := RefractCos(uv, n);
    DotLinear(uv, Scale(n, c), n, c);
    DotLinear(n, n, n, c);
    DotLinear(Add(uv, Scale(n, c)), n, n, eta);
    DotLaws(n, n);
    var nn := LengthSquared(n);
    assert Dot(Add(uv, Scale(n, c)), n) == Dot(uv, n) + c * nn;
    OneTimes(c, nn);
  }

  /** For unit vectors the refracted direction is never zero: its squared
      length is `|perp|^2 + |1 - |perp|^2|`. */
  lemma RefractNonZero(m: Libm, uv: Vector3, n: Vector3, eta: real)
    requires SqrtLaw(m)
    requires LengthSquared(uv) == 1.0 && LengthSquared(n) == 1.0
    ensures Refract(m, uv, n, eta) != Zero()
  {
    var perp := RefractPerp(uv, n, eta);
    var a := Abs(1.0 - LengthSquared(perp));
    var s := -m.sqrt(a);
    RefractPerpOrthogonal(uv, n, eta);
    var par := Scale(n, s);
    LengthSquaredAdd(perp, par);
    DotLinear(n, n, perp, s);
    DotLaws(perp, n);
    assert Dot(perp, par) == 0.0;
    LengthSquaredScale(n, s);
    assert s * s == a;
    assert LengthSquared(par) == s * s * 1.0;
    LengthSquaredZero(perp);
    assert LengthSquared(Add(perp, par)) == LengthSquared(perp) + a;
    assert 0.0 < LengthSquared(perp) + a;
    LengthSquaredZero(Add(perp, par));
  }

  /** A ray hitting the surface head-on passes straight through. */
  lemma RefractHeadOn(m: Libm, n: Vector3, eta: real)
    requires SqrtLaw(m) && LengthSquared(n) == 1.0
    ensures Refract(m, Neg(n), n, eta) == Neg(n)
  {
    HeadOnPerp(n, eta);
    var perp := RefractPerp(Neg(n), n, eta);
    var a := Abs(1.0 - LengthSquared(perp));
    assert a == 1.0;
    SqrtOfOne(m);
    var root := m.sqrt(a);
    assert root == 1.0;
    assert Refract(m, Neg(n), n, eta) == Add(perp, Scale(n, -root));
  }

  lemma HeadOnPerp(n: Vector3, eta: real)
    requires LengthSquared(n) == 1.0
    ensures RefractPerp(Neg(n), n, eta) == Zero()
  {
    DotLinear(n, n, n, -1.0);
    DotLaws(n, n);
    assert Dot(Neg(n), n) == -1.0;
    assert RefractCos(Neg(n), n) == 1.0;
    assert Add(Neg(n), Scale(n, 1.0)) == Zero();
  }

  /** `reflectance(cosine, ref_idx)`: Schlick's approximation
      `r0 + (1 - r0) (1 - cosine)^5` with `r0 = ((1 - k) / (1 + k))^2`. The
      source divides by `1 + ref_idx`. */
  function SchlickR0(k: real): (r0: real)
    requires k != -1.0
    ensures 0.0 <= r0
    ensures 0.0 <= k ==> r0 <= 1.0
  {
    var q := (1.0 - k) / (1.0 + k);
    SquarePositive(q);
    if 0.0 <= k then UnitRatio(k); q * q else q * q
  }

  lemma UnitRatio(k: real)
    requires 0.0 <= k
    ensures var q := (1.0 - k) / (1.0 + k); q * q <= 1.0
  {
    var q := (1.0 - k) / (1.0 + k);
    assert q * (1.0 + k) == 1.0 - k;
    UnitSquare(q);
  }

  function Reflectance(m: Libm, cosine: real, k: real): (r: real)
    requires k != -1.0
    ensures 0.0 <= k && 0.0 <= m.pow(1.0 - cosine, 5.0) <= 1.0 ==> SchlickR0(k) <= r <= 1.0
  {
    var r0 := SchlickR0(k);
    var p := m.pow(1.0 - cosine, 5.0);
    if 0.0 <= k && 0.0 <= p <= 1.0 then
      UnitFraction(1.0 - r0, p);
      r0 + (1.0 - r0) * p
    else
      r0 + (1.0 - r0) * p
  }

  /** At normal incidence the reflectance is `r0`, at grazing incidence it is
      1, and in between it stays in [r0, 1] for a non-negative index, given a
      `pow` that maps [0, 1] into [0, 1]. */
  lemma ReflectanceLaws(m: Libm, cosine: real, k: real)
    requires k != -1.0
    ensures m.pow(0.0, 5.0) == 0.0 ==> Reflectance(m, 1.0, k) == SchlickR0(k)
    ensures m.pow(1.0, 5.0) == 1.0 ==> Reflectance(m, 0.0, k) == 1.0
    ensures 0.0 <= k && 0.0 <= m.pow(1.0 - cosine, 5.0) <= 1.0 ==>
              SchlickR0(k) <= Reflectance(m, cosine, k) <= 1.0
  {
    var r0 := SchlickR0(k);
    var p := m.pow(1.0 - cosine, 5.0);
    assert Reflectance(m, cosine, k) == r0 + (1.0 - r0) * p;
    if 0.0 <= k && 0.0 <= p <= 1.0 {
      UnitFraction(1.0 - r0, p);
    }
  }

  /** `r0` is the same for an index and for its reciprocal, so passing the
      refraction ratio `1/ir` instead of `ir` to `reflectance` changes
      nothing. */
  lemma SchlickR0Reciprocal(k: real)
    requires k != 0.0 && k != -1.0
    ensures 1.0 / k != -1.0
    ensures SchlickR0(1.0 / k) == SchlickR0(k)
  {
    var q := (1.0 - k) / (1.0 + k);
    var j := 1.0 / k;
    var p := (1.0 - j) / (1.0 + j);
    assert j * k == 1.0;
    assert (1.0 + j) * k == k + 1.0;
    assert p * (1.0 + j) == 1.0 - j;
    assert p * (k + 1.0) == (1.0 - j) * k;
    assert (1.0 - j) * k == k - 1.0;
    assert p == -q;
    assert p * p == q * q;
  }

  /** `refraction_ratio` of `Dielectric::scatter`: `1 / ir` entering the
      front face, `ir` leaving. Entering, the ratio times the index is 1. */
  function RefractionRatio(frontFace: bool, ir: real): (ratio: real)
    requires frontFace ==> ir != 0.0
    ensures frontFace ==> ratio * ir == 1.0
    ensures !frontFace ==> ratio == ir
  {
    if frontFace then 1.0 / ir else ir
  }

  /** The random input of one scatter: the vectors returned by
      `norm_random_in_unit_sphere` and `random_in_unit_sphere`, and the number
      returned by `random_number_t()`. */
  datatype BounceSample = BounceSample(unitVector: Vector3, inSphere: Vector3, draw: real)

  /** What `scatter` returns and writes: whether the ray scattered, the
      attenuation and the scattered ray. */
  datatype ScatterResult = ScatterResult(ok: bool, attenuation: Color, scattered: Ray)

  /** `Lambertian::scatter`: the normal plus a random unit vector, or the
      normal itself when that sum is near zero. */
  function LambertianScatter(m: Libm, albedo: Texture, rec: HitRecord, sample: BounceSample): (res: ScatterResult)
    ensures res.ok && res.scattered.origin == rec.p
    ensures res.attenuation == Value(m, albedo, rec.u, rec.v, rec.p)
    ensures !IsNearZero(Add(rec.normal, sample.unitVector)) ==>
              res.scattered.direction == Add(rec.normal, sample.unitVector)
    ensures IsNearZero(Add(rec.normal, sample.unitVector)) ==> res.scattered.direction == rec.normal
    ensures rec.normal != Zero() ==> res.scattered.direction != Zero()
  {
    var direction := Add(rec.normal, sample.unitVector);
    NearZeroLaws(direction);
    var d := if IsNearZero(direction) then rec.normal else direction;
    ScatterResult(true, Value(m, albedo, rec.u, rec.v, rec.p), Ray(rec.p, d))
  }

  /** Requirements for normalising the incoming direction: the square-root
      law and a non-zero direction. */
  predicate CanNormalize(m: Libm, v: Vector3) {
    v != Zero() && Length(m, v) != 0.0
  }

  /** `Metal::scatter`: the reflected unit direction, blurred by `fuzz` times
      a point of the unit ball; it scatters exactly when the result leaves
      the surface. */
  function MetalScatter(m: Libm, tint: Color, fuzz: real, rIn: Ray, rec: HitRecord, sample: BounceSample): (res: ScatterResult)
    requires CanNormalize(m, rIn.direction)
    ensures res.attenuation == tint && res.scattered.origin == rec.p
    ensures res.scattered.direction == Add(Reflect(Normalize(m, rIn.direction), rec.normal), Scale(sample.inSphere, fuzz))
    ensures res.ok <==> Dot(res.scattered.direction, rec.normal) > 0.0
    ensures res.ok ==> res.scattered.direction != Zero()
  {
    var reflected := Reflect(Normalize(m, rIn.direction), rec.normal);
    var scattered := Ray(rec.p, Add(reflected, Scale(sample.inSphere, fuzz)));
    var ok := Dot(scattered.direction, rec.normal) > 0.0;
    if ok then NonZeroByDot(scattered.direction, rec.normal); ScatterResult(ok, tint, scattered)
    else ScatterResult(ok, tint, scattered)
  }

  /** Without fuzz, a metal scatters exactly when the ray arrives against the
      unit normal. */
  lemma MetalWithoutFuzz(m: Libm, tint: Color, rIn: Ray, rec: HitRecord, sample: BounceSample)
    requires SqrtLaw(m) && rIn.direction != Zero() && LengthSquared(rec.normal) == 1.0
    ensures CanNormalize(m, rIn.direction)
    ensures MetalScatter(m, tint, 0.0, rIn, rec, sample).ok <==> Dot(rIn.direction, rec.normal) < 0.0
  {
    LengthPositive(m, rIn.direction);
    var l := Length(m, rIn.direction);
    var u := Normalize(m, rIn.direction);
    ReflectLaws(u, rec.normal);
    assert Add(Reflect(u, rec.normal), Scale(sample.inSphere, 0.0)) == Reflect(u, rec.normal);
    assert Scale(u, l) == rIn.direction;
    DotLinear(u, u, rec.normal, l);
    assert Dot(rIn.direction, rec.normal) == l * Dot(u, rec.normal);
    SignOfProduct(l, Dot(u, rec.normal));
  }

  /** Snell's law has no solution: `refraction_ratio * sin_theta > 1` with
      `sin_theta = sqrt(1 - cos_theta^2)`. */
  predicate CannotRefract(m: Libm, u: Vector3, n: Vector3, ratio: real) {
    var c := RefractCos(u, n);
    ratio * m.sqrt(1.0 - c * c) > 1.0
  }

  /** `Dielectric::scatter`: always scatters, unattenuated. It reflects when
      Snell's law has no solution (`ratio * sin_theta > 1`) or when
      Schlick's reflectance beats the random draw, and refracts otherwise. */
  function DielectricScatter(m: Libm, ir: real, rIn: Ray, rec: HitRecord, sample: BounceSample): (res: ScatterResult)
    requires CanNormalize(m, rIn.direction)
    requires rec.frontFace ==> ir != 0.0
    requires RefractionRatio(rec.frontFace, ir) != -1.0
    ensures res.ok && res.attenuation == Splat(1.0) && res.scattered.origin == rec.p
    ensures var u := Normalize(m, rIn.direction);
            CannotRefract(m, u, rec.normal, RefractionRatio(rec.frontFace, ir)) ==>
              res.scattered.direction == Reflect(u, rec.normal)
    ensures var u := Normalize(m, rIn.direction);
            res.scattered.direction == Reflect(u, rec.normal)
            || res.scattered.direction == Refract(m, u, rec.normal, RefractionRatio(rec.frontFace, ir))
  {
    var ratio := RefractionRatio(rec.frontFace, ir);
    var unitDirection := Normalize(m, rIn.direction);
    var cosTheta := RefractCos(unitDirection, rec.normal);
    var direction :=
      if CannotRefract(m, unitDirection, rec.normal, ratio) || Reflectance(m, cosTheta, ratio) > sample.draw
      then Reflect(unitDirection, rec.normal)
      else Refract(m, unitDirection, rec.normal, ratio);
    ScatterResult(true, Splat(1.0), Ray(rec.p, direction))
  }

  /** What `scatter` needs of the material: the divisors of `Dielectric` are
      non-zero. */
  predicate MaterialReady(mat: Material) {
    mat.Dielectric? ==> mat.ir != 0.0 && mat.ir != -1.0 && 1.0 / mat.ir != -1.0
  }

  /** `rec.material->scatter(r_in, rec, attenuation, scattered)` */
  function ScatterOff(m: Libm, mat: Material, rIn: Ray, rec: HitRecord, sample: BounceSample): (res: ScatterResult)
    requires CanNormalize(m, rIn.direction) && MaterialReady(mat)
    ensures res.scattered.origin == rec.p
    ensures mat.Lambertian? ==> res.ok && res.attenuation == Value(m, mat.albedo, rec.u, rec.v, rec.p)
    ensures mat.Metal? ==> res.attenuation == mat.tint &&
                           (res.ok <==> Dot(res.scattered.direction, rec.normal) > 0.0)
    ensures mat.Dielectric? ==> res.ok && res.attenuation == Splat(1.0)
  {
    match mat
    case Lambertian(albedo) => LambertianScatter(m, albedo, rec, sample)
    case Metal(tint, fuzz) => MetalScatter(m, tint, fuzz, rIn, rec, sample)
    case Dielectric(ir) => DielectricScatter(m, ir, rIn, rec, sample)
  }

  /** Off a unit normal, every scattered ray has a non-zero direction, so it
      can be traced further. */
  lemma ScatteredDirectionNonZero(m: Libm, mat: Material, rIn: Ray, rec: HitRecord, sample: BounceSample)
    requires SqrtLaw(m) && CanNormalize(m, rIn.direction) && MaterialReady(mat)
    requires LengthSquared(rec.normal) == 1.0
    ensures var res := ScatterOff(m, mat, rIn, rec, sample);
            res.ok ==> res.scattered.direction != Zero()
  {
    LengthSquaredZero(rec.normal);
    if mat.Dielectric? {
      var u := Normalize(m, rIn.direction);
      NormalizeUnit(m, rIn.direction);
      ReflectLaws(u, rec.normal);
      LengthSquaredZero(Reflect(u, rec.normal));
      RefractNonZero(m, u, rec.normal, RefractionRatio(rec.frontFace, mat.ir));
    }
  }
}

=== FILE: spheres.dfy ===
/** `Sphere` (include/raytracing/sphere.h): the ray-sphere intersection with
    its root selection and the record it fills. */
module Spheres {
  import opened Wrappers
  import opened MathLib
  import opened Vectors
  import opened Rays
  import opened Materials
  import opened Hitables
  import opened Quadratics

  datatype Sphere = Sphere(center: Point3, radius: real, material: Option<Material>)

  /** `Sphere(center, radius)`: a sphere with a null material. */
  function PlainSphere(center: Point3, radius: real): (s: Sphere)
    ensures s.center == center && s.radius == radius && s.material.None?
  {
    Sphere(center, radius, None)
  }

  /** The sphere's surface. */
  predicate OnSphere(s: Sphere, p: Point3) {
    LengthSquared(Sub(p, s.center)) == s.radius * s.radius
  }

  /** `a`, `half_b` and `c` of `Sphere::hit`, from `oc = origin - center`. */
  function Coefficients(s: Sphere, r: Ray): Quadratic {
    var oc := Sub(r.origin, s.center);
    Quadratic(LengthSquared(r.direction), Dot(oc, r.direction), LengthSquared(oc) - s.radius * s.radius)
  }

  /** The quadratic measures how far `at(t)` is from the surface: it is zero
      exactly where the ray meets the sphere. */
  lemma CoefficientsMeaning(s: Sphere, r: Ray, t: real)
    ensures Eval(Coefficients(s, r), t) == LengthSquared(Sub(At(r, t), s.center)) - s.radius * s.radius
    ensures Eval(Coefficients(s, r), t) == 0.0 <==> OnSphere(s, At(r, t))
  {
    DistanceQuadratic(r, s.center, t);
  }

  /** `get_sphere_uv(p, u, v)`: `u = (atan2(-z, x) + pi) / (2 pi)` and
      `v = acos(-y) / pi`. Both land in [0, 1] when `atan2` returns an angle
      in [-pi, pi] and `acos` one in [0, pi]. */
  function SphereUv(m: Libm, p: Point3): (uv: (real, real))
    requires Pi(m) != 0.0
    ensures -Pi(m) <= m.atan2(-p.z, p.x) <= Pi(m) ==> 0.0 <= uv.0 <= 1.0
    ensures 0.0 <= m.acos(-p.y) <= Pi(m) ==> 0.0 <= uv.1 <= 1.0
  {
    ((m.atan2(-p.z, p.x) + Pi(m)) / (2.0 * Pi(m)), m.acos(-p.y) / Pi(m))
  }

  /** The part of `Sphere::hit` after a root has been chosen: `t`, `p`, the
      oriented normal, the material and the surface coordinates. Every field
      of the caller's record is written. */
  function RecordAt(m: Libm, s: Sphere, r: Ray, t: real): (rec: HitRecord)
    requires s.radius != 0.0 && Pi(m) != 0.0
    ensures rec.t == t && rec.p == At(r, t) && rec.material == s.material
    ensures Dot(r.direction, rec.normal) <= 0.0
    ensures rec.frontFace <==> Dot(r.direction, OutwardNormal(s, rec.p)) < 0.0
    ensures rec.normal == if rec.frontFace then OutwardNormal(s, rec.p) else Neg(OutwardNormal(s, rec.p))
    ensures (rec.u, rec.v) == SphereUv(m, OutwardNormal(s, rec.p))
  {
    var p := At(r, t);
    var outward := Div(Sub(p, s.center), s.radius);
    var uv := SphereUv(m, outward);
    SetFaceNormal(HitRecord(p, outward, t, s.material, false, uv.0, uv.1), r, outward)
  }

  /** The outward normal `(p - center) / radius`, which a negative radius
      turns inward. */
  function OutwardNormal(s: Sphere, p: Point3): Vector3
    requires s.radius != 0.0
  {
    Div(Sub(p, s.center), s.radius)
  }

  /** A negative radius turns the outward normal inward. */
  lemma NegativeRadiusFlipsNormal(center: Point3, k: real, mat: Option<Material>, p: Point3)
    requires k != 0.0
    ensures OutwardNormal(Sphere(center, -k, mat), p) == Neg(OutwardNormal(Sphere(center, k, mat), p))
  {
  }

  /** The requirements of `Sphere::hit` that the source leaves unchecked: a
      zero direction makes `a` zero, and a zero radius is a divisor. */
  predicate CanHit(m: Libm, s: Sphere, r: Ray) {
    r.direction != Zero() && s.radius != 0.0 && Pi(m) != 0.0
  }

  /** `Sphere::hit(r, t_min, t_max, rec)`: `None` for "returns false and
      leaves rec untouched", `Some(rec)` for the record it writes. */
  function Hit(m: Libm, s: Sphere, r: Ray, tMin: real, tMax: Limit): (res: Option<HitRecord>)
    requires CanHit(m, s, r)
    ensures 0.0 < Coefficients(s, r).a
    ensures res.Some? ==> InRange(res.value.t, tMin, tMax)
    ensures res.Some? ==> res.value.p == At(r, res.value.t) && res.value.material == s.material
    ensures res.Some? ==> Dot(r.direction, res.value.normal) <= 0.0
    ensures res.Some? ==> res.value.normal == OutwardNormal(s, res.value.p)
                          || res.value.normal == Neg(OutwardNormal(s, res.value.p))
    ensures res.Some? ==> (res.value.frontFace <==> Dot(r.direction, OutwardNormal(s, res.value.p)) < 0.0)
    ensures res.Some? ==> res.value.normal == if res.value.frontFace then OutwardNormal(s, res.value.p)
                                              else Neg(OutwardNormal(s, res.value.p))
    ensures res.Some? ==> (res.value.u, res.value.v) == SphereUv(m, OutwardNormal(s, res.value.p))
    ensures Discriminant(Coefficients(s, r)) < 0.0 ==> res.None?
    ensures 0.0 <= Discriminant(Coefficients(s, r)) ==>
              var q := Coefficients(s, r);
              (InRange(NearRoot(m, q), tMin, tMax) ==> res.Some? && res.value.t == NearRoot(m, q))
              && (!InRange(NearRoot(m, q), tMin, tMax) && InRange(FarRoot(m, q), tMin, tMax)
                  ==> res.Some? && res.value.t == FarRoot(m, q))
              && (!InRange(NearRoot(m, q), tMin, tMax) && !InRange(FarRoot(m, q), tMin, tMax)
                  ==> res.None?)
  {
    var q := Coefficients(s, r);
    LengthSquaredZero(r.direction);
    if Discriminant(q) < 0.0 then None
    else
      var near := NearRoot(m, q);
      if InRange(near, tMin, tMax) then Some(RecordAt(m, s, r, near))
      else
        var far := FarRoot(m, q);
        if InRange(far, tMin, tMax) then Some(RecordAt(m, s, r, far))
        else None
  }

  /** The hit is the nearest point of the sphere along the ray within
      [t_min, t_max]: a reported hit lies on the sphere and no point of the
      sphere in range comes before it, and no hit is reported only when no
      point of the sphere lies in range. */
  lemma HitIsNearestIntersection(m: Libm, s: Sphere, r: Ray, tMin: real, tMax: Limit)
    requires SqrtLaw(m) && CanHit(m, s, r)
    ensures var res := Hit(m, s, r, tMin, tMax);
            res.Some? ==> OnSphere(s, res.value.p) && Eval(Coefficients(s, r), res.value.t) == 0.0
    ensures var res := Hit(m, s, r, tMin, tMax);
            forall t :: InRange(t, tMin, tMax) && OnSphere(s, At(r, t)) ==> res.Some? && res.value.t <= t
  {
    var q := Coefficients(s, r);
    LengthSquaredZero(r.direction);
    var res := Hit(m, s, r, tMin, tMax);
    if res.Some? {
      var t0 := res.value.t;
      RootsSolve(m, q, t0);
      CoefficientsMeaning(s, r, t0);
    }
    forall t | InRange(t, tMin, tMax) && OnSphere(s, At(r, t))
      ensures res.Some? && res.value.t <= t
    {
      CoefficientsMeaning(s, r, t);
      if Discriminant(q) < 0.0 {
        NoRootsSolve(q, t);
      } else {
        RootsSolve(m, q, t);
      }
    }
  }

  /** A reported hit has a unit normal. */
  lemma HitNormalIsUnit(m: Libm, s: Sphere, r: Ray, tMin: real, tMax: Limit)
    requires SqrtLaw(m) && CanHit(m, s, r)
    ensures var res := Hit(m, s, r, tMin, tMax);
            res.Some? ==> LengthSquared(res.value.normal) == 1.0
  {
    HitIsNearestIntersection(m, s, r, tMin, tMax);
    var res := Hit(m, s, r, tMin, tMax);
    if res.Some? {
      RecordAtUnitNormal(m, s, r, res.value.t);
    }
  }

  /** The record of a point on the sphere has a unit normal. */
  lemma RecordAtUnitNormal(m: Libm, s: Sphere, r: Ray, t: real)
    requires s.radius != 0.0 && Pi(m) != 0.0
    requires OnSphere(s, At(r, t))
    ensures LengthSquared(RecordAt(m, s, r, t).normal) == 1.0
  {
    var outward := OutwardNormal(s, At(r, t));
    OnSphereUnitNormal(Sub(At(r, t), s.center), s.radius);
    LengthSquaredScale(outward, -1.0);
  }

  /** A vector whose squared length is `k^2` divided by `k` is a unit
      vector. */
  lemma OnSphereUnitNormal(v: Vector3, k: real)
    requires k != 0.0 && LengthSquared(v) == k * k
    ensures LengthSquared(Div(v, k)) == 1.0
  {
    var n := Div(v, k);
    var kk := k * k;
    assert n.x * k == v.x && n.y * k == v.y && n.z * k == v.z;
    calc {
      LengthSquared(n) * kk;
      == (n.x * k) * (n.x * k) + (n.y * k) * (n.y * k) + (n.z * k) * (n.z * k);
      == v.x * v.x + v.y * v.y + v.z * v.z;
      == LengthSquared(v);
      == kk;
    }
    SquarePositive(k);
    calc {
      kk;
      == k * k;
      > 0.0;
    }
    CancelFactor(LengthSquared(n), kk);
  }

  /** Narrowing the upper end to a `bound` inside the range keeps a hit at
      or before the bound and drops one beyond it. This is what lets the scan
      of a list pass its closest distance so far as the new upper end. */
  lemma HitShrink(m: Libm, s: Sphere, r: Ray, tMin: real, tMax: Limit, bound: real)
    requires SqrtLaw(m) && CanHit(m, s, r)
    requires tMax.Infinity? || bound <= tMax.value
    ensures var wide := Hit(m, s, r, tMin, tMax);
            var narrow := Hit(m, s, r, tMin, Finite(bound));
            if wide.Some? && wide.value.t <= bound then narrow == wide else narrow.None?
  {
    var q := Coefficients(s, r);
    LengthSquaredZero(r.direction);
    if 0.0 <= Discriminant(q) {
      RootsSolve(m, q, 0.0);
    }
  }
}

=== FILE: textures.dfy ===
/** Textures: `SolidColor` (include/raytracing/texture.h) and the
    `CheckerTexture` that the last tutorial step defines
    (apps/step_next_1/main.cpp). The virtual `Texture::value` becomes a
    function over a closed datatype; a checker holds its two sub-textures by
    value instead of by shared pointer. */
module Textures {
  import opened MathLib
  import opened Vectors
  import opened Colors

  datatype Texture =
    | SolidColor(color: Color)
    | Checker(even: Texture, odd: Texture)

  /** `SolidColor()`: the colour member is default-constructed, hence black. */
  function DefaultSolidColor(): (t: Texture)
    ensures t.SolidColor? && t.color == Zero()
  {
    SolidColor(Zero())
  }

  /** `CheckerTexture(c1, c2)`: solid `c1` on the even squares and solid `c2`
      on the odd ones. */
  function CheckerOf(c1: Color, c2: Color): (t: Texture)
    ensures t.Checker? && t.even == SolidColor(c1) && t.odd == SolidColor(c2)
  {
    Checker(SolidColor(c1), SolidColor(c2))
  }

  /** The product of sines that decides the checker square of `p`. */
  function CheckerSines(m: Libm, p: Point3): real {
    m.sin(10.0 * p.x) * m.sin(10.0 * p.y) * m.sin(10.0 * p.z)
  }

  /** The solid colours a texture is built from. */
  function Palette(tex: Texture): set<Color> {
    match tex
    case SolidColor(c) => {c}
    case Checker(e, o) => Palette(e) + Palette(o)
  }

  /** `value(u, v, p)`: a solid colour returns its colour; a checker hands
      `u`, `v` and `p` unchanged to its odd texture when the sine product is
      negative and to its even texture otherwise, zero included. The result
      is always one of the texture's solid colours. */
  function Value(m: Libm, tex: Texture, u: real, v: real, p: Point3): (r: Color)
    ensures r in Palette(tex)
  {
    match tex
    case SolidColor(c) => c
    case Checker(e, o) =>
      if CheckerSines(m, p) < 0.0 then Value(m, o, u, v, p) else Value(m, e, u, v, p)
  }

  /** `SolidColor(c).value(u, v, p)` is `c` wherever it is sampled, and the
      default solid colour is black. */
  lemma SolidValue(m: Libm, c: Color, u: real, v: real, p: Point3)
    ensures Value(m, SolidColor(c), u, v, p) == c
    ensures Value(m, DefaultSolidColor(), u, v, p) == Zero()
  {
  }

  /** The checker picks its odd texture exactly when the sine product is
      negative; for `CheckerTexture(c1, c2)` that is `c2`, and otherwise
      `c1`. */
  lemma CheckerChoice(m: Libm, c1: Color, c2: Color, u: real, v: real, p: Point3)
    ensures Value(m, CheckerOf(c1, c2), u, v, p) == (if CheckerSines(m, p) < 0.0 then c2 else c1)
    ensures CheckerSines(m, p) == 0.0 ==> Value(m, CheckerOf(c1, c2), u, v, p) == c1
  {
  }

  /** No texture of this program reads the surface coordinates `u` and `v`:
      the value depends on the point alone. */
  lemma {:induction false} ValueIgnoresUv(m: Libm, tex: Texture, u1: real, v1: real, u2: real, v2: real, p: Point3)
    ensures Value(m, tex, u1, v1, p) == Value(m, tex, u2, v2, p)
  {
    match tex
    case SolidColor(c) =>
    case Checker(e, o) =>
      ValueIgnoresUv(m, e, u1, v1, u2, v2, p);
      ValueIgnoresUv(m, o, u1, v1, u2, v2, p);
  }

  /** A texture whose solid colours lie in [0, 1]^3 returns colours in
      [0, 1]^3. */
  predicate PaletteInUnitCube(tex: Texture) {
    forall c :: c in Palette(tex) ==> InUnitCube(c)
  }

  lemma ValueInUnitCube(m: Libm, tex: Texture, u: real, v: real, p: Point3)
    requires PaletteInUnitCube(tex)
    ensures InUnitCube(Value(m, tex, u, v, p))
  {
  }
}

=== FILE: utils.dfy ===
/** `include/raytracing/utils.h`: the uniform draws built on `rand()` and the
    degree-to-radian conversion.

    `rand()` is not called: each draw is an explicit integer argument, and the
    operations state what they return for any draw the C library can produce,
    an integer in [0, RAND_MAX]. */
module Utils {
  import opened MathLib

  /** `RAND_MAX` of the GNU C library. */
  const RandMax: int := 2147483647

  /** A value `rand()` can return. */
  predicate IsDraw(draw: int) {
    0 <= draw <= RandMax
  }

  /** `random_number_t()`: the draw scaled into [0, 1). */
  function RandomUnit(draw: int): (r: real)
    requires IsDraw(draw)
    ensures 0.0 <= r < 1.0
  {
    draw as real / (RandMax as real + 1.0)
  }

  /** `random_number_t(min, max)`: the unit draw stretched onto [min, max). */
  function RandomIn(lo: real, hi: real, draw: int): (r: real)
    requires IsDraw(draw)
    ensures lo < hi ==> lo <= r < hi
    ensures lo == hi ==> r == lo
    ensures hi < lo ==> hi < r <= lo
  {
    var u := RandomUnit(draw);
    var d := hi - lo;
    FractionOf(d, u);
    lo + d * u
  }

  /** The smallest and the largest draw reach the two ends of the range: the
      draw 0 gives `min`, and no draw gives `max`. */
  lemma RandomInEnds(lo: real, hi: real)
    ensures RandomIn(lo, hi, 0) == lo
    ensures RandomIn(lo, hi, RandMax) == lo + (hi - lo) * (2147483647.0 / 2147483648.0)
  {
  }

  /** `degrees_to_radians` */
  function DegreesToRadians(m: Libm, degrees: real): real {
    degrees * Pi(m) / 180.0
  }

  /** The conversion is linear and maps 0 to 0 and 180 degrees to `pi`. */
  lemma DegreesToRadiansLaws(m: Libm, a: real, b: real, k: real)
    ensures DegreesToRadians(m, 0.0) == 0.0
    ensures DegreesToRadians(m, 180.0) == Pi(m)
    ensures DegreesToRadians(m, 90.0) == Pi(m) / 2.0
    ensures DegreesToRadians(m, a + b) == DegreesToRadians(m, a) + DegreesToRadians(m, b)
    ensures DegreesToRadians(m, k * a) == k * DegreesToRadians(m, a)
  {
  }
}

=== FILE: vectors.dfy ===
/** `Vector3` (include/raytracing/vector3.h, src/vector3.cpp): a point, a
    direction or an RGB colour. The class is a value type whose operators copy
    the left operand and apply the matching compound operator to the copy, so
    every operator is modelled as a pure function of its operands; a compound
    operator `v op= w` leaves `v` holding the function's result. */
module Vectors {
  import opened MathLib

  datatype Vector3 = Vector3(x: real, y: real, z: real)

  type Point3 = Vector3

  /** `Vector3()` */
  function Zero(): (r: Vector3)
    ensures r.x == 0.0 && r.y == 0.0 && r.z == 0.0
  {
    Vector3(0.0, 0.0, 0.0)
  }

  /** `Vector3(v)`: the same value in all three components */
  function Splat(v: real): (r: Vector3)
    ensures r.x == v && r.y == v && r.z == v
  {
    Vector3(v, v, v)
  }

  function Dot(u: Vector3, v: Vector3): real {
    u.x * v.x + u.y * v.y + u.z * v.z
  }

  function LengthSquared(v: Vector3): real {
    v.x * v.x + v.y * v.y + v.z * v.z
  }

  /** `length()`: the square root of `length_squared()` */
  function Length(m: Libm, v: Vector3): real {
    m.sqrt(LengthSquared(v))
  }

  function Sum(v: Vector3): real {
    v.x + v.y + v.z
  }

  /** The threshold `s` of `is_near_zero` */
  const NearZeroThreshold: real := 0.00000001

  predicate IsNearZero(v: Vector3) {
    Abs(v.x) < NearZeroThreshold && Abs(v.y) < NearZeroThreshold && Abs(v.z) < NearZeroThreshold
  }

  /** `v + w` and `v += w` */
  function Add(v: Vector3, w: Vector3): Vector3 {
    Vector3(v.x + w.x, v.y + w.y, v.z + w.z)
  }

  /** `v - w` and `v -= w` */
  function Sub(v: Vector3, w: Vector3): Vector3 {
    Vector3(v.x - w.x, v.y - w.y, v.z - w.z)
  }

  /** `v * t`, `t * v` (defined as `v * t`) and `v *= t` */
  function Scale(v: Vector3, t: real): Vector3 {
    Vector3(v.x * t, v.y * t, v.z * t)
  }

  /** Unary `-v`, which the source computes as `v *= -1` on a copy */
  function Neg(v: Vector3): Vector3 {
    Scale(v, -1.0)
  }

  /** `v * w` and `v *= w`: the component-wise product */
  function Mul(v: Vector3, w: Vector3): Vector3 {
    Vector3(v.x * w.x, v.y * w.y, v.z * w.z)
  }

  /** `v / t` and `v /= t` */
  function Div(v: Vector3, t: real): Vector3
    requires t != 0.0
  {
    Vector3(v.x / t, v.y / t, v.z / t)
  }

  predicate NoZeroComponent(v: Vector3) {
    v.x != 0.0 && v.y != 0.0 && v.z != 0.0
  }

  /** `t / v` and `t /= v`: divides the scalar by each component */
  function Recip(t: real, v: Vector3): Vector3
    requires NoZeroComponent(v)
  {
    Vector3(t / v.x, t / v.y, t / v.z)
  }

  /** `v / w` and `v /= w`: the component-wise quotient */
  function DivComponents(v: Vector3, w: Vector3): Vector3
    requires NoZeroComponent(w)
  {
    Vector3(v.x / w.x, v.y / w.y, v.z / w.z)
  }

  /** `cross_Vector3` */
  function Cross(u: Vector3, v: Vector3): Vector3 {
    Vector3(u.y * v.z - u.z * v.y, u.z * v.x - u.x * v.z, u.x * v.y - u.y * v.x)
  }

  /** `normalize_Vector3`: the vector divided by its length, which must not be
      zero */
  function Normalize(m: Libm, v: Vector3): Vector3
    requires Length(m, v) != 0.0
  {
    Div(v, Length(m, v))
  }

  // ---------------------------------------------------------------------
  // Algebraic laws

  /** The default and the scalar constructors. */
  lemma ConstructorValues(v: real)
    ensures Zero() == Splat(0.0)
    ensures Sum(Splat(v)) == 3.0 * v
    ensures LengthSquared(Splat(v)) == 3.0 * v * v
  {
  }

  /** `dot` is symmetric and `v.dot(v)` is `length_squared()`. */
  lemma DotLaws(u: Vector3, v: Vector3)
    ensures Dot(u, v) == Dot(v, u)
    ensures Dot(v, v) == LengthSquared(v)
  {
  }

  /** `length_squared()` is non-negative and is zero exactly for the zero
      vector. */
  lemma LengthSquaredZero(v: Vector3)
    ensures 0.0 <= LengthSquared(v)
    ensures LengthSquared(v) == 0.0 <==> v == Zero()
  {
    LengthSquaredNonNegative(v);
    if v != Zero() {
      LengthSquaredPositive(v);
    }
  }

  lemma LengthSquaredNonNegative(v: Vector3)
    ensures 0.0 <= LengthSquared(v)
  {
    SumOfSquares(v.x, v.y, v.z);
    calc {
      LengthSquared(v);
      == v.x * v.x + v.y * v.y + v.z * v.z;
      >= 0.0;
    }
  }

  lemma LengthSquaredPositive(v: Vector3)
    requires v != Zero()
    ensures 0.0 < LengthSquared(v)
  {
    SumOfSquares(v.x, v.y, v.z);
    assert v.x != 0.0 || v.y != 0.0 || v.z != 0.0;
    calc {
      LengthSquared(v);
      == v.x * v.x + v.y * v.y + v.z * v.z;
      > 0.0;
    }
  }

  /** A non-zero vector has a positive length, so it can be normalised. */
  lemma LengthPositive(m: Libm, v: Vector3)
    requires SqrtLaw(m)
    requires v != Zero()
    ensures 0.0 < Length(m, v)
  {
    LengthSquaredZero(v);
    SqrtPositive(m, LengthSquared(v));
  }

  /** `normalize_Vector3` yields a unit vector. */
  lemma NormalizeUnit(m: Libm, v: Vector3)
    requires SqrtLaw(m)
    requires v != Zero()
    ensures Length(m, v) != 0.0
    ensures LengthSquared(Normalize(m, v)) == 1.0
  {
    LengthPositive(m, v);
    var l := Length(m, v);
    var k := l * l;
    var n := Normalize(m, v);
    assert n.x * l == v.x && n.y * l == v.y && n.z * l == v.z;
    calc {
      LengthSquared(n) * k;
      == (n.x * l) * (n.x * l) + (n.y * l) * (n.y * l) + (n.z * l) * (n.z * l);
      == v.x * v.x + v.y * v.y + v.z * v.z;
      == LengthSquared(v);
      == k;
    }
    SquarePositive(l);
    CancelFactor(LengthSquared(n), k);
  }

  /** Each component of a unit vector lies in [-1, 1]. */
  lemma UnitComponents(v: Vector3)
    requires LengthSquared(v) == 1.0
    ensures -1.0 <= v.x <= 1.0 && -1.0 <= v.y <= 1.0 && -1.0 <= v.z <= 1.0
  {
    SquarePositive(v.x);
    SquarePositive(v.y);
    SquarePositive(v.z);
    SquareBound(v.x);
    SquareBound(v.y);
    SquareBound(v.z);
  }

  /** `is_near_zero` holds iff every component is below 1e-8 in magnitude;
      the zero vector is near zero and a vector that is not near zero is not
      the zero vector. */
  lemma NearZeroLaws(v: Vector3)
    ensures IsNearZero(v) <==> -NearZeroThreshold < v.x < NearZeroThreshold
                               && -NearZeroThreshold < v.y < NearZeroThreshold
                               && -NearZeroThreshold < v.z < NearZeroThreshold
    ensures IsNearZero(Zero())
    ensures !IsNearZero(v) ==> v != Zero()
  {
  }

  /** `sum()` is additive. */
  lemma SumAdditive(v: Vector3, w: Vector3)
    ensures Sum(Add(v, w)) == Sum(v) + Sum(w)
    ensures Sum(v) == Dot(v, Splat(1.0))
  {
  }

  /** `+= w` followed by `-= w` restores the receiver, and the other way
      round. */
  lemma AddSubRoundTrip(v: Vector3, w: Vector3)
    ensures Sub(Add(v, w), w) == v
    ensures Add(Sub(v, w), w) == v
  {
  }

  /** `*= t` followed by `/= t` restores the receiver for a non-zero `t`. */
  lemma ScaleDivRoundTrip(v: Vector3, t: real)
    requires t != 0.0
    ensures Div(Scale(v, t), t) == v
    ensures Scale(Div(v, t), t) == v
  {
  }

  /** Subtraction is addition of the negation, and negation is an
      involution. */
  lemma NegationLaws(v: Vector3, w: Vector3)
    ensures Sub(v, w) == Add(v, Neg(w))
    ensures Neg(Neg(v)) == v
    ensures Add(v, Neg(v)) == Zero()
  {
  }

  /** The component-wise product and quotient undo each other. */
  lemma MulDivComponentsRoundTrip(v: Vector3, w: Vector3)
    requires NoZeroComponent(w)
    ensures DivComponents(Mul(v, w), w) == v
    ensures Mul(DivComponents(v, w), w) == v
    ensures Mul(v, w) == Mul(w, v)
  {
  }

  /** `t / v` is a reciprocal scaling: multiplied back by `v` it gives `t` in
      every component. It is not `v / t`: `1 / (2, 2, 2)` is (0.5, 0.5, 0.5),
      while `(2, 2, 2) / 1` is (2, 2, 2). */
  lemma RecipLaws(t: real, v: Vector3)
    requires NoZeroComponent(v)
    ensures Mul(Recip(t, v), v) == Splat(t)
    ensures Recip(t, v) == Scale(Recip(1.0, v), t)
  {
  }

  /** `cross_Vector3(u, v)` is orthogonal to both arguments, anti-commutative,
      and zero for parallel arguments. */
  lemma CrossLaws(u: Vector3, v: Vector3, t: real)
    ensures Dot(Cross(u, v), u) == 0.0
    ensures Dot(Cross(u, v), v) == 0.0
    ensures Cross(v, u) == Neg(Cross(u, v))
    ensures Cross(u, u) == Zero()
    ensures Cross(u, Scale(u, t)) == Zero()
  {
  }

  /** Lagrange's identity: |u x v|^2 = |u|^2 |v|^2 - (u . v)^2. */
  lemma Lagrange(u: Vector3, v: Vector3)
    ensures LengthSquared(Cross(u, v)) == LengthSquared(u) * LengthSquared(v) - Dot(u, v) * Dot(u, v)
  {
    var c := Cross(u, v);
    assert c.x * c.x == u.y * u.y * v.z * v.z - 2.0 * u.y * v.z * u.z * v.y + u.z * u.z * v.y * v.y;
    assert c.y * c.y == u.z * u.z * v.x * v.x - 2.0 * u.z * v.x * u.x * v.z + u.x * u.x * v.z * v.z;
    assert c.z * c.z == u.x * u.x * v.y * v.y - 2.0 * u.x * v.y * u.y * v.x + u.y * u.y * v.x * v.x;
  }

  /** The Cauchy-Schwarz inequality; for unit vectors the dot product lies in
      [-1, 1]. */
  lemma CauchySchwarz(u: Vector3, v: Vector3)
    ensures Dot(u, v) * Dot(u, v) <= LengthSquared(u) * LengthSquared(v)
    ensures LengthSquared(u) == 1.0 && LengthSquared(v) == 1.0 ==> -1.0 <= Dot(u, v) <= 1.0
  {
    Lagrange(u, v);
    LengthSquaredZero(Cross(u, v));
    SquareBound(Dot(u, v));
  }

  // ---------------------------------------------------------------------
  // Linear helpers used by the geometric proofs

  lemma DotLinear(a: Vector3, b: Vector3, c: Vector3, t: real)
    ensures Dot(Add(a, b), c) == Dot(a, c) + Dot(b, c)
    ensures Dot(Sub(a, b), c) == Dot(a, c) - Dot(b, c)
    ensures Dot(Scale(a, t), c) == t * Dot(a, c)
    ensures Dot(c, Scale(a, t)) == t * Dot(c, a)
  {
  }

  lemma LengthSquaredScale(a: Vector3, t: real)
    ensures LengthSquared(Scale(a, t)) == t * t * LengthSquared(a)
  {
  }

  /** |a + b|^2 expanded. */
  lemma LengthSquaredAdd(a: Vector3, b: Vector3)
    ensures LengthSquared(Add(a, b)) == LengthSquared(a) + 2.0 * Dot(a, b) + LengthSquared(b)
  {
  }

  /** A vector with a non-zero dot product is not the zero vector. */
  lemma NonZeroByDot(a: Vector3, b: Vector3)
    requires Dot(a, b) != 0.0
    ensures a != Zero()
  {
  }
}

=== FILE: wrappers.dfy ===
/** Optional values: a `HitRecord` that may not exist, a material pointer that
    may be null, a sample stream that may run dry. */
module Wrappers {

  datatype Option<+T> = None | Some(value: T) {

    /** The wrapped value, or `default` when there is none. */
    function GetOr(default: T): T {
      match this
      case Some(v) => v
      case None => default
    }
  }
}
